=== FILE: README.md ===
# Capture API core, modelled in Dafny

Capture.API is the device-capture layer of an OSGi application. An *adapter* exposes devices made of fields. The core in this model has five parts:

- **Adapter manager.** Multiplexes one adapter over many client sessions (*handlers*). It opens the provider when the first session starts and closes it when the last session ends. It subscribes a (device, field) key at the provider only for the first listener of that key. It routes every event to the right listeners.
- **Poll service.** Keeps a registry of polled fields. Each field has its own period, a failure backoff and an "event only on change" filter. The worker loop reads the fields that are due.
- **Adapter configuration.** Persistent labels and properties of devices and fields. Any edit marks the device *customized*.
- **Cycle manager.** Keeps the cycle specs (`CycleSpec`), with their field subscriptions. Every cycle spec owns a cycle that is started, updated or disposed along with it. The report factory groups one cycle's notifications into a report per device.
- **Subscriber stream service.** Gives each client id a bounded event queue and an adapter handler. It tears a stream down when its queue overflows.

## How the model is built

- One module per core source file. A few modules are shared:
  - `Common` holds Option, Result and the error kinds, opaque objects, and Java's truncating remainder.
  - `DeviceModel` holds the device and field records.
  - `DeviceSpecs` holds the device-spec copy.
- Java `null` is `None`. A value whose class the core never inspects (a polled value, an event payload) is an opaque `Obj`.
- Every operation is a pure function from the old state to the new state and a status. A Java exception is a `Failed`/`Err` result.
- Collaborators whose code lies outside the core are not modelled by their code. These are the adapter provider, the cycles, and the handler factory with its handlers. Each call to one is appended to a log. It fails exactly when it lies in a `failing` set that the caller passes in.
- The wall clock is one parameter `now`, shared by every reading inside one call.
- A HashMap's iteration order is an explicit `order` sequence.
- Whether writing the configuration file succeeds is a `persists` flag. The in-memory change never depends on it.

## Model

| member | source | states |
|---|---|---|
| Common.JavaRem | src/main/java/havis/capture/poll/State.java:104 | Java's `%` for a positive divisor: the remainder has the dividend's sign, its magnitude is below the divisor, and quotient times divisor plus remainder gives back the dividend |
| Common.RemoveFirst | src/main/java/havis/capture/AdapterManager.java:219 | `List.remove(Object)` removes exactly one occurrence when present (the multiset loses one copy, the length drops by one) and changes nothing otherwise |
| PollState.HasPeriod | src/main/java/havis/capture/poll/State.java:49-51 | a field is polled exactly when its period is positive |
| PollState.SameKey | src/main/java/havis/capture/poll/State.java:147-167 | two states are equal exactly when their (device, field) keys are equal |
| PollState.Aligned | src/main/java/havis/capture/poll/State.java:99-110 | the next slot on the original schedule's grid: strictly after now and at most one period ahead, or, when the clock went backwards, at or after now and less than a period ahead |
| PollState.Next | src/main/java/havis/capture/poll/State.java:98-117 | only the next read time changes; fields without a period keep their time; after removing any backoff, the time is the aligned slot in the phase of the old read time |
| PollState.Reset | src/main/java/havis/capture/poll/State.java:90-93 | re-anchoring at a time moves the schedule onto that time's grid, at most one period past now; without a period the read time becomes exactly that time |
| PollState.Create | src/main/java/havis/capture/poll/State.java:32-39 | a new entry has no failures, no error flag and no value, keeps its key and settings, and is first due within one period after its anchor |
| PollState.SetValue | src/main/java/havis/capture/poll/State.java:66-72 | stores the value and reports "changed" exactly when it differs from the previous value |
| PollState.RecordError | src/main/java/havis/capture/poll/State.java:74-78 | counts one failure only when backoff is enabled and the counter is below 100; otherwise nothing changes; the counter never exceeds its cap |
| PollState.RecordSuccess | src/main/java/havis/capture/poll/State.java:80-83 | clears the failure counter and the error flag, so that the next schedule has no backoff |
| PollState.Remaining | src/main/java/havis/capture/poll/State.java:128-136 | time until due, never negative; zero exactly when due; when more than a period remains (clock went backwards) the entry is rescheduled first |
| PollState.FailureDelay | src/main/java/havis/capture/poll/State.java:113 | the raw failure delay is the count squared in seconds, capped at 3600 s, given in ms, never negative |
| PollState.BackoffExtra | src/main/java/havis/capture/poll/State.java:112-114 | the extra time after failures lies strictly above the raw delay and at most one period above it |
| PollState.BackoffBounds | src/main/java/havis/capture/poll/State.java:112-114 | the backoff after failures is a positive whole number of periods, longer than min(count², 3600) s and by at most one period |
| PollState.BackoffMonotone | src/main/java/havis/capture/poll/State.java:112-114 | more failures never give a shorter backoff |
| PollState.RemainingWithinPeriod | src/main/java/havis/capture/poll/State.java:128-136 | without backoff, a polled field read at the current clock is never due more than one period ahead |
| PollService.Lookup | src/main/java/havis/capture/poll/State.java:147-167 | finds the registry entry for a (device, field) key; none exactly when no entry has that key |
| PollService.IndexOf | src/main/java/havis/capture/poll/PollService.java:170 | `indexOf` by key equality: the first position with the key, or -1 exactly when the key is absent |
| PollService.Put | src/main/java/havis/capture/poll/PollService.java:171-178 | registering keeps keys unique, leaves every other key's entry alone and in its position, appends a new key at the end, and replaces a known key in place, carrying the old value over |
| PollService.Unregister | src/main/java/havis/capture/poll/PollService.java:183-185 | removes the key's entry and nothing else: the entries before it stay in place and the later ones move down by one; an absent key leaves the list unchanged |
| PollService.SetField | src/main/java/havis/capture/poll/PollService.java:166-186 | a null device or field is refused; otherwise only the registry changes, keys stay unique and no other key's entry is touched; a positive period moves no other entry, a period <= 0 closes the gap the key leaves |
| PollService.SetFieldEntry | src/main/java/havis/capture/poll/PollService.java:169-185 | a positive period leaves an entry with that period, no failures, the requested filter and the old value, in the old position or appended; a non-positive period leaves no entry and ignores an absent key |
| PollService.SetFieldDefault | src/main/java/havis/capture/poll/PollService.java:162-164 | the three-argument form uses the service-wide change filter |
| PollService.RemoveField | src/main/java/havis/capture/poll/PollService.java:195-199 | a null argument changes nothing; otherwise the key disappears, every other key keeps its entry, and the later entries move down by one in order |
| PollService.WithoutDeviceUnique | src/main/java/havis/capture/poll/PollService.java:206-214 | removing all of a device's fields keeps the registry's keys unique |
| PollService.RemoveFields | src/main/java/havis/capture/poll/PollService.java:206-214 | a null device changes nothing; otherwise the remaining entries are exactly the old ones of other devices, as a subsequence of the old list (order kept) one entry shorter for each entry of the device |
| PollService.WithoutDevice | src/main/java/havis/capture/poll/PollService.java:209-213 | the entries of other devices, as a subsequence of the list, shorter by the number of the device's entries |
| PollService.Clear | src/main/java/havis/capture/poll/PollService.java:219-221 | empties the registry and changes nothing else |
| PollService.ResetFailure | src/main/java/havis/capture/poll/PollService.java:223-234 | the matching entry loses its failures and is re-anchored at the service's start time; every other entry is unchanged |
| PollService.ResetMatching | src/main/java/havis/capture/poll/PollService.java:224-229 | the list keeps its length and order; exactly the entries with the key get success() then reset(time), the rest are unchanged |
| PollService.Start | src/main/java/havis/capture/poll/PollService.java:244-272 | fails with an illegal-state error exactly when already running; otherwise runs with the given source and listener and keeps the registry |
| PollService.Stop | src/main/java/havis/capture/poll/PollService.java:277-289 | stops the service and drops the listener, keeping everything else |
| PollService.StartStopStart | src/main/java/havis/capture/poll/PollService.java:244-289 | a second start fails, but a start after a stop succeeds again |
| PollService.ReadVia | src/main/java/havis/capture/poll/PollService.java:83-88 | reads go through the adapter when one is set, otherwise through the handler |
| PollService.PauseDelay | src/main/java/havis/capture/poll/PollService.java:39-49 | the worker's wait lies between zero and `Long.MAX_VALUE`; only polled fields are rescheduled, each exactly as its remaining-time query does |
| PollService.PauseDelayLeast | src/main/java/havis/capture/poll/PollService.java:42-49 | the wait is the least remaining time over the polled fields: no polled field is due sooner, the wait is one of their remaining times, and it is `Long.MAX_VALUE` when none is polled |
| PollService.Step | src/main/java/havis/capture/poll/PollService.java:83-117 | a successful read clears failures, stores the value and emits a success event when there is a listener and the change filter lets it through; a failed read keeps the value, sets the error flag, logs once, notifies the listener and backs off |
| PollService.Due | src/main/java/havis/capture/poll/PollService.java:75 | a field is read in a pass exactly when it has a period and, after the reschedule its remaining-time query makes, its read time is not in the future |
| PollService.Rescheduled | src/main/java/havis/capture/poll/PollService.java:75 | the remaining-time query changes only the next read time, nothing for a field without a period, and keeps the failure cap |
| PollService.Visit | src/main/java/havis/capture/poll/PollService.java:75-117 | one field of a pass keeps its key and the failure cap; a field that is not due is only rescheduled and emits nothing; without a listener only warning lines appear |
| PollService.Pass | src/main/java/havis/capture/poll/PollService.java:72-119 | one pass keeps every entry's key in place and the failure cap; a stopped service emits nothing; without a listener only the per-field warning lines appear |
| PollService.PassRunning | src/main/java/havis/capture/poll/PollService.java:72-119 | a running pass reads and steps exactly the polled fields whose remaining time is zero, each after the reschedule its remaining-time query made, and only reschedules the others |
| PollService.PassStopped | src/main/java/havis/capture/poll/PollService.java:74-81 | a stopped pass reads nothing, keeps the reschedules made up to and including the first due field, and leaves every later field as it was |
| PollService.PassEvents | src/main/java/havis/capture/poll/PollService.java:72-119 | the events of a running pass are the events of each field's visit, one after the other in registry order |
| PollService.Run | src/main/java/havis/capture/poll/PollService.java:72-88 | a worker pass that reads through the adapter or handler changes only the registry, keeps its keys unique, emits nothing when stopped and only warning lines without a listener |
| PollService.SuccessfulReads | src/main/java/havis/capture/poll/PollService.java:90-97 | after successful reads the entry holds the last value read and the change filter setting is unchanged |
| PollService.SuccessfulReadsReport | src/main/java/havis/capture/poll/PollService.java:93-97 | the values reported over repeated reads are exactly the reference "changed" filter's output; without the filter, every value read |
| PollService.ChangeFilterExample | src/main/java/havis/capture/poll/PollService.java:96-97 | reads 1,1,2,2,2,3 under the change filter report 1,2,3 |
| AdapterManager.EmptyBalanced | src/main/java/havis/capture/AdapterManager.java:251-269 | a manager with no sessions is balanced: opens match closes and subscribes match unsubscribes |
| AdapterManager.SubscribeListener | src/main/java/havis/capture/AdapterManager.java:197-211 | the provider is subscribed only for the first listener of a key; the listener is appended; a failing provider call leaves an empty entry behind |
| AdapterManager.UnsubscribeListener | src/main/java/havis/capture/AdapterManager.java:213-231 | removes one registration; the provider is unsubscribed and the key dropped exactly when the last listener leaves; an unknown key or listener changes nothing |
| AdapterManager.SubscribeKeepsBalance | src/main/java/havis/capture/AdapterManager.java:197-211 | after any subscribe, every key has one more provider subscribe than unsubscribe exactly while it has an entry |
| AdapterManager.UnsubscribeKeepsBalance | src/main/java/havis/capture/AdapterManager.java:213-231 | unsubscribing preserves the same balance |
| AdapterManager.AddCapsule | src/main/java/havis/capture/AdapterManager.java:251-259 | the provider is opened exactly when the first session arrives |
| AdapterManager.RemoveCapsule | src/main/java/havis/capture/AdapterManager.java:261-269 | the provider is closed exactly when the last session leaves |
| AdapterManager.CountAppend | src/main/java/havis/capture/AdapterManager.java:251-269 | appending one call to the log raises that call's count by one and leaves the other calls' counts unchanged |
| AdapterManager.AddCapsuleKeepsBalance | src/main/java/havis/capture/AdapterManager.java:251-259 | the provider has been opened once more than closed exactly while some session is live, across a session start |
| AdapterManager.RemoveCapsuleKeepsBalance | src/main/java/havis/capture/AdapterManager.java:261-269 | and across a session end |
| AdapterManager.AddAll | src/main/java/havis/capture/AdapterManager.java:251-259 | starting several sessions in turn appends their capsules in order |
| AdapterManager.ManySessionsOneOpen | src/main/java/havis/capture/AdapterManager.java:251-259 | any number of sessions opens the provider at most once |
| AdapterManager.ManyListenersOneSubscribe | src/main/java/havis/capture/AdapterManager.java:197-211 | any number of listeners of one key subscribe the provider at most once and are all registered in order |
| AdapterManager.Recipients | src/main/java/havis/capture/AdapterManager.java:58-90 | a value change goes to the listeners registered for its key, none when the key has no entry; a usability event goes to every live session |
| AdapterManager.Deliver | src/main/java/havis/capture/AdapterManager.java:58-90 | one delivery loop calls the recipients in order with the event, never more of them than there are, and stops right after the first one that throws |
| AdapterManager.Dispatch | src/main/java/havis/capture/AdapterManager.java:52-95 | a null event reaches nobody; otherwise the recipients are called with the event in list order, and delivery ends right after the first recipient that throws; when none throws, every recipient is called once |
| AdapterManager.DispatchRouting | src/main/java/havis/capture/AdapterManager.java:52-95 | a listener is called exactly when it is a recipient that no throwing recipient precedes; when none throws, a value change reaches exactly the listeners of its key and a usability event exactly the live sessions |
| AdapterManager.CreateSession | src/main/java/havis/capture/AdapterManager.java:271-315 | a new session has no keys and no listener, and its capsule is registered with the manager |
| AdapterManager.SetListener | src/main/java/havis/capture/AdapterManager.java:317-325 | replaces the session's listener and nothing else |
| AdapterManager.Forward | src/main/java/havis/capture/AdapterManager.java:278-311 | a session forwards an event to its listener exactly when it has one |
| AdapterManager.SessionSubscribe | src/main/java/havis/capture/AdapterManager.java:363-365 | the handler subscribes its capsule through the manager's subscribe as written: on success the key is recorded once more and the capsule gains one registration; on failure the session and every registration count stay as they were, though the key's empty entry remains; every registration stays recorded |
| AdapterManager.SessionUnsubscribe | src/main/java/havis/capture/AdapterManager.java:377-380 | on success the key is dropped from the session once; on failure the session is unchanged; every registration stays recorded |
| AdapterManager.UnsubscribeAll | src/main/java/havis/capture/AdapterManager.java:384-390 | unsubscribing a key list never touches the live sessions |
| AdapterManager.CloseAsWritten | src/main/java/havis/capture/AdapterManager.java:382-393 | closing clears the session's keys and removes its capsule |
| AdapterManager.UnsubscribeAllUnregistered | src/main/java/havis/capture/AdapterManager.java:384-390 | unsubscribing on behalf of a listener that holds no registration changes nothing |
| AdapterManager.CloseAsWrittenReleasesNothing | src/main/java/havis/capture/AdapterManager.java:386 | when the session's listener is null or unregistered, close leaves every listener list as it was |
| AdapterManager.CloseAsWrittenKeepsRegistration | src/main/java/havis/capture/AdapterManager.java:386 | a subscribed session with no listener, once closed, is still registered for its key and the provider is not unsubscribed |
| AdapterManager.CloseCorrected | src/main/java/havis/capture/AdapterManager.java:382-393 | closing with the capsule clears the keys, removes the capsule and leaves the capsule in no listener list |
| AdapterManager.ReleaseAll | src/main/java/havis/capture/AdapterManager.java:384-390 | unsubscribing every recorded key on behalf of the capsule removes all of its registrations |
| AdapterManager.UnsubscribeAllKeepsBalance | src/main/java/havis/capture/AdapterManager.java:384-390 | unsubscribing any key list preserves the subscribe balance |
| AdapterManager.CloseKeepsBalance | src/main/java/havis/capture/AdapterManager.java:382-393 | both closes preserve the open and subscribe balances |
| AdapterManager.FailedSubscribeStrandsKey | src/main/java/havis/capture/AdapterManager.java:201-205 | after a failing first subscribe, a second listener is registered but the provider is never asked again |
| AdapterManager.SubscribeCorrected | src/main/java/havis/capture/AdapterManager.java:197-211 | the entry is created only after the provider accepts; a failure leaves the listener map unchanged |
| AdapterManager.SubscribeCorrectedRetries | src/main/java/havis/capture/AdapterManager.java:197-211 | after a failing first subscribe, the next listener subscribes the provider again |
| DeviceModel.FieldOf | src/main/java/havis/capture/AdapterConfiguration.java:142-143 | a field is found exactly when its id is non-null, the device has a field map and the entry is present and non-null |
| DeviceModel.WithField | src/main/java/havis/capture/AdapterConfiguration.java:172-173 | storing a field sets that id and leaves every other field as it was |
| DeviceSpecs.CopyField | src/main/java/havis/capture/DeviceSpec.java:31-37 | a field copy equals the original |
| DeviceSpecs.Copy | src/main/java/havis/capture/DeviceSpec.java:21-48 | a copy succeeds exactly when the source exists, has properties and no null field; it reproduces the device; a spec keeps its extras; a plain device gets the defaults |
| DeviceSpecs.CopyIdempotent | src/main/java/havis/capture/DeviceSpec.java:42-47 | copying a copy gives the same spec |
| Configuration.Find | src/main/java/havis/capture/AdapterConfiguration.java:88-92 | a device is found exactly when its id is non-null and registered |
| Configuration.Persist | src/main/java/havis/capture/AdapterConfiguration.java:296-323 | saving fails with "failed to persist" exactly when the write fails |
| Configuration.GetDevices | src/main/java/havis/capture/AdapterConfiguration.java:64-69 | a missing device map is created empty; an existing one is returned unchanged |
| Configuration.GetProperties | src/main/java/havis/capture/AdapterConfiguration.java:43-48 | a missing property map is created empty; an existing one is returned unchanged |
| Configuration.SetProperties | src/main/java/havis/capture/AdapterConfiguration.java:50-57 | replaces the property map, then saves |
| Configuration.SetProperty | src/main/java/havis/capture/AdapterConfiguration.java:59-62 | sets one property in the created map; a null name or value fails once the map exists |
| Configuration.SetDevices | src/main/java/havis/capture/AdapterConfiguration.java:71-77 | replaces the device map and nothing else |
| Configuration.Looked | src/main/java/havis/capture/AdapterConfiguration.java:88-91 | a lookup with a non-null id creates the device map; a null id changes nothing |
| Configuration.Store | src/main/java/havis/capture/AdapterConfiguration.java:118-119 | writing one device back changes that entry only |
| Configuration.GetLabel | src/main/java/havis/capture/AdapterConfiguration.java:87-97 | the label of a registered device; a null or unknown id "does not exist" |
| Configuration.SetLabel | src/main/java/havis/capture/AdapterConfiguration.java:110-122 | relabels only the named device and marks it customized, then saves; an unknown device is refused |
| Configuration.GetFieldLabel | src/main/java/havis/capture/AdapterConfiguration.java:134-148 | the label of a known field; an unknown device or field is reported as such |
| Configuration.SetFieldLabel | src/main/java/havis/capture/AdapterConfiguration.java:164-180 | relabels only that field, marks its device customized and saves; unknown device or field are refused |
| Configuration.SetDeviceProperty | src/main/java/havis/capture/AdapterConfiguration.java:195-213 | sets one device property, creating the map, and marks the device customized; an unknown device or a null name is refused with nothing changed |
| Configuration.SetFieldProperty | src/main/java/havis/capture/AdapterConfiguration.java:231-253 | sets one field property and marks the device customized; a null name is refused after the field's property map has been created |
| Configuration.Add | src/main/java/havis/capture/AdapterConfiguration.java:263-271 | registers a device under its id, replacing any earlier one; a null device or id is refused without change |
| Configuration.Remove | src/main/java/havis/capture/AdapterConfiguration.java:284-288 | unregisters exactly that id; a null id changes nothing |
| Configuration.SetThenGetLabel | src/main/java/havis/capture/AdapterConfiguration.java:87-122 | reading a device label after setting it returns the new label, whether or not saving succeeded |
| Configuration.SetThenGetFieldLabel | src/main/java/havis/capture/AdapterConfiguration.java:134-180 | reading a field label after setting it returns the new label |
| Configuration.AddThenRemove | src/main/java/havis/capture/AdapterConfiguration.java:263-288 | an added device is found with its label, and after removal it no longer exists |
| Configuration.CustomizedStickyLabels | src/main/java/havis/capture/AdapterConfiguration.java:110-180 | no device or field label edit ever un-customizes or drops a customized device |
| Configuration.CustomizedStickyProperties | src/main/java/havis/capture/AdapterConfiguration.java:195-253 | no device or field property edit, refused or not, ever un-customizes or drops a customized device |
| Configuration.NullNameMaterializesFieldProperties | src/main/java/havis/capture/AdapterConfiguration.java:239-246 | a field property with a null name is refused, yet leaves an empty property map on the field |
| Configuration.NullNameKeepsDeviceProperties | src/main/java/havis/capture/AdapterConfiguration.java:203-208 | a device property with a null name is refused and leaves every device unchanged |
| CycleSpecs.New | src/main/java/havis/capture/cycle/CycleSpec.java:36-65 | a new spec is disabled, has no ids, durations -1, no delay, no empty reports and no subscription map |
| CycleSpecs.Copy | src/main/java/havis/capture/cycle/CycleSpec.java:76-94 | copying refuses null, keeps every setting and always yields a subscription map with the same contents |
| CycleSpecs.AddFieldSubscription | src/main/java/havis/capture/cycle/CycleSpec.java:187-194 | adds the field to the device's set, creating map and set as needed, and touches no other device |
| CycleSpecs.RemoveFieldSubscription | src/main/java/havis/capture/cycle/CycleSpec.java:196-201 | removes the field from the device's set, keeping the device's entry; other devices unchanged |
| CycleSpecs.AddIdempotent | src/main/java/havis/capture/cycle/CycleSpec.java:187-194 | subscribing a field twice is the same as once |
| CycleSpecs.RemoveUndoesAdd | src/main/java/havis/capture/cycle/CycleSpec.java:187-201 | removing a freshly added field restores the device's set, though the device keeps an entry |
| CycleManager.Perform | src/main/java/havis/capture/cycle/CycleManager.java:200-220 | a cycle action is logged and succeeds unless it fails |
| CycleManager.StartSpec | src/main/java/havis/capture/cycle/CycleManager.java:200-208 | starting needs the spec's cycle; a missing cycle is refused without any call |
| CycleManager.StopSpec | src/main/java/havis/capture/cycle/CycleManager.java:210-220 | stopping disposes the cycle and either drops it or replaces it with a new one; no other cycle changes |
| CycleManager.FirstFresh | src/main/java/havis/capture/cycle/CycleManager.java:77-79 | picks the first generated id not already used |
| CycleManager.GetCycleSpec | src/main/java/havis/capture/cycle/CycleManager.java:58-65 | returns a copy of a known spec; an unknown id does not exist |
| CycleManager.Define | src/main/java/havis/capture/cycle/CycleManager.java:75-91 | stores a copy under a fresh id with a new cycle, started when enabled; success exactly when creating (and starting) succeed; ids stay consistent and enabled specs keep a cycle |
| CycleManager.UpdateSpec | src/main/java/havis/capture/cycle/CycleManager.java:102-132 | an unknown id, a null spec or enabling an already enabled spec is refused, leaving the specs alone; disabled to disabled always succeeds without touching the cycles; enabled to disabled disposes the running cycle and creates a fresh one, succeeding exactly when neither fails; disabled to enabled succeeds exactly when there is no cycle under the incoming spec's id, or it updates and the target's cycle exists and starts; on success the copy with the id forced is stored |
| CycleManager.UpdateThenGet | src/main/java/havis/capture/cycle/CycleManager.java:108-131 | after a successful update the stored spec is a copy of the incoming one carrying the target id |
| CycleManager.Enable | src/main/java/havis/capture/cycle/CycleManager.java:118-129 | enabling updates the cycle found under the looked-up id, then starts the target id's cycle; no cycle under the looked-up id means nothing is done; any failure there is reported as "cannot update active cycle" |
| CycleManager.Undefine | src/main/java/havis/capture/cycle/CycleManager.java:140-146 | removes the spec and disposes its cycle; an unknown id is refused |
| CycleManager.DisposeAll | src/main/java/havis/capture/cycle/CycleManager.java:153-158 | disposing succeeds exactly when every cycle disposes, leaving no specs and none of their cycles |
| CycleManager.DisposeEach | src/main/java/havis/capture/cycle/CycleManager.java:154-156 | disposes the listed cycles in order; it succeeds exactly when no existing listed cycle fails to dispose, and then exactly the listed cycles are gone; otherwise it stops at the first failing one, and only the cycles listed before it are gone |
| CycleManager.SubscribeField | src/main/java/havis/capture/cycle/CycleManager.java:168-178 | adds the subscription to the spec, telling an enabled spec's cycle first; the spec changes only on success |
| CycleManager.UnsubscribeField | src/main/java/havis/capture/cycle/CycleManager.java:188-198 | removes the subscription likewise |
| CycleManager.NotifyCycle | src/main/java/havis/capture/cycle/CycleManager.java:174-176 | only an enabled spec's cycle is told; a missing cycle is a failure |
| CycleManager.RestoreOne | src/main/java/havis/capture/cycle/CycleManager.java:27-41 | a loaded spec is kept, but stays enabled only when its cycle was created and started |
| CycleManager.Restore | src/main/java/havis/capture/cycle/CycleManager.java:26-43 | every loaded spec is registered under its id, and enabled specs have cycles |
| CycleManager.DefineThenGet | src/main/java/havis/capture/cycle/CycleManager.java:58-91 | a defined spec can be read back under its new id, identical apart from id and subscription map |
| CycleManager.UndefineThenGet | src/main/java/havis/capture/cycle/CycleManager.java:140-146 | an undefined spec no longer exists |
| CycleManager.UpdateUsesIncomingId | src/main/java/havis/capture/cycle/CycleManager.java:119 | when enabling, the cycle updated is the one named by the incoming spec's id, not the target id |
| CycleManager.DefineStartFailureKeepsCycle | src/main/java/havis/capture/cycle/CycleManager.java:82-88 | when starting fails, the cycle stays registered though the spec is not |
| CycleManager.UpdateWithoutIdSkipsStart | src/main/java/havis/capture/cycle/CycleManager.java:118-125 | enabling with an incoming spec that has no id reports success and stores it enabled, but never starts its cycle |
| CycleManager.UpdateCorrected | src/main/java/havis/capture/cycle/CycleManager.java:102-132 | the same refusals and the same disabling path as the update as written; enabling a stopped spec succeeds exactly when its own cycle is absent, or updates and starts |
| CycleManager.UpdateCorrectedStarts | src/main/java/havis/capture/cycle/CycleManager.java:118-125 | with the corrected lookup, the same update starts the cycle |
| ReportFactory.DeviceIn | src/main/java/havis/capture/cycle/AdapterReportFactory.java:91-94 | a device is found exactly when the handler lists devices and the id is known |
| ReportFactory.DeviceName | src/main/java/havis/capture/cycle/AdapterReportFactory.java:81-105 | prefer a non-empty label, then a non-empty device name, then the id; without a handler, the id |
| ReportFactory.FieldName | src/main/java/havis/capture/cycle/AdapterReportFactory.java:118-145 | the same fallback for a field's name |
| ReportFactory.Firsts | src/main/java/havis/capture/cycle/AdapterReportFactory.java:45-55 | the devices of the notifications, each exactly once |
| ReportFactory.FirstsOrder | src/main/java/havis/capture/cycle/AdapterReportFactory.java:45-55 | the devices are listed in the order of their first notifications |
| ReportFactory.Reports | src/main/java/havis/capture/cycle/AdapterReportFactory.java:57-61 | a device's field reports come from at most the notifications given |
| ReportFactory.SlotIndex | src/main/java/havis/capture/cycle/AdapterReportFactory.java:49-50 | finds the first report for a device, or none |
| ReportFactory.ReportsAbsent | src/main/java/havis/capture/cycle/AdapterReportFactory.java:45-61 | a device with no notification has no field reports |
| ReportFactory.Group | src/main/java/havis/capture/cycle/AdapterReportFactory.java:45-62 | one device report per device in order of first appearance, each holding that device's field reports in notification order |
| ReportFactory.Add | src/main/java/havis/capture/cycle/AdapterReportFactory.java:49-61 | one notification appends its field report to its device's section, opening a named section at the end for a device not seen yet, and changes no other section |
| ReportFactory.AddStep | src/main/java/havis/capture/cycle/AdapterReportFactory.java:47-62 | adding one notification keeps the grouping correct |
| ReportFactory.Create | src/main/java/havis/capture/cycle/AdapterReportFactory.java:30-70 | fails when there is data but no spec, or a missing notification list that must be reported; returns no report exactly for an empty list that is not reported; otherwise the report carries the metadata and the correct grouping |
| ReportFactory.GroupCount | src/main/java/havis/capture/cycle/AdapterReportFactory.java:45-62 | each notification yields exactly one field report: the reports hold as many field reports as there were notifications |
| ReportFactory.AddCount | src/main/java/havis/capture/cycle/AdapterReportFactory.java:47-62 | adding one notification adds one field report |
| ReportFactory.UpdateCount | src/main/java/havis/capture/cycle/AdapterReportFactory.java:57-58 | replacing one device report changes the count by the difference |
| ReportFactory.AppendCount | src/main/java/havis/capture/cycle/AdapterReportFactory.java:50-54 | appending one device report adds its fields to the count |
| ReportFactory.InterleavedExample | src/main/java/havis/capture/cycle/AdapterReportFactory.java:45-61 | notifications for A, B, A give two device reports, with A's two fields together |
| StreamService.Empty | src/main/java/havis/capture/rest/SubscriberAdapterService.java:51 | a new service has no streams and the queue bound 200 |
| StreamService.Teardown | src/main/java/havis/capture/rest/SubscriberAdapterService.java:190-191 | tearing a handler down first switches its listener off and closes it exactly when that does not throw, and makes no other call |
| StreamService.RemoveStream | src/main/java/havis/capture/rest/SubscriberAdapterService.java:186-198 | closing a stream always forgets its iterator and handler; the handler's listener is switched off and, unless that throws, the handler is closed, with no other handler call; the queue is dropped only when both succeed |
| StreamService.CheckQueue | src/main/java/havis/capture/rest/SubscriberAdapterService.java:135-142 | a queue over the bound tears down its live stream; otherwise nothing changes |
| StreamService.Deliver | src/main/java/havis/capture/rest/SubscriberAdapterService.java:82-92 | an event is queued for a known client, and an overflow tears the stream down; live streams stay within the bound |
| StreamService.CreateSubscribeHandler | src/main/java/havis/capture/rest/SubscriberAdapterService.java:75-133 | the handler is recorded exactly when creating it and attaching the listener succeed |
| StreamService.GetStream | src/main/java/havis/capture/rest/SubscriberAdapterService.java:154-202 | an old stream is torn down first; a fresh empty queue is always installed; the stream is live exactly when the handler was set up |
| StreamService.Subscribe | src/main/java/havis/capture/rest/SubscriberAdapterService.java:205-212 | forwards to the client's handler; an unknown client is refused |
| StreamService.Unsubscribe | src/main/java/havis/capture/rest/SubscriberAdapterService.java:215-220 | forwards to the client's handler; an unknown client is ignored |
| StreamService.RemoveEach | src/main/java/havis/capture/rest/SubscriberAdapterService.java:59-62 | closing the listed streams forgets exactly their iterators and handlers |
| StreamService.RemoveEachAppends | src/main/java/havis/capture/rest/SubscriberAdapterService.java:186-198 | closing streams only appends listener-off and close calls to the handler log |
| StreamService.RemoveEachDetaches | src/main/java/havis/capture/rest/SubscriberAdapterService.java:186-198 | every handler of a listed stream has its listener switched off and, unless that throws, is closed |
| StreamService.Close | src/main/java/havis/capture/rest/SubscriberAdapterService.java:53-63 | closing the service ends every live stream and forgets their handlers; each live stream's handler is switched off and, unless that throws, closed, and no other handler call is made |
| StreamService.GetStreamThenSubscribe | src/main/java/havis/capture/rest/SubscriberAdapterService.java:154-212 | after a successful stream request the client has an empty live queue and subscribes through its new handler |
| StreamService.OverflowTearsDown | src/main/java/havis/capture/rest/SubscriberAdapterService.java:135-142 | one event too many ends a full live stream |
| StreamService.DeadQueueGrows | src/main/java/havis/capture/rest/SubscriberAdapterService.java:84-92 | a queue without a live stream keeps growing without bound |
| StreamService.FailedGetStreamKeepsQueue | src/main/java/havis/capture/rest/SubscriberAdapterService.java:160-162 | a failed stream request leaves its queue installed but no live stream |

## Left out

- Threads, executors, locks and `wait`/`notify`. Each operation is atomic here, and the worker loop is one pass (`PollService.Pass`) over a snapshot of the registry.
- JSON encoding, the configuration file and its loading are not modelled. Saving is the `persists` outcome. Event serialization when queueing is assumed to succeed.
- The blocking `next`/`hasNext` of a stream iterator and the REST resources around it. The modelled service starts at its default queue bound.
- `AdapterCycle` and the cycle configuration manager: cycle creation, update, start and dispose are abstract logged actions. `evaluateCycleState`, `defineSubscriber` and the provider-facing pass-through calls of a handler (values, devices) are not modelled. They call code outside the core.
- `createAdapterCycle` returning null is not modelled, because the cycle factory is abstract here. `getCycleSpecs` just returns the spec map's keys.
- Null map keys are not modelled: no null device or field id in a subscription, a cycle spec's map or a poll entry's key. Null entries in a notification list are not modelled either.
- 64-bit `long` and 32-bit `int` overflow are not modelled: the model's integers are unbounded. The backoff is at most 3600 s plus one period, so no realistic clock reading overflows.
- Logging output is not modelled, except the single warning per failing poll entry that `PollService.Step` states.
- PollService.RemoveFields: stated as a filter on the snapshot. Under unique keys this equals removing each match.
- CycleManager.Define: the source writes each generated id into the caller's own spec (`spec.setId`) before copying it. That side effect on the argument is not modelled; the stored copy carries the id.
- CycleSpecs.Copy: the getter on the copied source also creates the source's own empty subscription map. That side effect on the argument is not modelled.
- AdapterManager.UnsubscribeAll: states only that the live sessions are untouched. What it does to the listener map is stated by `AdapterManager.ReleaseAll`, `AdapterManager.UnsubscribeAllUnregistered` and `AdapterManager.UnsubscribeAllKeepsBalance`.
- ReportFactory.Reports: states only a length bound. Its content is fixed by `ReportFactory.Group` and `ReportFactory.AddStep`.

## Findings

| source | as written | input that shows it | evidently intended | confidence | as-written member | corrected member |
|---|---|---|---|---|---|---|
| src/main/java/havis/capture/AdapterManager.java:201-205 | the key's listener list is put into the map before the provider subscribe, which may throw | first listener's provider subscribe fails, then a second listener subscribes the same key: it is registered, but the provider is never subscribed | create the entry only after the provider accepts, so the next subscriber retries | high, not executed | AdapterManager.FailedSubscribeStrandsKey | AdapterManager.SubscribeCorrected |
| src/main/java/havis/capture/AdapterManager.java:386 | handler `close` unsubscribes every key on behalf of the user listener, not the capsule that was registered | a session subscribes a key, its listener is set to null (as the stream service does before closing), then it is closed: the capsule stays in the key's list and the provider is never unsubscribed | unsubscribe with the capsule, releasing every registration | high, not executed | AdapterManager.CloseAsWrittenKeepsRegistration | AdapterManager.CloseCorrected |
| src/main/java/havis/capture/cycle/CycleManager.java:119 | when enabling a stopped spec, the cycle is looked up under the incoming spec's own id instead of the target id | update a disabled spec with an enabled spec whose id is null: success is reported and the spec is stored enabled, but its cycle is never started | look the cycle up under the target id | medium, not executed | CycleManager.UpdateWithoutIdSkipsStart | CycleManager.UpdateCorrected |

=== FILE: adapter_manager.dfy ===
/** The subscription multiplexer (`AdapterManager`): one provider shared by many
    sessions. It opens the provider for the first session and closes it after the
    last, subscribes the provider to a (device, field) key only for the first
    listener of that key, and routes the provider's events.

    The provider is abstract: every call it receives is appended to a call log,
    and a call listed in `failing` throws. Locks, the dispatch executor and the
    copy-on-write lists are not modelled; each operation is one sequential step. */
module AdapterManager {
  import opened Common

  /** A subscription key; compared by value on (device, field). */
  datatype Key = Key(device: string, field: string)

  /** Listener identities: a session's capsule, or a listener set by a user of a
      session. Java compares them by reference; distinct values here are
      distinct objects. */
  datatype Listener = Capsule(session: nat) | User(id: nat)

  datatype ProviderCall = Open | Close | Subscribe(key: Key) | Unsubscribe(key: Key)

  datatype Event =
    | ValueChanged(key: Key, value: Obj)
    | DeviceUsabilityChanged(device: string, usable: bool)
    | FieldUsabilityChanged(key: Key, usable: bool)

  /** One call of a listener with an event. */
  datatype Delivery = Delivery(to: Listener, event: Event)

  datatype Manager = Manager(
    listeners: map<Key, seq<Listener>>,   // the listener lists per key
    capsules: seq<Listener>,              // the live sessions' capsules
    log: seq<ProviderCall>)               // every call made on the provider

  /** A session handle (`createInstance`): its capsule identity, the keys it
      subscribed and the listener its events are forwarded to. */
  datatype Session = Session(id: nat, keys: seq<Key>, listener: Option<Listener>)

  const Empty := Manager(map[], [], [])

  function CapsuleOf(s: Session): Listener { Capsule(s.id) }

  // ---------------------------------------------------------------------------
  // Bookkeeping invariants

  /** The provider has been opened once more than closed exactly while some
      session is live. */
  predicate OpenBalanced(m: Manager) {
    Count(m.log, Open) == Count(m.log, Close) + (if |m.capsules| > 0 then 1 else 0)
  }

  /** A key has one more provider subscribe than unsubscribe exactly while it has
      an entry in the listener map. */
  ghost predicate SubscribeBalanced(m: Manager) {
    forall k: Key :: Count(m.log, Subscribe(k)) == Count(m.log, Unsubscribe(k)) + (if k in m.listeners then 1 else 0)
  }

  ghost predicate Balanced(m: Manager) {
    OpenBalanced(m) && SubscribeBalanced(m)
  }

  lemma EmptyBalanced()
    ensures Balanced(Empty)
  {
  }

  // ---------------------------------------------------------------------------
  // Listener registry

  /** `subscribe(device, field, listener)`: the provider is subscribed only when
      the key has no entry yet; the entry is created before that call, so a
      failing call leaves an empty list behind. Then the listener is appended,
      duplicates included. */
  function SubscribeListener(m: Manager, key: Key, l: Listener, failing: set<ProviderCall>): (r: (Manager, Status))
    ensures r.0.capsules == m.capsules
    ensures key in r.0.listeners
    ensures forall k :: k != key ==> (k in r.0.listeners <==> k in m.listeners)
    ensures forall k :: k != key && k in m.listeners ==> r.0.listeners[k] == m.listeners[k]
    ensures key in m.listeners ==> r.0.log == m.log
    ensures key !in m.listeners ==> r.0.log == m.log + [Subscribe(key)]
    ensures r.1.Failed? <==> key !in m.listeners && Subscribe(key) in failing
    ensures r.1.Failed? ==> r.0.listeners[key] == []
    ensures r.1.Done? ==>
      r.0.listeners[key] == (if key in m.listeners then m.listeners[key] else []) + [l]
  {
    if key !in m.listeners then
      var m1 := m.(listeners := m.listeners[key := []], log := m.log + [Subscribe(key)]);
      if Subscribe(key) in failing then (m1, Failed(OperationFailed))
      else (m1.(listeners := m1.listeners[key := [l]]), Done)
    else
      (m.(listeners := m.listeners[key := m.listeners[key] + [l]]), Done)
  }

  /** `unsubscribe(device, field, listener)`: removes one occurrence of the
      listener; when that empties the list the key is dropped and then the
      provider is unsubscribed. A null or absent listener changes nothing. */
  function UnsubscribeListener(m: Manager, key: Key, l: Option<Listener>, failing: set<ProviderCall>): (r: (Manager, Status))
    ensures r.0.capsules == m.capsules
    ensures var empties := key in m.listeners && l.Some? && m.listeners[key] == [l.value];
      && (empties ==> r.0.log == m.log + [Unsubscribe(key)] && r.0.listeners == m.listeners - {key})
      && (!empties ==> r.0.log == m.log)
      && (r.1.Failed? <==> empties && Unsubscribe(key) in failing)
    ensures !(key in m.listeners && l.Some? && l.value in m.listeners[key]) ==> r.0 == m
    ensures key in m.listeners && l.Some? && l.value in m.listeners[key] && m.listeners[key] != [l.value] ==>
      r.0.listeners == m.listeners[key := RemoveFirst(m.listeners[key], l.value)]
  {
    if key in m.listeners && l.Some? && l.value in m.listeners[key] then
      var rest := RemoveFirst(m.listeners[key], l.value);
      if rest == [] then
        assert m.listeners[key] == [l.value] by {
          assert |m.listeners[key]| == 1;
          assert l.value == m.listeners[key][0];
        }
        var m1 := m.(listeners := m.listeners - {key}, log := m.log + [Unsubscribe(key)]);
        (m1, if Unsubscribe(key) in failing then Failed(OperationFailed) else Done)
      else
        (m.(listeners := m.listeners[key := rest]), Done)
    else (m, Done)
  }

  /** The provider is never subscribed twice to a key without an unsubscribe in
      between, nor unsubscribed from a key it is not subscribed to. */
  lemma SubscribeKeepsBalance(m: Manager, key: Key, l: Listener, failing: set<ProviderCall>)
    requires Balanced(m)
    ensures Balanced(SubscribeListener(m, key, l, failing).0)
  {
    var r := SubscribeListener(m, key, l, failing).0;
    if key in m.listeners {
      assert r.listeners.Keys == m.listeners.Keys;
      SameKeysBalanced(m, r);
    } else {
      assert r.listeners.Keys == m.listeners.Keys + {key};
      AddKeyBalanced(m, r, key);
    }
  }

  lemma UnsubscribeKeepsBalance(m: Manager, key: Key, l: Option<Listener>, failing: set<ProviderCall>)
    requires Balanced(m)
    ensures Balanced(UnsubscribeListener(m, key, l, failing).0)
  {
    var r := UnsubscribeListener(m, key, l, failing).0;
    if key in m.listeners && l.Some? && m.listeners[key] == [l.value] {
      DropKeyBalanced(m, r, key);
    } else {
      assert r.listeners.Keys == m.listeners.Keys;
      SameKeysBalanced(m, r);
    }
  }

  /** A step that calls nothing and keeps the key set keeps the balance. */
  lemma SameKeysBalanced(m: Manager, r: Manager)
    requires Balanced(m)
    requires r.log == m.log && r.capsules == m.capsules && r.listeners.Keys == m.listeners.Keys
    ensures Balanced(r)
  {
    forall k: Key ensures Count(r.log, Subscribe(k)) == Count(r.log, Unsubscribe(k)) + (if k in r.listeners then 1 else 0) {
      assert Count(m.log, Subscribe(k)) == Count(m.log, Unsubscribe(k)) + (if k in m.listeners then 1 else 0);
    }
  }

  /** Creating a key's entry together with one provider subscribe keeps the balance. */
  lemma AddKeyBalanced(m: Manager, r: Manager, key: Key)
    requires Balanced(m) && key !in m.listeners
    requires r.log == m.log + [Subscribe(key)] && r.capsules == m.capsules
    requires r.listeners.Keys == m.listeners.Keys + {key}
    ensures Balanced(r)
  {
    CountAppend(m.log, Subscribe(key), Open);
    CountAppend(m.log, Subscribe(key), Close);
    forall k: Key ensures Count(r.log, Subscribe(k)) == Count(r.log, Unsubscribe(k)) + (if k in r.listeners then 1 else 0) {
      assert Count(m.log, Subscribe(k)) == Count(m.log, Unsubscribe(k)) + (if k in m.listeners then 1 else 0);
      CountAppend(m.log, Subscribe(key), Subscribe(k));
      CountAppend(m.log, Subscribe(key), Unsubscribe(k));
    }
  }

  /** Dropping a key's entry together with one provider unsubscribe keeps the balance. */
  lemma DropKeyBalanced(m: Manager, r: Manager, key: Key)
    requires Balanced(m) && key in m.listeners
    requires r.log == m.log + [Unsubscribe(key)] && r.capsules == m.capsules
    requires r.listeners.Keys == m.listeners.Keys - {key}
    ensures Balanced(r)
  {
    CountAppend(m.log, Unsubscribe(key), Open);
    CountAppend(m.log, Unsubscribe(key), Close);
    forall k: Key ensures Count(r.log, Subscribe(k)) == Count(r.log, Unsubscribe(k)) + (if k in r.listeners then 1 else 0) {
      assert Count(m.log, Subscribe(k)) == Count(m.log, Unsubscribe(k)) + (if k in m.listeners then 1 else 0);
      CountAppend(m.log, Unsubscribe(key), Subscribe(k));
      CountAppend(m.log, Unsubscribe(key), Unsubscribe(k));
    }
  }

  // ---------------------------------------------------------------------------
  // Capsules and the provider's lifetime

  /** `add(capsule)`: the provider is opened when the capsule count becomes one.
      A failing open is logged only, so the result does not depend on it. */
  function AddCapsule(m: Manager, c: Listener): (r: Manager)
    ensures r.capsules == m.capsules + [c] && r.listeners == m.listeners
    ensures |m.capsules| == 0 ==> r.log == m.log + [Open]
    ensures |m.capsules| > 0 ==> r.log == m.log
  {
    var caps := m.capsules + [c];
    m.(capsules := caps, log := if |caps| == 1 then m.log + [Open] else m.log)
  }

  /** `remove(capsule)`: the provider is closed when the last capsule goes. */
  function RemoveCapsule(m: Manager, c: Listener): (r: Manager)
    ensures r.capsules == RemoveFirst(m.capsules, c) && r.listeners == m.listeners
    ensures c in m.capsules && |m.capsules| == 1 ==> r.log == m.log + [Close]
    ensures !(c in m.capsules && |m.capsules| == 1) ==> r.log == m.log
  {
    if c in m.capsules then
      var caps := RemoveFirst(m.capsules, c);
      m.(capsules := caps, log := if |caps| == 0 then m.log + [Close] else m.log)
    else m
  }

  /** Appending a call leaves the count of every other call unchanged. */
  lemma CountAppend(log: seq<ProviderCall>, c: ProviderCall, x: ProviderCall)
    ensures Count(log + [c], x) == Count(log, x) + (if c == x then 1 else 0)
  {
    assert multiset(log + [c]) == multiset(log) + multiset{c};
  }

  lemma AddCapsuleKeepsBalance(m: Manager, c: Listener)
    requires Balanced(m)
    ensures Balanced(AddCapsule(m, c))
  {
    var r := AddCapsule(m, c);
    CountAppend(m.log, Open, Open);
    CountAppend(m.log, Open, Close);
    forall k: Key ensures Count(r.log, Subscribe(k)) == Count(r.log, Unsubscribe(k)) + (if k in r.listeners then 1 else 0) {
      CountAppend(m.log, Open, Subscribe(k));
      CountAppend(m.log, Open, Unsubscribe(k));
    }
  }

  lemma RemoveCapsuleKeepsBalance(m: Manager, c: Listener)
    requires Balanced(m)
    ensures Balanced(RemoveCapsule(m, c))
  {
    var r := RemoveCapsule(m, c);
    CountAppend(m.log, Close, Open);
    CountAppend(m.log, Close, Close);
    forall k: Key ensures Count(r.log, Subscribe(k)) == Count(r.log, Unsubscribe(k)) + (if k in r.listeners then 1 else 0) {
      CountAppend(m.log, Close, Subscribe(k));
      CountAppend(m.log, Close, Unsubscribe(k));
    }
  }

  /** Opening `n` sessions one after another on an idle manager. */
  function AddAll(m: Manager, cs: seq<Listener>): (r: Manager)
    ensures r.capsules == m.capsules + cs
    decreases |cs|
  {
    if |cs| == 0 then m else AddAll(AddCapsule(m, cs[0]), cs[1..])
  }

  /** However many sessions are created, the provider is opened once. */
  lemma {:induction false} ManySessionsOneOpen(m: Manager, cs: seq<Listener>)
    requires |m.capsules| > 0 || |cs| > 0
    ensures AddAll(m, cs).log == m.log + (if |m.capsules| == 0 then [Open] else [])
    decreases |cs|
  {
    if |cs| > 0 {
      var m1 := AddCapsule(m, cs[0]);
      ManySessionsOneOpen(m1, cs[1..]);
    }
  }

  /** Several listeners subscribing one key in turn. */
  function SubscribeEach(m: Manager, key: Key, ls: seq<Listener>, failing: set<ProviderCall>): (r: Manager)
    decreases |ls|
  {
    if |ls| == 0 then m else SubscribeEach(SubscribeListener(m, key, ls[0], failing).0, key, ls[1..], failing)
  }

  /** However many listeners subscribe a key, the provider is subscribed once and
      every listener is registered, in order. */
  lemma {:induction false} ManyListenersOneSubscribe(m: Manager, key: Key, ls: seq<Listener>, failing: set<ProviderCall>)
    requires |ls| > 0 && Subscribe(key) !in failing
    ensures var r := SubscribeEach(m, key, ls, failing);
      && key in r.listeners
      && r.listeners[key] == (if key in m.listeners then m.listeners[key] else []) + ls
      && r.log == m.log + (if key in m.listeners then [] else [Subscribe(key)])
    decreases |ls|
  {
    var m1 := SubscribeListener(m, key, ls[0], failing).0;
    if |ls| > 1 {
      ManyListenersOneSubscribe(m1, key, ls[1..], failing);
      assert ls == [ls[0]] + ls[1..];
    }
  }

  // ---------------------------------------------------------------------------
  // Dispatch

  /** Who receives an event: listeners of exactly its key for a value change,
      every capsule for a usability change. */
  function Recipients(m: Manager, e: Event): (r: seq<Listener>)
    ensures e.ValueChanged? ==>
      forall l :: l in r <==> e.key in m.listeners && l in m.listeners[e.key]
    ensures e.ValueChanged? && e.key !in m.listeners ==> r == []
    ensures !e.ValueChanged? ==> r == m.capsules
  {
    match e
    case ValueChanged(key, _) => if key in m.listeners then m.listeners[key] else []
    case _ => m.capsules
  }

  /** The calls one dispatch loop makes: each recipient in turn, up to and
      including the first one in `throwing`. The loops have no catch, so an
      exception a recipient throws (a capsule passing on its user listener's)
      ends the delivery of that event. */
  function Deliver(to: seq<Listener>, e: Event, throwing: set<Listener>): (r: seq<Delivery>)
    ensures |r| <= |to|
    ensures forall i :: 0 <= i < |r| ==> r[i] == Delivery(to[i], e)
    ensures forall i :: 0 <= i < |r| - 1 ==> to[i] !in throwing
    ensures |r| < |to| ==> 0 < |r| && to[|r| - 1] in throwing
  {
    if |to| == 0 then []
    else
      var rest := if to[0] in throwing then [] else Deliver(to[1..], e, throwing);
      assert forall i :: 1 <= i < |to| ==> to[i] == to[1..][i - 1];
      [Delivery(to[0], e)] + rest
  }

  /** The dispatch worker's deliveries for one event from the provider; a null
      event is ignored. The recipients are called in list order, and delivery
      stops after the first recipient that throws; when none throws, every
      recipient is called once. */
  function Dispatch(m: Manager, e: Option<Event>, throwing: set<Listener>): (r: seq<Delivery>)
    ensures e.None? ==> r == []
    ensures e.Some? ==>
      var to := Recipients(m, e.value);
      && |r| <= |to|
      && (forall i :: 0 <= i < |r| ==> r[i] == Delivery(to[i], e.value))
      && (forall i :: 0 <= i < |r| - 1 ==> to[i] !in throwing)
      && (|r| < |to| ==> 0 < |r| && to[|r| - 1] in throwing)
  {
    if e.None? then [] else Deliver(Recipients(m, e.value), e.value, throwing)
  }

  /** Some delivery goes to `l`. */
  predicate Reached(r: seq<Delivery>, l: Listener) {
    exists i :: 0 <= i < |r| && r[i].to == l
  }

  /** `l` occurs in `to` at a position that no throwing recipient precedes. */
  predicate ReachableIn(to: seq<Listener>, l: Listener, throwing: set<Listener>) {
    exists i :: 0 <= i < |to| && to[i] == l && forall j :: 0 <= j < i ==> to[j] !in throwing
  }

  /** A listener is called exactly when it is a recipient that no throwing
      recipient precedes. When none throws, a value change reaches exactly the
      listeners registered for that very key and a usability change exactly the
      live capsules. */
  lemma DispatchRouting(m: Manager, e: Event, l: Listener, throwing: set<Listener>)
    ensures Reached(Dispatch(m, Some(e), throwing), l) <==> ReachableIn(Recipients(m, e), l, throwing)
    ensures e.ValueChanged? && throwing == {} ==>
      (Reached(Dispatch(m, Some(e), throwing), l) <==> e.key in m.listeners && l in m.listeners[e.key])
    ensures !e.ValueChanged? && throwing == {} ==>
      (Reached(Dispatch(m, Some(e), throwing), l) <==> l in m.capsules)
  {
    var r := Dispatch(m, Some(e), throwing);
    var to := Recipients(m, e);
    if Reached(r, l) {
      var i :| 0 <= i < |r| && r[i].to == l;
      assert to[i] == l && forall j :: 0 <= j < i ==> to[j] !in throwing;
    }
    if ReachableIn(to, l, throwing) {
      var i :| 0 <= i < |to| && to[i] == l && forall j :: 0 <= j < i ==> to[j] !in throwing;
      assert i < |r|;
      assert r[i].to == l;
    }
    if throwing == {} && l in to {
      var i :| 0 <= i < |to| && to[i] == l;
      assert forall j :: 0 <= j < i ==> to[j] !in throwing;
    }
  }

  // ---------------------------------------------------------------------------
  // Sessions

  /** No capsule of this id is registered anywhere yet: a new Java object. */
  predicate Fresh(m: Manager, id: nat) {
    Capsule(id) !in m.capsules && Unregistered(m, Capsule(id))
  }

  /** `l` is in no listener list. */
  predicate Unregistered(m: Manager, l: Listener) {
    forall k :: k in m.listeners ==> l !in m.listeners[k]
  }

  /** How often the session's capsule is registered for `k`. */
  function Registrations(m: Manager, s: Session, k: Key): nat {
    if k in m.listeners then Count(m.listeners[k], CapsuleOf(s)) else 0
  }

  /** Every registration of the session's capsule is recorded in its key list
      (the list may hold more: a failing provider unsubscribe drops the key from
      the map but not from the session). */
  ghost predicate Tracks(m: Manager, s: Session) {
    forall k :: Registrations(m, s, k) <= Count(s.keys, k)
  }

  /** `createInstance`: a new session whose capsule is added to the manager. */
  function CreateSession(m: Manager, id: nat): (r: (Manager, Session))
    requires Fresh(m, id)
    ensures r.1 == Session(id, [], None)
    ensures r.0 == AddCapsule(m, Capsule(id))
    ensures Tracks(r.0, r.1)
  {
    (AddCapsule(m, Capsule(id)), Session(id, [], None))
  }

  /** `setListener`. */
  function SetListener(s: Session, l: Option<Listener>): (r: Session)
    ensures r.listener == l && r.id == s.id && r.keys == s.keys
  {
    s.(listener := l)
  }

  /** The capsule passes an event on only when the session has a listener. */
  function Forward(s: Session, e: Event): (r: Option<Delivery>)
    ensures r.Some? <==> s.listener.Some?
    ensures r.Some? ==> r.value == Delivery(s.listener.value, e)
  {
    if s.listener.Some? then Some(Delivery(s.listener.value, e)) else None
  }

  /** The handler's `subscribe`: registers the capsule through the manager's
      `subscribe` as written and records the key when that call succeeds. A
      failing provider call leaves the key's empty entry behind but registers
      nothing, so the session stays as it was. */
  function SessionSubscribe(m: Manager, s: Session, key: Key, failing: set<ProviderCall>): (r: (Manager, Session, Status))
    requires Tracks(m, s)
    ensures (r.0, r.2) == SubscribeListener(m, key, CapsuleOf(s), failing)
    ensures r.2.Done? ==> r.1 == s.(keys := s.keys + [key]) && Registrations(r.0, r.1, key) == Registrations(m, s, key) + 1
    ensures r.2.Failed? ==> r.1 == s && forall k :: Registrations(r.0, r.1, k) == Registrations(m, s, k)
    ensures Tracks(r.0, r.1)
  {
    var (m1, st) := SubscribeListener(m, key, CapsuleOf(s), failing);
    var s1 := if st.Done? then s.(keys := s.keys + [key]) else s;
    assert Tracks(m1, s1) && (st.Failed? ==> forall k :: Registrations(m1, s1, k) == Registrations(m, s, k)) by {
      forall k ensures Registrations(m1, s1, k) <= Count(s1.keys, k)
        && (st.Failed? ==> Registrations(m1, s1, k) == Registrations(m, s, k))
      {
        assert Registrations(m, s, k) <= Count(s.keys, k);
        if k == key && st.Failed? {
          assert m1.listeners[key] == [] && key !in m.listeners;
        }
      }
    }
    (m1, s1, st)
  }

  /** The handler's `unsubscribe`: releases one registration of the capsule and,
      when the manager call succeeds, forgets one occurrence of the key. */
  function SessionUnsubscribe(m: Manager, s: Session, key: Key, failing: set<ProviderCall>): (r: (Manager, Session, Status))
    requires Tracks(m, s)
    ensures (r.0, r.2) == UnsubscribeListener(m, key, Some(CapsuleOf(s)), failing)
    ensures r.2.Done? ==> r.1 == s.(keys := RemoveFirst(s.keys, key))
    ensures r.2.Failed? ==> r.1 == s
    ensures Tracks(r.0, r.1)
  {
    var (m1, st) := UnsubscribeListener(m, key, Some(CapsuleOf(s)), failing);
    UnsubscribeTracks(m, s, key, failing);
    (m1, if st.Done? then s.(keys := RemoveFirst(s.keys, key)) else s, st)
  }

  /** Releasing one registration and forgetting one occurrence of its key keeps
      every registration recorded. */
  lemma UnsubscribeTracks(m: Manager, s: Session, key: Key, failing: set<ProviderCall>)
    requires Tracks(m, s)
    ensures var (m1, st) := UnsubscribeListener(m, key, Some(CapsuleOf(s)), failing);
      Tracks(m1, if st.Done? then s.(keys := RemoveFirst(s.keys, key)) else s)
  {
    var c := CapsuleOf(s);
    var r := UnsubscribeListener(m, key, Some(c), failing);
    var m1 := r.0;
    var s1 := if r.1.Done? then s.(keys := RemoveFirst(s.keys, key)) else s;
    forall k | k != key ensures Count(s1.keys, k) == Count(s.keys, k) {
      RemoveFirstCount(s.keys, key, k);
    }
    if !(key in m.listeners && c in m.listeners[key]) {
      assert m1 == m;
      TracksStep(m, s, m1, s1, key);
    } else if m.listeners[key] == [c] {
      assert m1.listeners == m.listeners - {key};
      TracksStep(m, s, m1, s1, key);
    } else {
      var lst := m.listeners[key];
      assert m1.listeners == m.listeners[key := RemoveFirst(lst, c)] && r.1.Done?;
      RemoveFirstCount(lst, c, c);
      assert Registrations(m, s, key) <= Count(s.keys, key);
      RemoveFirstCount(s.keys, key, key);
      TracksStep(m, s, m1, s1, key);
    }
  }

  /** Tracking survives a step that changes the registrations and the recorded
      keys of one key only, as long as that key stays tracked. */
  lemma TracksStep(m: Manager, s: Session, m1: Manager, s1: Session, key: Key)
    requires Tracks(m, s) && s1.id == s.id
    requires forall k :: k != key && k in m1.listeners ==> k in m.listeners && m1.listeners[k] == m.listeners[k]
    requires forall k :: k != key ==> Count(s1.keys, k) == Count(s.keys, k)
    requires Registrations(m1, s1, key) <= Count(s1.keys, key)
    ensures Tracks(m1, s1)
  {
    forall k ensures Registrations(m1, s1, k) <= Count(s1.keys, k) {
      assert Registrations(m, s, k) <= Count(s.keys, k);
    }
  }

  /** The manager-level unsubscribes `close` makes, one per recorded key, with
      errors swallowed. */
  function UnsubscribeAll(m: Manager, keys: seq<Key>, l: Option<Listener>, failing: set<ProviderCall>): (r: Manager)
    ensures r.capsules == m.capsules
    decreases |keys|
  {
    if |keys| == 0 then m
    else UnsubscribeAll(UnsubscribeListener(m, keys[0], l, failing).0, keys[1..], l, failing)
  }

  /** The handler's `close` as written: it unsubscribes every recorded key with the
      session's user listener rather than its capsule, empties the key list and
      removes the capsule. */
  function CloseAsWritten(m: Manager, s: Session, failing: set<ProviderCall>): (r: (Manager, Session))
    ensures r.1 == s.(keys := [])
    ensures r.0.capsules == RemoveFirst(m.capsules, CapsuleOf(s))
  {
    (RemoveCapsule(UnsubscribeAll(m, s.keys, s.listener, failing), CapsuleOf(s)), s.(keys := []))
  }

  /** Unsubscribing a listener that is registered nowhere changes nothing. */
  lemma {:induction false} UnsubscribeAllUnregistered(m: Manager, keys: seq<Key>, l: Option<Listener>, failing: set<ProviderCall>)
    requires l.None? || Unregistered(m, l.value)
    ensures UnsubscribeAll(m, keys, l, failing) == m
    decreases |keys|
  {
    if |keys| > 0 {
      UnsubscribeAllUnregistered(m, keys[1..], l, failing);
    }
  }

  /** When the session's listener is null or registered nowhere, which is the
      common case, the written `close` releases no registration at all. */
  lemma CloseAsWrittenReleasesNothing(m: Manager, s: Session, failing: set<ProviderCall>)
    requires s.listener.None? || Unregistered(m, s.listener.value)
    ensures CloseAsWritten(m, s, failing).0.listeners == m.listeners
  {
    UnsubscribeAllUnregistered(m, s.keys, s.listener, failing);
  }

  /** The discrepancy of the handler's `close`: a session that subscribed a key and
      set no listener (as the stream service does before closing) stays registered
      for that key after `close`, and the provider is never unsubscribed. */
  lemma CloseAsWrittenKeepsRegistration(m: Manager, id: nat, other: nat, key: Key, failing: set<ProviderCall>)
    requires other != id
    requires m.listeners == map[key := [Capsule(id)]] && m.capsules == [Capsule(id), Capsule(other)]
    ensures var r := CloseAsWritten(m, Session(id, [key], None), failing).0;
      && r.listeners == m.listeners
      && Capsule(id) in r.listeners[key]
      && r.log == m.log
  {
    UnsubscribeAllUnregistered(m, [key], None, failing);
  }

  /** The handler's `close` as intended: every recorded key is unsubscribed with the
      session's own capsule. */
  function CloseCorrected(m: Manager, s: Session, failing: set<ProviderCall>): (r: (Manager, Session))
    requires Tracks(m, s)
    ensures r.1 == s.(keys := [])
    ensures r.0.capsules == RemoveFirst(m.capsules, CapsuleOf(s))
    ensures Unregistered(r.0, CapsuleOf(s))
  {
    var m1 := UnsubscribeAll(m, s.keys, Some(CapsuleOf(s)), failing);
    ReleaseAll(m, s, failing);
    (RemoveCapsule(m1, CapsuleOf(s)), s.(keys := []))
  }

  /** Unsubscribing the capsule once per recorded key releases every registration. */
  lemma {:induction false} ReleaseAll(m: Manager, s: Session, failing: set<ProviderCall>)
    requires Tracks(m, s)
    ensures Unregistered(UnsubscribeAll(m, s.keys, Some(CapsuleOf(s)), failing), CapsuleOf(s))
    decreases |s.keys|
  {
    if |s.keys| == 0 {
      forall k | k in m.listeners ensures CapsuleOf(s) !in m.listeners[k] {
        assert Registrations(m, s, k) <= Count(s.keys, k);
        assert Count(m.listeners[k], CapsuleOf(s)) == 0;
        assert CapsuleOf(s) !in multiset(m.listeners[k]);
      }
    } else {
      var key := s.keys[0];
      var m1 := UnsubscribeListener(m, key, Some(CapsuleOf(s)), failing).0;
      var s1 := s.(keys := s.keys[1..]);
      assert s.keys == [key] + s.keys[1..];
      assert Tracks(m1, s1) by {
        forall k ensures Registrations(m1, s1, k) <= Count(s1.keys, k) {
          assert Registrations(m, s, k) <= Count(s.keys, k);
          if k == key && key in m.listeners {
            assert multiset(RemoveFirst(m.listeners[key], CapsuleOf(s))) == multiset(m.listeners[key]) - multiset{CapsuleOf(s)};
          }
        }
      }
      ReleaseAll(m1, s1, failing);
      assert UnsubscribeAll(m, s.keys, Some(CapsuleOf(s)), failing)
          == UnsubscribeAll(m1, s1.keys, Some(CapsuleOf(s1)), failing);
    }
  }

  /** Neither `close` breaks the provider bookkeeping. */
  lemma {:induction false} UnsubscribeAllKeepsBalance(m: Manager, keys: seq<Key>, l: Option<Listener>, failing: set<ProviderCall>)
    requires Balanced(m)
    ensures Balanced(UnsubscribeAll(m, keys, l, failing))
    decreases |keys|
  {
    if |keys| > 0 {
      UnsubscribeKeepsBalance(m, keys[0], l, failing);
      UnsubscribeAllKeepsBalance(UnsubscribeListener(m, keys[0], l, failing).0, keys[1..], l, failing);
    }
  }

  lemma CloseKeepsBalance(m: Manager, s: Session, failing: set<ProviderCall>)
    requires Balanced(m) && Tracks(m, s)
    ensures Balanced(CloseAsWritten(m, s, failing).0)
    ensures Balanced(CloseCorrected(m, s, failing).0)
  {
    UnsubscribeAllKeepsBalance(m, s.keys, s.listener, failing);
    RemoveCapsuleKeepsBalance(UnsubscribeAll(m, s.keys, s.listener, failing), CapsuleOf(s));
    UnsubscribeAllKeepsBalance(m, s.keys, Some(CapsuleOf(s)), failing);
    RemoveCapsuleKeepsBalance(UnsubscribeAll(m, s.keys, Some(CapsuleOf(s)), failing), CapsuleOf(s));
  }

  // ---------------------------------------------------------------------------
  // The failing-subscribe discrepancy

  /** After a provider subscribe for a key has failed, the next subscriber of that
      key is registered without the provider being asked again. */
  lemma FailedSubscribeStrandsKey(m: Manager, key: Key, l1: Listener, l2: Listener)
    requires key !in m.listeners
    ensures var (m1, st1) := SubscribeListener(m, key, l1, {Subscribe(key)});
      var (m2, st2) := SubscribeListener(m1, key, l2, {});
      && st1.Failed? && st2.Done?
      && m2.listeners[key] == [l2]
      && m2.log == m.log + [Subscribe(key)]
  {
  }

  /** `subscribe` as intended: the entry is created only once the provider call
      succeeded, so a failure leaves the registry as it was. */
  function SubscribeCorrected(m: Manager, key: Key, l: Listener, failing: set<ProviderCall>): (r: (Manager, Status))
    ensures r.0.capsules == m.capsules
    ensures key !in m.listeners ==> r.0.log == m.log + [Subscribe(key)]
    ensures key in m.listeners ==> r.0.log == m.log
    ensures r.1.Failed? <==> key !in m.listeners && Subscribe(key) in failing
    ensures r.1.Failed? ==> r.0.listeners == m.listeners
    ensures r.1.Done? ==>
      r.0.listeners == m.listeners[key := (if key in m.listeners then m.listeners[key] else []) + [l]]
  {
    if key !in m.listeners then
      var m1 := m.(log := m.log + [Subscribe(key)]);
      if Subscribe(key) in failing then (m1, Failed(OperationFailed))
      else
        assert [] + [l] == [l];
        (m1.(listeners := m.listeners[key := [l]]), Done)
    else
      (m.(listeners := m.listeners[key := m.listeners[key] + [l]]), Done)
  }

  /** With the corrected `subscribe`, every key with listeners had its provider
      subscribe succeed: a retry after a failure asks the provider again. */
  lemma SubscribeCorrectedRetries(m: Manager, key: Key, l1: Listener, l2: Listener)
    requires key !in m.listeners
    ensures var (m1, st1) := SubscribeCorrected(m, key, l1, {Subscribe(key)});
      var (m2, st2) := SubscribeCorrected(m1, key, l2, {});
      && st1.Failed? && st2.Done?
      && m2.listeners[key] == [l2]
      && m2.log == m.log + [Subscribe(key), Subscribe(key)]
  {
  }
}

=== FILE: common.dfy ===
/** Shared vocabulary: nullable references, results with the source's error kinds,
    opaque Java objects, Java's truncating remainder and a few list helpers. */
module Common {

  /** A Java reference that may be null. */
  datatype Option<+T> = None | Some(value: T)

  /** The exceptions the modelled code throws or propagates. */
  datatype Error =
    | NotExist(what: string)        // "... does not exist"
    | InvalidKey                    // "NULL is not a valid key."
    | NullArgument(what: string)    // NullPointerException / "must not be null"
    | IllegalState(what: string)    // IllegalStateException
    | ActiveCycle                   // "Cannot update active cycle"
    | OperationFailed               // an abstract collaborator call threw
    | PersistFailed                 // "Failed to persist config"

  datatype Result<+T> = Ok(value: T) | Err(error: Error)

  /** Outcome of a call that returns nothing. */
  datatype Status = Done | Failed(error: Error)

  /** An opaque Java object (a polled value, an event payload); `Obj.Null` is null.
      Java's `Objects.equals` on such values is `==` here. */
  datatype Obj = Null | Obj(id: nat)

  /** `Long.MAX_VALUE`. */
  const LongMax: int := 0x7fff_ffff_ffff_ffff

  /** Java's `%` on integers: truncates towards zero, so the remainder takes the
      sign of the dividend. Dafny's own `%` is Euclidean. */
  function JavaRem(a: int, b: int): (r: int)
    requires b > 0
    ensures a >= 0 ==> 0 <= r < b
    ensures a < 0 ==> -b < r <= 0
    ensures a == JavaDiv(a, b) * b + r
  {
    if a >= 0 then a % b
    else
      var q := (-a) / b;
      assert -a == q * b + (-a) % b;
      assert -(q * b) == (-q) * b;
      -((-a) % b)
  }

  /** Java's `/` on integers, truncating towards zero. */
  function JavaDiv(a: int, b: int): int
    requires b > 0
  {
    if a >= 0 then a / b else -((-a) / b)
  }

  function Min(a: int, b: int): int { if a <= b then a else b }

  function Max(a: int, b: int): int { if a >= b then a else b }

  /** `List.remove(Object)`: drops the first occurrence of `x`, if any. */
  function RemoveFirst<T(==)>(s: seq<T>, x: T): (r: seq<T>)
    ensures x !in s ==> r == s
    ensures x in s ==> |r| == |s| - 1
    ensures multiset(r) == multiset(s) - multiset{x}
  {
    if |s| == 0 then []
    else if s[0] == x then
      assert s == [s[0]] + s[1..];
      s[1..]
    else
      assert s == [s[0]] + s[1..];
      [s[0]] + RemoveFirst(s[1..], x)
  }

  /** The sequences of `xss` one after another. */
  function Concat<T>(xss: seq<seq<T>>): (r: seq<T>)
    ensures forall i, x :: 0 <= i < |xss| && x in xss[i] ==> x in r
    ensures forall x :: x in r ==> exists i :: 0 <= i < |xss| && x in xss[i]
  {
    if |xss| == 0 then []
    else
      var rest := Concat(xss[1..]);
      assert forall i :: 1 <= i < |xss| ==> xss[i] == xss[1..][i - 1];
      xss[0] + rest
  }

  /** `a` is `b` with some elements left out and the others in their order. */
  predicate IsSubsequence<T(==)>(a: seq<T>, b: seq<T>)
    decreases |b|
  {
    |a| == 0 ||
    (|b| > 0 && if a[0] == b[0] then IsSubsequence(a[1..], b[1..]) else IsSubsequence(a, b[1..]))
  }

  /** Number of occurrences of `x` in `s`. */
  function Count<T(==)>(s: seq<T>, x: T): nat
  {
    multiset(s)[x]
  }

  /** Removing the first `x` lowers the count of `x` by one when present and
      leaves every other count alone. */
  lemma RemoveFirstCount<T>(s: seq<T>, x: T, y: T)
    ensures Count(RemoveFirst(s, x), y) == Count(s, y) - (if y == x && x in s then 1 else 0)
  {
    assert multiset(RemoveFirst(s, x)) == multiset(s) - multiset{x};
  }

  /** With a positive multiplier, a positive product has a positive factor. */
  lemma PosFactor(x: int, b: int)
    requires b > 0 && x * b > 0
    ensures x > 0
  {}

  /** Euclidean quotient and remainder are unique. */
  lemma DivUnique(n: int, k: int, r: int, b: int)
    requires b > 0 && 0 <= r < b && n == k * b + r
    ensures n / b == k && n % b == r
  {
    var q, m := n / b, n % b;
    assert (k - q + 1) * b == m - r + b;
    PosFactor(k - q + 1, b);
    assert (q - k + 1) * b == r - m + b;
    PosFactor(q - k + 1, b);
  }

  /** A multiple of `b` leaves no remainder. */
  lemma MultipleMod(q: int, b: int)
    requires b > 0
    ensures (q * b) % b == 0
  {
    DivUnique(q * b, q, 0, b);
  }

  /** Euclidean division is monotone in the dividend. */
  lemma DivMono(x: int, y: int, b: int)
    requires b > 0 && x <= y
    ensures x / b <= y / b
  {
    var qx, qy := x / b, y / b;
    assert (qy - qx + 1) * b == y - y % b - x + x % b + b;
    PosFactor(qy - qx + 1, b);
  }
}

=== FILE: configuration.dfy ===
/** `AdapterConfiguration`: the persisted registry of adapter properties and
    devices. Both maps may be absent (null); reading them through the getters
    creates them empty. Every mutating call that persists first changes the
    in-memory state and then serializes; `persists` says whether that
    serialization succeeds, so a failure leaves the change in memory. */
module Configuration {
  import opened Common
  import opened DeviceModel

  datatype Config = Config(
    properties: Option<map<string, string>>,
    devices: Option<map<string, Device>>)

  /** The devices, an absent map reading as empty. */
  function DeviceMap(c: Config): map<string, Device> {
    if c.devices.Some? then c.devices.value else map[]
  }

  /** The device registered under `device`, if the id is non-null and known. */
  function Find(c: Config, device: Option<string>): (r: Option<Device>)
    ensures r.Some? <==> device.Some? && device.value in DeviceMap(c)
    ensures r.Some? ==> r.value == DeviceMap(c)[device.value]
  {
    if device.Some? && device.value in DeviceMap(c) then Some(DeviceMap(c)[device.value]) else None
  }

  /** The outcome of `serialize()` after a successful mutation. */
  function Persist(persists: bool): (r: Status)
    ensures r.Done? <==> persists
    ensures r.Failed? ==> r.error == PersistFailed
  {
    if persists then Done else Failed(PersistFailed)
  }

  /** `getDevices()`: materializes an absent map as an empty one. */
  function GetDevices(c: Config): (r: (Config, map<string, Device>))
    ensures r.0.devices == Some(r.1)
    ensures r.1 == DeviceMap(c)
    ensures r.0.properties == c.properties
    ensures c.devices.Some? ==> r.0 == c
  {
    var m := DeviceMap(c);
    (c.(devices := Some(m)), m)
  }

  /** `getProperties()`: materializes an absent map as an empty one. */
  function GetProperties(c: Config): (r: (Config, map<string, string>))
    ensures r.0.properties == Some(r.1)
    ensures c.properties.Some? ==> r.1 == c.properties.value && r.0 == c
    ensures c.properties.None? ==> r.1 == map[]
    ensures r.0.devices == c.devices
  {
    var m := if c.properties.Some? then c.properties.value else map[];
    (c.(properties := Some(m)), m)
  }

  /** `setProperties(p)`: a copy of `p`, or an absent map for null; then persists. */
  function SetProperties(c: Config, p: Option<map<string, string>>, persists: bool): (r: (Config, Status))
    ensures r.0.properties == p && r.0.devices == c.devices
    ensures r.1 == Persist(persists)
  {
    (c.(properties := p), Persist(persists))
  }

  /** `setProperty(name, value)` on the adapter properties: the map is created
      first; a null name or value is refused by the concurrent map. */
  function SetProperty(c: Config, name: Option<string>, value: Option<string>, persists: bool): (r: (Config, Status))
    ensures r.0.devices == c.devices && r.0.properties.Some?
    ensures name.None? || value.None? ==>
      r.0 == GetProperties(c).0 && r.1.Failed? && r.1.error.NullArgument?
    ensures name.Some? && value.Some? ==>
      && r.0.properties.value == GetProperties(c).1[name.value := value.value]
      && r.1 == Persist(persists)
  {
    var (c1, m) := GetProperties(c);
    if name.None? then (c1, Failed(NullArgument("key")))
    else if value.None? then (c1, Failed(NullArgument("value")))
    else (c1.(properties := Some(m[name.value := value.value])), Persist(persists))
  }

  /** `setDevices(ds)`: a copy of `ds`, or an absent map for null; not persisted. */
  function SetDevices(c: Config, ds: Option<map<string, Device>>): (r: Config)
    ensures r.devices == ds && r.properties == c.properties
  {
    c.(devices := ds)
  }

  /** The state after the lookup a device operation starts with: the device map
      is materialized only when the id is non-null. */
  function Looked(c: Config, device: Option<string>): (r: Config)
    ensures device.Some? ==> r == GetDevices(c).0
    ensures device.None? ==> r == c
  {
    if device.Some? then GetDevices(c).0 else c
  }

  /** `c` after the device `device` (which exists) was replaced by `d`. */
  function Store(c: Config, device: string, d: Device): (r: Config)
    ensures r.devices == Some(DeviceMap(c)[device := d])
    ensures r.properties == c.properties
  {
    c.(devices := Some(DeviceMap(c)[device := d]))
  }

  /** `device` is a known id, and the devices other than it are as in `c`. */
  predicate OnlyChanged(c: Config, r: Config, device: string) {
    && r.devices.Some? && r.properties == c.properties
    && device in DeviceMap(c)
    && DeviceMap(r).Keys == DeviceMap(c).Keys
    && forall k :: k in DeviceMap(c) && k != device ==> DeviceMap(r)[k] == DeviceMap(c)[k]
  }

  // ---------------------------------------------------------------------------
  // Labels

  /** `getLabel(device)`: the label of a known device; a null or unknown id does
      not exist. */
  function GetLabel(c: Config, device: Option<string>): (r: (Config, Result<Option<string>>))
    ensures r.0 == Looked(c, device)
    ensures r.1.Ok? <==> Find(c, device).Some?
    ensures r.1.Ok? ==> r.1.value == Find(c, device).value.labelText
    ensures r.1.Err? ==> r.1.error.NotExist?
  {
    var c1 := Looked(c, device);
    match Find(c, device)
    case None => (c1, Err(NotExist("device")))
    case Some(d) => (c1, Ok(d.labelText))
  }

  /** `setLabel(device, label)`: relabels a known device and marks it customized,
      then persists; an unknown device fails before any change or persisting. */
  function SetLabel(c: Config, device: Option<string>, newLabel: Option<string>, persists: bool): (r: (Config, Status))
    ensures Find(c, device).None? ==> r == (Looked(c, device), Failed(NotExist("device")))
    ensures Find(c, device).Some? ==>
      && OnlyChanged(c, r.0, device.value)
      && DeviceMap(r.0)[device.value] == Find(c, device).value.(labelText := newLabel, customized := true)
      && r.1 == Persist(persists)
  {
    match Find(c, device)
    case None => (Looked(c, device), Failed(NotExist("device")))
    case Some(d) => (Store(c, device.value, d.(labelText := newLabel, customized := true)), Persist(persists))
  }

  /** `getLabel(device, field)`: the label of a non-null field entry of a known
      device. */
  function GetFieldLabel(c: Config, device: Option<string>, field: Option<string>): (r: (Config, Result<Option<string>>))
    ensures r.0 == Looked(c, device)
    ensures Find(c, device).None? ==> r.1 == Err(NotExist("device"))
    ensures Find(c, device).Some? && FieldOf(Find(c, device).value, field).None? ==>
      r.1 == Err(NotExist("field"))
    ensures r.1.Ok? <==> Find(c, device).Some? && FieldOf(Find(c, device).value, field).Some?
    ensures r.1.Ok? ==> r.1.value == FieldOf(Find(c, device).value, field).value.labelText
  {
    var c1 := Looked(c, device);
    match Find(c, device)
    case None => (c1, Err(NotExist("device")))
    case Some(d) =>
      match FieldOf(d, field)
      case None => (c1, Err(NotExist("field")))
      case Some(f) => (c1, Ok(f.labelText))
  }

  /** `setLabel(device, field, label)`: relabels a non-null field entry, marks the
      device customized, then persists. */
  function SetFieldLabel(c: Config, device: Option<string>, field: Option<string>, newLabel: Option<string>,
                         persists: bool): (r: (Config, Status))
    ensures Find(c, device).None? ==> r == (Looked(c, device), Failed(NotExist("device")))
    ensures Find(c, device).Some? && FieldOf(Find(c, device).value, field).None? ==>
      r == (Looked(c, device), Failed(NotExist("field")))
    ensures Find(c, device).Some? && FieldOf(Find(c, device).value, field).Some? ==>
      var d := Find(c, device).value;
      && OnlyChanged(c, r.0, device.value)
      && DeviceMap(r.0)[device.value] ==
           WithField(d, field.value, FieldOf(d, field).value.(labelText := newLabel)).(customized := true)
      && r.1 == Persist(persists)
  {
    match Find(c, device)
    case None => (Looked(c, device), Failed(NotExist("device")))
    case Some(d) =>
      match FieldOf(d, field)
      case None => (Looked(c, device), Failed(NotExist("field")))
      case Some(f) =>
        (Store(c, device.value, WithField(d, field.value, f.(labelText := newLabel)).(customized := true)),
         Persist(persists))
  }

  // ---------------------------------------------------------------------------
  // Properties of devices and fields

  /** `setProperty(device, name, value)`: a null name fails before the device's
      properties map is touched; otherwise the map is created if absent, the pair
      stored, the device marked customized, and the configuration persisted. */
  function SetDeviceProperty(c: Config, device: Option<string>, name: Option<string>, value: Option<string>,
                             persists: bool): (r: (Config, Status))
    ensures Find(c, device).None? ==> r == (Looked(c, device), Failed(NotExist("device")))
    ensures Find(c, device).Some? && name.None? ==> r == (Looked(c, device), Failed(InvalidKey))
    ensures Find(c, device).Some? && name.Some? ==>
      var d := Find(c, device).value;
      var props := if d.properties.Some? then d.properties.value else map[];
      && OnlyChanged(c, r.0, device.value)
      && DeviceMap(r.0)[device.value] == d.(properties := Some(props[name.value := value]), customized := true)
      && r.1 == Persist(persists)
  {
    match Find(c, device)
    case None => (Looked(c, device), Failed(NotExist("device")))
    case Some(d) =>
      if name.None? then (Looked(c, device), Failed(InvalidKey))
      else
        var props := if d.properties.Some? then d.properties.value else map[];
        (Store(c, device.value, d.(properties := Some(props[name.value := value]), customized := true)),
         Persist(persists))
  }

  /** `setProperty(device, field, name, value)`: unlike the device variant, an
      absent field properties map is created BEFORE the null-name check, so a
      refused call can still turn an absent map into an empty one (without
      marking the device customized). */
  function SetFieldProperty(c: Config, device: Option<string>, field: Option<string>, name: Option<string>,
                            value: Option<string>, persists: bool): (r: (Config, Status))
    ensures Find(c, device).None? ==> r == (Looked(c, device), Failed(NotExist("device")))
    ensures Find(c, device).Some? && FieldOf(Find(c, device).value, field).None? ==>
      r == (Looked(c, device), Failed(NotExist("field")))
    ensures Find(c, device).Some? && FieldOf(Find(c, device).value, field).Some? ==>
      var d := Find(c, device).value;
      var f := FieldOf(d, field).value;
      var props := if f.properties.Some? then f.properties.value else map[];
      && OnlyChanged(c, r.0, device.value)
      && (name.None? ==>
            && DeviceMap(r.0)[device.value] == WithField(d, field.value, f.(properties := Some(props)))
            && r.1 == Failed(InvalidKey))
      && (name.Some? ==>
            && DeviceMap(r.0)[device.value] ==
                 WithField(d, field.value, f.(properties := Some(props[name.value := value]))).(customized := true)
            && r.1 == Persist(persists))
  {
    match Find(c, device)
    case None => (Looked(c, device), Failed(NotExist("device")))
    case Some(d) =>
      match FieldOf(d, field)
      case None => (Looked(c, device), Failed(NotExist("field")))
      case Some(f) =>
        var props := if f.properties.Some? then f.properties.value else map[];
        if name.None? then (Store(c, device.value, WithField(d, field.value, f.(properties := Some(props)))), Failed(InvalidKey))
        else
          (Store(c, device.value, WithField(d, field.value, f.(properties := Some(props[name.value := value]))).(customized := true)),
           Persist(persists))
  }

  // ---------------------------------------------------------------------------
  // Adding and removing devices (never persisted)

  /** `add(device)`: inserts or replaces the device under its id; a null device or
      a null id is refused before the device map is touched. */
  function Add(c: Config, device: Option<Device>): (r: (Config, Status))
    ensures device.None? ==> r == (c, Failed(NullArgument("device")))
    ensures device.Some? && device.value.id.None? ==> r == (c, Failed(NullArgument("id")))
    ensures device.Some? && device.value.id.Some? ==>
      && r.1 == Done && r.0.properties == c.properties
      && DeviceMap(r.0) == DeviceMap(c)[device.value.id.value := device.value]
  {
    if device.None? then (c, Failed(NullArgument("device")))
    else if device.value.id.None? then (c, Failed(NullArgument("id")))
    else (c.(devices := Some(DeviceMap(c)[device.value.id.value := device.value])), Done)
  }

  /** `remove(device)`: drops the id from the registry; null is a no-op. */
  function Remove(c: Config, device: Option<string>): (r: Config)
    ensures device.None? ==> r == c
    ensures device.Some? ==>
      && r.devices.Some? && r.properties == c.properties
      && DeviceMap(r) == DeviceMap(c) - {device.value}
  {
    if device.None? then c else c.(devices := Some(DeviceMap(c) - {device.value}))
  }

  // ---------------------------------------------------------------------------
  // Properties relating several calls

  /** The label set by a successful `setLabel` is what `getLabel` returns, whether
      or not persisting succeeded. */
  lemma SetThenGetLabel(c: Config, device: Option<string>, newLabel: Option<string>, persists: bool)
    requires Find(c, device).Some?
    ensures GetLabel(SetLabel(c, device, newLabel, persists).0, device).1 == Ok(newLabel)
  {
  }

  /** The same for field labels. */
  lemma SetThenGetFieldLabel(c: Config, device: Option<string>, field: Option<string>, newLabel: Option<string>,
                             persists: bool)
    requires Find(c, device).Some? && FieldOf(Find(c, device).value, field).Some?
    ensures GetFieldLabel(SetFieldLabel(c, device, field, newLabel, persists).0, device, field).1 == Ok(newLabel)
  {
  }

  /** A device added under its id answers `getLabel` with its own label; after
      `remove` the id no longer exists. */
  lemma AddThenRemove(c: Config, d: Device)
    requires d.id.Some?
    ensures GetLabel(Add(c, Some(d)).0, d.id).1 == Ok(d.labelText)
    ensures GetLabel(Remove(Add(c, Some(d)).0, d.id), d.id).1 == Err(NotExist("device"))
  {
  }

  /** None of the label and property setters ever clears a device's customized
      flag; the successful ones set it on their target. */
  predicate CustomizedKept(c: Config, r: Config) {
    forall k :: k in DeviceMap(c) && DeviceMap(c)[k].customized ==>
      k in DeviceMap(r) && DeviceMap(r)[k].customized
  }

  lemma CustomizedStickyLabels(c: Config, device: Option<string>, field: Option<string>,
                               value: Option<string>, persists: bool)
    ensures CustomizedKept(c, SetLabel(c, device, value, persists).0)
    ensures CustomizedKept(c, SetFieldLabel(c, device, field, value, persists).0)
  {
  }

  lemma CustomizedStickyProperties(c: Config, device: Option<string>, field: Option<string>, name: Option<string>,
                                   value: Option<string>, persists: bool)
    ensures CustomizedKept(c, SetDeviceProperty(c, device, name, value, persists).0)
    ensures CustomizedKept(c, SetFieldProperty(c, device, field, name, value, persists).0)
  {
  }

  /** The field-property quirk: a refused null-name call still materializes an
      absent field properties map. */
  lemma NullNameMaterializesFieldProperties(c: Config, device: string, field: string, persists: bool)
    requires Find(c, Some(device)).Some?
    requires FieldOf(Find(c, Some(device)).value, Some(field)).Some?
    requires FieldOf(Find(c, Some(device)).value, Some(field)).value.properties.None?
    ensures var r := SetFieldProperty(c, Some(device), Some(field), None, None, persists);
      && r.1 == Failed(InvalidKey)
      && FieldOf(DeviceMap(r.0)[device], Some(field)).value.properties == Some(map[])
  {
  }

  /** The device variant has no such effect: a refused call leaves every device
      as it was. */
  lemma NullNameKeepsDeviceProperties(c: Config, device: string, persists: bool)
    requires Find(c, Some(device)).Some?
    ensures var r := SetDeviceProperty(c, Some(device), None, None, persists);
      r.1 == Failed(InvalidKey) && DeviceMap(r.0) == DeviceMap(c)
  {
  }
}

=== FILE: cycle_manager.dfy ===
/** `CycleManager`: the registry of cycle specs by id, and the running cycles
    behind them. Creating, starting, updating and disposing a cycle are actions
    of collaborators that are not part of this model: each is recorded in a log
    and fails exactly when it is in the `failing` set. */
module CycleManager {
  import opened Common
  import opened CycleSpecs

  datatype CycleCall =
    | Create(id: string)
    | Start(id: string)                      // start() and evaluateCycleState()
    | Dispose(id: string)
    | Update(id: string)                     // update(spec) and applyConfiguration(spec)
    | AddSub(id: string, device: string, field: string)
    | RemoveSub(id: string, device: string, field: string)

  datatype Manager = Manager(
    specs: map<string, CycleSpec>,
    cycles: set<string>,                     // ids with a cycle object
    log: seq<CycleCall>)

  /** Every spec is stored under its own id. */
  predicate Valid(m: Manager) {
    forall k :: k in m.specs ==> m.specs[k].id == Some(k)
  }

  /** Every enabled spec has a cycle. */
  predicate EnabledRunning(m: Manager) {
    forall k :: k in m.specs && m.specs[k].enabled ==> k in m.cycles
  }

  /** Performs one collaborator action: logged, and successful unless failing. */
  function Perform(m: Manager, c: CycleCall, failing: set<CycleCall>): (r: (Manager, bool))
    ensures r.0 == m.(log := m.log + [c])
    ensures r.1 <==> c !in failing
  {
    (m.(log := m.log + [c]), c !in failing)
  }

  /** `startSpec`: starts the cycle of `id`, which must exist. */
  function StartSpec(m: Manager, id: string, failing: set<CycleCall>): (r: (Manager, Status))
    ensures r.0.specs == m.specs && r.0.cycles == m.cycles
    ensures r.1.Done? <==> id in m.cycles && Start(id) !in failing
    ensures id !in m.cycles ==> r == (m, Failed(NotExist("cycle")))
    ensures id in m.cycles ==> r.0.log == m.log + [Start(id)]
  {
    if id !in m.cycles then (m, Failed(NotExist("cycle")))
    else
      var (m1, ok) := Perform(m, Start(id), failing);
      (m1, if ok then Done else Failed(OperationFailed))
  }

  /** `stopSpec(spec, stop)`: disposes and forgets the cycle of `id` if there is
      one; unless `stop`, then creates a fresh cycle for it. A failing action
      aborts the rest. */
  function StopSpec(m: Manager, id: string, stop: bool, failing: set<CycleCall>): (r: (Manager, Status))
    ensures r.0.specs == m.specs
    ensures r.1.Done? <==>
      (id in m.cycles ==> Dispose(id) !in failing) && (!stop ==> Create(id) !in failing)
    ensures r.1.Done? ==> r.0.cycles == (if stop then m.cycles - {id} else m.cycles + {id})
    ensures r.0.cycles - {id} == m.cycles - {id}
    ensures stop && r.1.Failed? ==> r.0.cycles == m.cycles
  {
    var (m1, disposed) :=
      if id in m.cycles then
        var (m0, ok) := Perform(m, Dispose(id), failing);
        (if ok then m0.(cycles := m0.cycles - {id}) else m0, ok)
      else (m, true);
    if !disposed then (m1, Failed(OperationFailed))
    else if stop then (m1, Done)
    else
      var (m2, created) := Perform(m1, Create(id), failing);
      if created then (m2.(cycles := m2.cycles + {id}), Done) else (m2, Failed(OperationFailed))
  }

  /** The index of the first id of `ids` not in `used`. */
  function FirstFresh(ids: seq<string>, used: set<string>): (i: nat)
    requires exists j :: 0 <= j < |ids| && ids[j] !in used
    ensures i < |ids| && ids[i] !in used
    ensures forall j :: 0 <= j < i ==> ids[j] in used
  {
    if ids[0] !in used then 0
    else
      assert exists j :: 1 <= j < |ids| && ids[j] !in used;
      assert exists j :: 0 <= j < |ids[1..]| && ids[1..][j] !in used by {
        var j :| 1 <= j < |ids| && ids[j] !in used;
        assert ids[1..][j - 1] == ids[j];
      }
      1 + FirstFresh(ids[1..], used)
  }

  /** `getCycleSpec(id)`: a copy of the stored spec. */
  function GetCycleSpec(m: Manager, id: string): (r: Result<CycleSpec>)
    ensures r.Ok? <==> id in m.specs
    ensures r.Ok? ==> r == Copy(Some(m.specs[id]))
    ensures r.Err? ==> r.error.NotExist?
  {
    if id !in m.specs then Err(NotExist("cycle spec")) else Copy(Some(m.specs[id]))
  }

  /** `define(spec)`: draws random UUIDs (`uuids`, in order) until one is not a
      spec id, creates the cycle for a copy of the spec under that id, starts it
      if enabled, and only then stores the copy. A failing creation or start
      leaves the spec unstored. */
  function Define(m: Manager, spec: Option<CycleSpec>, uuids: seq<string>, failing: set<CycleCall>)
    : (r: (Manager, Result<string>))
    requires exists j :: 0 <= j < |uuids| && uuids[j] !in m.specs
    ensures spec.None? ==> r == (m, Err(NullArgument("spec")))
    ensures spec.Some? ==>
      var id := uuids[FirstFresh(uuids, m.specs.Keys)];
      && (r.1.Ok? <==> Create(id) !in failing && (spec.value.enabled ==> Start(id) !in failing))
      && (r.1.Ok? ==>
            && r.1.value == id && id !in m.specs
            && r.0.specs == m.specs[id := Copy(Some(spec.value.(id := Some(id)))).value]
            && r.0.cycles == m.cycles + {id})
      && (r.1.Err? ==> r.0.specs == m.specs)
    ensures Valid(m) ==> Valid(r.0)
    ensures EnabledRunning(m) ==> EnabledRunning(r.0)
  {
    if spec.None? then (m, Err(NullArgument("spec")))
    else
      var id := uuids[FirstFresh(uuids, m.specs.Keys)];
      var copy := Copy(Some(spec.value.(id := Some(id)))).value;
      var (m1, created) := Perform(m, Create(id), failing);
      if !created then (m1, Err(OperationFailed))
      else
        var m2 := m1.(cycles := m1.cycles + {id});
        var (m3, started) := if copy.enabled then StartSpec(m2, id, failing) else (m2, Done);
        if started.Failed? then (m3, Err(started.error))
        else (m3.(specs := m3.specs[id := copy]), Ok(id))
  }

  /** `update(id, spec)`: replaces the stored spec by a copy of `spec` carrying
      `id`. An enabled cycle can only be disabled (which disposes and recreates
      its cycle); enabling a disabled one updates and starts the cycle registered
      under the INCOMING spec's id, and is skipped when there is none. Any
      failure leaves the stored spec as it was. */
  function UpdateSpec(m: Manager, id: string, spec: Option<CycleSpec>, failing: set<CycleCall>)
    : (r: (Manager, Status))
    ensures id !in m.specs ==> r == (m, Failed(NotExist("cycle spec")))
    ensures id in m.specs && spec.None? ==> r == (m, Failed(NullArgument("spec")))
    ensures id in m.specs && spec.Some? && m.specs[id].enabled && spec.value.enabled ==>
      r == (m, Failed(ActiveCycle))
    ensures r.1.Done? ==>
      && id in m.specs && spec.Some?
      && r.0.specs == m.specs[id := Copy(spec).value.(id := Some(id))]
    ensures r.1.Failed? ==> r.0.specs == m.specs
    // disabled stays disabled: stored, with no cycle action
    ensures id in m.specs && spec.Some? && !m.specs[id].enabled && !spec.value.enabled ==>
      r.1 == Done && r.0.log == m.log && r.0.cycles == m.cycles
    // enabled becomes disabled: the running cycle is stopped and a fresh one created
    ensures id in m.specs && spec.Some? && m.specs[id].enabled && !spec.value.enabled ==>
      && (r.1.Done? <==> (id in m.cycles ==> Dispose(id) !in failing) && Create(id) !in failing)
      && (r.1.Done? ==> r.0.cycles == m.cycles + {id})
    // disabled becomes enabled: the cycle under the incoming spec's id, if any, is
    // updated and the cycle of `id` started
    ensures id in m.specs && spec.Some? && !m.specs[id].enabled && spec.value.enabled ==>
      && (r.1.Done? <==>
            || spec.value.id.None? || spec.value.id.value !in m.cycles
            || (Update(spec.value.id.value) !in failing && id in m.cycles && Start(id) !in failing))
      && (r.1.Failed? ==> r.1.error == ActiveCycle)
      && r.0.cycles == m.cycles
    ensures Valid(m) ==> Valid(r.0)
  {
    if id !in m.specs then (m, Failed(NotExist("cycle spec")))
    else if spec.None? then (m, Failed(NullArgument("spec")))
    else
      var current := m.specs[id];
      var copy := Copy(spec).value.(id := Some(id));
      var (m1, st) :=
        if current.enabled then
          if copy.enabled then (m, Failed(ActiveCycle))
          else StopSpec(m, id, false, failing)
        else if copy.enabled then Enable(m, id, spec.value.id, failing)
        else (m, Done);
      if st.Failed? then (m1, st) else (m1.(specs := m1.specs[id := copy]), Done)
  }

  /** The enabling branch of `update`: with a cycle under `lookup`, update it and
      start the cycle of `id`; any failure there surfaces as "cannot update
      active cycle". */
  function Enable(m: Manager, id: string, lookup: Option<string>, failing: set<CycleCall>): (r: (Manager, Status))
    ensures r.0.specs == m.specs
    ensures r.1.Failed? ==> r.1.error == ActiveCycle
    ensures lookup.None? || lookup.value !in m.cycles ==> r == (m, Done)
    ensures lookup.Some? && lookup.value in m.cycles ==>
      (r.1.Done? <==> Update(lookup.value) !in failing && id in m.cycles && Start(id) !in failing)
  {
    if lookup.None? || lookup.value !in m.cycles then (m, Done)
    else
      var (m1, ok) := Perform(m, Update(lookup.value), failing);
      if !ok then (m1, Failed(ActiveCycle))
      else
        var (m2, st) := StartSpec(m1, id, failing);
        (m2, if st.Done? then Done else Failed(ActiveCycle))
  }

  /** `undefine(id)`: removes the spec first, then disposes its cycle; a failing
      dispose is reported but the spec stays removed. */
  function Undefine(m: Manager, id: string, failing: set<CycleCall>): (r: (Manager, Status))
    ensures id !in m.specs ==> r == (m, Failed(NotExist("cycle spec")))
    ensures id in m.specs ==> r.0.specs == m.specs - {id}
    ensures id in m.specs ==> (r.1.Done? <==> id !in m.cycles || Dispose(id) !in failing)
    ensures r.1.Done? ==> id !in r.0.cycles && r.0.cycles == m.cycles - {id}
    ensures Valid(m) ==> Valid(r.0)
    ensures EnabledRunning(m) ==> EnabledRunning(r.0)
  {
    if id !in m.specs then (m, Failed(NotExist("cycle spec")))
    else StopSpec(m.(specs := m.specs - {id}), id, true, failing)
  }

  /** `dispose()`: disposes the cycle of every spec, in the map's iteration order
      `order`, and then empties the spec map; the first failing dispose aborts
      the rest and leaves the specs in place. */
  function DisposeAll(m: Manager, order: seq<string>, failing: set<CycleCall>): (r: (Manager, Status))
    requires forall k :: k in order <==> k in m.specs
    ensures r.1.Done? <==> forall k :: k in order && k in m.cycles ==> Dispose(k) !in failing
    ensures r.1.Done? ==> r.0.specs == map[] && r.0.cycles == m.cycles - m.specs.Keys
    ensures r.1.Failed? ==> r.0.specs == m.specs
  {
    var (m1, st) := DisposeEach(m, order, failing);
    if st.Done? then (m1.(specs := map[]), Done) else (m1, st)
  }

  /** Disposing the cycles of `order` stopped at index `i`: the cycle there
      exists (it was not disposed earlier) and fails to dispose, every earlier
      dispose succeeded, and exactly the cycles listed before `i` are gone. */
  predicate StoppedAt(cycles: set<string>, order: seq<string>, failing: set<CycleCall>, i: int,
                      after: set<string>)
  {
    && 0 <= i < |order|
    && order[i] in cycles && order[i] !in order[..i] && Dispose(order[i]) in failing
    && (forall j :: 0 <= j < i && order[j] in cycles ==> Dispose(order[j]) !in failing)
    && after == cycles - set k | k in order[..i]
  }

  /** Disposes the cycles of `order` one after the other; the first failing
      dispose ends the loop, leaving the later cycles alone. */
  function DisposeEach(m: Manager, order: seq<string>, failing: set<CycleCall>): (r: (Manager, Status))
    ensures r.0.specs == m.specs
    ensures r.1.Done? <==> forall k :: k in order && k in m.cycles ==> Dispose(k) !in failing
    ensures r.1.Done? ==> r.0.cycles == m.cycles - set k | k in order
    ensures r.1.Failed? ==> exists i :: StoppedAt(m.cycles, order, failing, i, r.0.cycles)
    decreases |order|
  {
    if |order| == 0 then (m, Done)
    else
      var (m1, st) := StopSpec(m, order[0], true, failing);
      if st.Failed? then
        assert order[..0] == [];
        assert StoppedAt(m.cycles, order, failing, 0, m1.cycles);
        (m1, st)
      else
        var (m2, st2) := DisposeEach(m1, order[1..], failing);
        assert forall k :: k in order <==> k == order[0] || k in order[1..];
        assert st2.Failed? ==> exists i :: StoppedAt(m.cycles, order, failing, i, m2.cycles) by {
          if st2.Failed? {
            var i' :| StoppedAt(m1.cycles, order[1..], failing, i', m2.cycles);
            DisposeEachShift(m.cycles, m1.cycles, order, failing, i', m2.cycles);
          }
        }
        (m2, st2)
  }

  /** A stop found after a successful first dispose is a stop of the whole loop,
      one index further on. */
  lemma DisposeEachShift(cycles: set<string>, cycles1: set<string>, order: seq<string>,
                         failing: set<CycleCall>, i: int, after: set<string>)
    requires |order| > 0 && cycles1 == cycles - {order[0]}
    requires order[0] in cycles ==> Dispose(order[0]) !in failing
    requires StoppedAt(cycles1, order[1..], failing, i, after)
    ensures StoppedAt(cycles, order, failing, i + 1, after)
  {
    assert order[1..][i] == order[i + 1];
    assert order[..i + 1] == [order[0]] + order[1..][..i];
    forall j | 0 <= j < i + 1 && order[j] in cycles ensures Dispose(order[j]) !in failing {
      if j > 0 && order[j] != order[0] {
        assert order[1..][j - 1] == order[j];
      }
    }
  }

  /** `addFieldSubscription(id, device, field)`: for an enabled spec the cycle is
      told first (and must exist); the spec changes only if that succeeds. */
  function SubscribeField(m: Manager, id: string, device: string, field: string, failing: set<CycleCall>)
    : (r: (Manager, Status))
    ensures id !in m.specs ==> r == (m, Failed(NotExist("cycle spec")))
    ensures id in m.specs ==>
      (r.1.Done? <==> !m.specs[id].enabled || (id in m.cycles && AddSub(id, device, field) !in failing))
    ensures r.1.Done? ==> r.0.specs == m.specs[id := AddFieldSubscription(m.specs[id], device, field)]
    ensures r.1.Failed? ==> r.0.specs == m.specs
    ensures r.0.cycles == m.cycles
    ensures Valid(m) ==> Valid(r.0)
    ensures EnabledRunning(m) ==> EnabledRunning(r.0)
  {
    if id !in m.specs then (m, Failed(NotExist("cycle spec")))
    else
      var (m1, st) := NotifyCycle(m, id, AddSub(id, device, field), failing);
      if st.Failed? then (m1, st)
      else (m1.(specs := m1.specs[id := AddFieldSubscription(m.specs[id], device, field)]), Done)
  }

  /** `removeFieldSubscription(id, device, field)`, with the same ordering. */
  function UnsubscribeField(m: Manager, id: string, device: string, field: string, failing: set<CycleCall>)
    : (r: (Manager, Status))
    ensures id !in m.specs ==> r == (m, Failed(NotExist("cycle spec")))
    ensures id in m.specs ==>
      (r.1.Done? <==> !m.specs[id].enabled || (id in m.cycles && RemoveSub(id, device, field) !in failing))
    ensures r.1.Done? ==> r.0.specs == m.specs[id := RemoveFieldSubscription(m.specs[id], device, field)]
    ensures r.1.Failed? ==> r.0.specs == m.specs
    ensures r.0.cycles == m.cycles
    ensures Valid(m) ==> Valid(r.0)
    ensures EnabledRunning(m) ==> EnabledRunning(r.0)
  {
    if id !in m.specs then (m, Failed(NotExist("cycle spec")))
    else
      var (m1, st) := NotifyCycle(m, id, RemoveSub(id, device, field), failing);
      if st.Failed? then (m1, st)
      else (m1.(specs := m1.specs[id := RemoveFieldSubscription(m.specs[id], device, field)]), Done)
  }

  /** Passes a subscription change to the cycle of an enabled spec; a missing
      cycle is a null dereference. */
  function NotifyCycle(m: Manager, id: string, c: CycleCall, failing: set<CycleCall>): (r: (Manager, Status))
    requires id in m.specs
    ensures r.0.specs == m.specs && r.0.cycles == m.cycles
    ensures r.1.Done? <==> !m.specs[id].enabled || (id in m.cycles && c !in failing)
  {
    if !m.specs[id].enabled then (m, Done)
    else if id !in m.cycles then (m, Failed(NullArgument("cycle")))
    else
      var (m1, ok) := Perform(m, c, failing);
      (m1, if ok then Done else Failed(OperationFailed))
  }

  /** One spec of the constructor's map: the copy is stored under its id in any
      case, but disabled when its cycle cannot be created or started. */
  function RestoreOne(m: Manager, spec: CycleSpec, failing: set<CycleCall>): (r: Manager)
    requires spec.id.Some?
    ensures var id := spec.id.value;
      && id in r.specs
      && r.specs == m.specs[id := Copy(Some(spec)).value.(enabled := r.specs[id].enabled)]
      && (r.specs[id].enabled <==> spec.enabled && Create(id) !in failing && Start(id) !in failing)
      && (Create(id) !in failing ==> r.cycles == m.cycles + {id})
      && (Create(id) in failing ==> r.cycles == m.cycles)
    ensures Valid(m) ==> Valid(r)
    ensures EnabledRunning(m) ==> EnabledRunning(r)
  {
    var id := spec.id.value;
    var copy := Copy(Some(spec)).value;
    var (m1, created) := Perform(m, Create(id), failing);
    if !created then m1.(specs := m1.specs[id := copy.(enabled := false)])
    else
      var m2 := m1.(cycles := m1.cycles + {id});
      var (m3, st) := if copy.enabled then StartSpec(m2, id, failing) else (m2, Done);
      m3.(specs := m3.specs[id := if st.Done? then copy else copy.(enabled := false)])
  }

  /** The ids of `specs`. */
  function Ids(specs: seq<CycleSpec>): set<string>
    requires forall i :: 0 <= i < |specs| ==> specs[i].id.Some?
  {
    if |specs| == 0 then {} else {specs[0].id.value} + Ids(specs[1..])
  }

  /** The constructor from persisted specs, visited in the map's iteration order. */
  function Restore(m: Manager, specs: seq<CycleSpec>, failing: set<CycleCall>): (r: Manager)
    requires forall i :: 0 <= i < |specs| ==> specs[i].id.Some?
    ensures r.specs.Keys == m.specs.Keys + Ids(specs)
    ensures Valid(m) ==> Valid(r)
    ensures EnabledRunning(m) ==> EnabledRunning(r)
    decreases |specs|
  {
    if |specs| == 0 then m
    else
      Restore(RestoreOne(m, specs[0], failing), specs[1..], failing)
  }

  // ---------------------------------------------------------------------------
  // Properties relating several calls

  /** A defined spec is found again under the returned id, as a copy of the
      defined spec carrying that id. */
  lemma DefineThenGet(m: Manager, spec: CycleSpec, uuids: seq<string>, failing: set<CycleCall>)
    requires exists j :: 0 <= j < |uuids| && uuids[j] !in m.specs
    requires Define(m, Some(spec), uuids, failing).1.Ok?
    ensures var (m1, id) := Define(m, Some(spec), uuids, failing);
      && GetCycleSpec(m1, id.value).Ok?
      && GetCycleSpec(m1, id.value).value.id == Some(id.value)
      && GetCycleSpec(m1, id.value).value.(id := spec.id, fieldSubscriptions := spec.fieldSubscriptions) == spec
  {
  }

  /** After `undefine`, the id is unknown, whatever happened to the cycle. */
  lemma UndefineThenGet(m: Manager, id: string, failing: set<CycleCall>)
    requires id in m.specs
    ensures GetCycleSpec(Undefine(m, id, failing).0, id).Err?
  {
  }

  /** An accepted update is found again under its id: a copy of the incoming
      spec, carrying that id and the incoming subscriptions. */
  lemma UpdateThenGet(m: Manager, id: string, spec: CycleSpec, failing: set<CycleCall>)
    requires UpdateSpec(m, id, Some(spec), failing).1.Done?
    ensures var m1 := UpdateSpec(m, id, Some(spec), failing).0;
      && GetCycleSpec(m1, id).Ok?
      && GetCycleSpec(m1, id).value.id == Some(id)
      && GetCycleSpec(m1, id).value.fieldSubscriptions == Some(Subs(spec))
      && GetCycleSpec(m1, id).value.(id := spec.id, fieldSubscriptions := spec.fieldSubscriptions) == spec
  {
  }

  /** The enabling branch of `update` reaches the cycle of the incoming spec's id,
      not of the id being updated: with a cycle only under another id `other`,
      that cycle is updated and the start of `id` fails for want of a cycle. */
  lemma UpdateUsesIncomingId(m: Manager, id: string, other: string, spec: CycleSpec)
    requires id in m.specs && !m.specs[id].enabled && spec.enabled
    requires spec.id == Some(other) && other != id && other in m.cycles && id !in m.cycles
    ensures UpdateSpec(m, id, Some(spec), {}).0.log == m.log + [Update(other)]
    ensures UpdateSpec(m, id, Some(spec), {}).1 == Failed(ActiveCycle)
  {
  }

  /** When `define` cannot start the cycle it created, the cycle is kept although
      no spec refers to it. */
  lemma DefineStartFailureKeepsCycle(m: Manager, spec: CycleSpec, uuids: seq<string>)
    requires exists j :: 0 <= j < |uuids| && uuids[j] !in m.specs
    requires spec.enabled
    ensures var id := uuids[FirstFresh(uuids, m.specs.Keys)];
      var r := Define(m, Some(spec), uuids, {Start(id)});
      r.1.Err? && id in r.0.cycles && id !in r.0.specs
  {
  }

  /** Enabling a disabled spec through an incoming spec without an id succeeds
      and stores the spec as enabled, yet its existing cycle is never started. */
  lemma UpdateWithoutIdSkipsStart(m: Manager, id: string, spec: CycleSpec)
    requires id in m.specs && !m.specs[id].enabled && id in m.cycles
    requires spec.enabled && spec.id.None?
    ensures var r := UpdateSpec(m, id, Some(spec), {});
      && r.1 == Done && id in r.0.specs && r.0.specs[id].enabled
      && r.0.log == m.log
  {
  }

  /** `update` looking the cycle up by the id being updated, which the copy
      already carries. */
  function UpdateCorrected(m: Manager, id: string, spec: Option<CycleSpec>, failing: set<CycleCall>)
    : (r: (Manager, Status))
    ensures id !in m.specs ==> r == (m, Failed(NotExist("cycle spec")))
    ensures id in m.specs && spec.Some? && m.specs[id].enabled && spec.value.enabled ==>
      r == (m, Failed(ActiveCycle))
    ensures r.1.Done? ==>
      && id in m.specs && spec.Some?
      && r.0.specs == m.specs[id := Copy(spec).value.(id := Some(id))]
    ensures r.1.Failed? ==> r.0.specs == m.specs
    ensures r.1.Done? && id in m.cycles && !m.specs[id].enabled && spec.value.enabled ==>
      r.0.log == m.log + [Update(id), Start(id)]
    ensures id in m.specs && spec.None? ==> r == (m, Failed(NullArgument("spec")))
    ensures id in m.specs && spec.Some? && !m.specs[id].enabled && !spec.value.enabled ==>
      r.1 == Done && r.0.log == m.log && r.0.cycles == m.cycles
    ensures id in m.specs && spec.Some? && m.specs[id].enabled && !spec.value.enabled ==>
      && (r.1.Done? <==> (id in m.cycles ==> Dispose(id) !in failing) && Create(id) !in failing)
      && (r.1.Done? ==> r.0.cycles == m.cycles + {id})
    // disabled becomes enabled: the cycle of `id` itself, if any, is updated and started
    ensures id in m.specs && spec.Some? && !m.specs[id].enabled && spec.value.enabled ==>
      && (r.1.Done? <==> id !in m.cycles || (Update(id) !in failing && Start(id) !in failing))
      && (r.1.Failed? ==> r.1.error == ActiveCycle)
      && r.0.cycles == m.cycles
    ensures Valid(m) ==> Valid(r.0)
  {
    if id !in m.specs then (m, Failed(NotExist("cycle spec")))
    else if spec.None? then (m, Failed(NullArgument("spec")))
    else
      var current := m.specs[id];
      var copy := Copy(spec).value.(id := Some(id));
      var (m1, st) :=
        if current.enabled then
          if copy.enabled then (m, Failed(ActiveCycle))
          else StopSpec(m, id, false, failing)
        else if copy.enabled then Enable(m, id, Some(id), failing)
        else (m, Done);
      if st.Failed? then (m1, st) else (m1.(specs := m1.specs[id := copy]), Done)
  }

  /** With the lookup by the updated id, enabling a spec whose cycle exists starts
      that cycle, whatever id the incoming spec carries. */
  lemma UpdateCorrectedStarts(m: Manager, id: string, spec: CycleSpec)
    requires id in m.specs && !m.specs[id].enabled && id in m.cycles && spec.enabled
    ensures var r := UpdateCorrected(m, id, Some(spec), {});
      && r.1 == Done && r.0.specs[id].enabled
      && Start(id) in r.0.log
  {
  }
}

=== FILE: cycle_spec.dfy ===
/** `CycleSpec`: the settings of one report cycle and the fields it subscribes,
    grouped by device. The subscription map may be absent (null) until it is
    first read. */
module CycleSpecs {
  import opened Common

  datatype CycleSpec = CycleSpec(
    id: Option<string>,
    applicationId: Option<string>,
    name: Option<string>,
    enabled: bool,
    duration: int,                 // ms, -1: unset
    repeatPeriod: int,             // ms, -1: disabled
    interval: int,                 // ms, -1: disabled
    whenDataAvailable: bool,
    whenDataAvailableDelay: int,   // ms
    reportIfEmpty: bool,
    fieldSubscriptions: Option<map<string, set<string>>>)

  /** `new CycleSpec()`: no ids, disabled, the three durations unset, no data
      trigger, no empty reports, no subscription map yet. */
  function New(): (r: CycleSpec)
    ensures r.id.None? && r.applicationId.None? && r.name.None? && !r.enabled
    ensures r.duration == -1 && r.repeatPeriod == -1 && r.interval == -1
    ensures !r.whenDataAvailable && r.whenDataAvailableDelay == 0 && !r.reportIfEmpty
    ensures r.fieldSubscriptions.None?
  {
    CycleSpec(None, None, None, false, -1, -1, -1, false, 0, false, None)
  }

  /** `getFieldSubscriptions()` as seen by a reader: absent reads as empty. */
  function Subs(s: CycleSpec): map<string, set<string>> {
    if s.fieldSubscriptions.Some? then s.fieldSubscriptions.value else map[]
  }

  /** The fields subscribed for `device`, none when the device is unknown. */
  function FieldsOf(s: CycleSpec, device: string): set<string> {
    if device in Subs(s) then Subs(s)[device] else {}
  }

  /** The copy constructor: refuses null, copies every scalar setting and rebuilds
      the subscription map set by set; the copy's map always exists. */
  function Copy(s: Option<CycleSpec>): (r: Result<CycleSpec>)
    ensures r.Err? <==> s.None?
    ensures r.Err? ==> r.error.NullArgument?
    ensures r.Ok? ==> r.value.fieldSubscriptions == Some(Subs(s.value))
    ensures r.Ok? ==> r.value.(fieldSubscriptions := s.value.fieldSubscriptions) == s.value
  {
    if s.None? then Err(NullArgument("spec"))
    else
      var src := s.value;
      var subs := map d | d in Subs(src) :: set f | f in Subs(src)[d];
      assert forall d :: d in Subs(src) ==> subs[d] == Subs(src)[d];
      assert subs == Subs(src);
      Ok(CycleSpec(src.id, src.applicationId, src.name, src.enabled, src.duration, src.repeatPeriod,
                   src.interval, src.whenDataAvailable, src.whenDataAvailableDelay, src.reportIfEmpty,
                   Some(subs)))
  }

  /** `addFieldSubscription(device, field)`: adds `field` to the device's set,
      creating the set (and the map) when missing. */
  function AddFieldSubscription(s: CycleSpec, device: string, field: string): (r: CycleSpec)
    ensures r.fieldSubscriptions.Some? && device in Subs(r)
    ensures Subs(r)[device] == FieldsOf(s, device) + {field}
    ensures Subs(r).Keys == Subs(s).Keys + {device}
    ensures forall d :: d in Subs(s) && d != device ==> Subs(r)[d] == Subs(s)[d]
    ensures r == s.(fieldSubscriptions := r.fieldSubscriptions)
  {
    s.(fieldSubscriptions := Some(Subs(s)[device := FieldsOf(s, device) + {field}]))
  }

  /** `removeFieldSubscription(device, field)`: removes `field` from the device's
      set; an unknown device is left alone and an emptied set stays in the map. */
  function RemoveFieldSubscription(s: CycleSpec, device: string, field: string): (r: CycleSpec)
    ensures r.fieldSubscriptions == Some(if device in Subs(s) then Subs(s)[device := Subs(s)[device] - {field}] else Subs(s))
    ensures field !in FieldsOf(r, device)
    ensures Subs(r).Keys == Subs(s).Keys
    ensures r == s.(fieldSubscriptions := r.fieldSubscriptions)
  {
    if device in Subs(s) then s.(fieldSubscriptions := Some(Subs(s)[device := Subs(s)[device] - {field}]))
    else s.(fieldSubscriptions := Some(Subs(s)))
  }

  /** Adding a subscription twice is adding it once. */
  lemma AddIdempotent(s: CycleSpec, device: string, field: string)
    ensures AddFieldSubscription(AddFieldSubscription(s, device, field), device, field)
         == AddFieldSubscription(s, device, field)
  {
    var once := AddFieldSubscription(s, device, field);
    assert Subs(once)[device := FieldsOf(once, device) + {field}] == Subs(once);
  }

  /** Removing undoes adding a field that was not subscribed, except that the
      device's (possibly empty) set remains. */
  lemma RemoveUndoesAdd(s: CycleSpec, device: string, field: string)
    requires field !in FieldsOf(s, device)
    ensures FieldsOf(RemoveFieldSubscription(AddFieldSubscription(s, device, field), device, field), device)
         == FieldsOf(s, device)
    ensures device in Subs(RemoveFieldSubscription(AddFieldSubscription(s, device, field), device, field))
  {
  }
}

=== FILE: device.dfy ===
/** The device and field records shared by the configuration, the device copy and
    the report factory. They carry no behaviour of their own. */
module DeviceModel {
  import opened Common

  /** Implementation specific properties: name to value. Values may be null. */
  type Properties = map<string, Option<string>>

  datatype Field = Field(
    id: Option<string>,
    name: Option<string>,
    labelText: Option<string>,
    properties: Option<Properties>)   // None: no properties map at all

  datatype Device = Device(
    id: Option<string>,
    name: Option<string>,
    labelText: Option<string>,
    usable: bool,
    customized: bool,
    properties: Option<Properties>,
    fields: Option<map<string, Option<Field>>>)   // a field entry may be null

  /** A device as freshly constructed: every reference null, both flags false. */
  const NewDevice := Device(None, None, None, false, false, None, None)

  /** The field `f` of `d`, when the field map exists and holds a non-null entry
      for it. */
  function FieldOf(d: Device, f: Option<string>): (r: Option<Field>)
    ensures r.Some? <==>
      f.Some? && d.fields.Some? && f.value in d.fields.value && d.fields.value[f.value].Some?
    ensures r.Some? ==> r == d.fields.value[f.value]
  {
    if f.Some? && d.fields.Some? && f.value in d.fields.value then d.fields.value[f.value] else None
  }

  /** `d` with field `f` (which must exist) replaced by `fld`. */
  function WithField(d: Device, f: string, fld: Field): (r: Device)
    requires d.fields.Some?
    ensures r.fields.Some? && r.fields.value.Keys == d.fields.value.Keys + {f}
    ensures FieldOf(r, Some(f)) == Some(fld)
    ensures forall g :: g != f ==> FieldOf(r, Some(g)) == FieldOf(d, Some(g))
    ensures r == d.(fields := r.fields)
  {
    d.(fields := Some(d.fields.value[f := Some(fld)]))
  }
}

=== FILE: device_spec.dfy ===
/** `DeviceSpec`: a device plus the three settings of a per-device cycle, and its
    copy constructor from any device. */
module DeviceSpecs {
  import opened Common
  import opened DeviceModel

  datatype DeviceSpec = DeviceSpec(
    base: Device,
    enabled: bool,
    specId: Option<string>,
    period: Option<int>)

  /** The argument of the copy constructor: a plain device or itself a spec. */
  datatype Source = Plain(device: Device) | Spec(spec: DeviceSpec)

  function DeviceOf(s: Source): Device {
    match s
    case Plain(d) => d
    case Spec(ds) => ds.base
  }

  /** Whether every entry of the field map (when present) is non-null; the copy
      dereferences each entry. */
  predicate FieldsCopyable(d: Device) {
    d.fields.None? || forall f :: f in d.fields.value ==> d.fields.value[f].Some?
  }

  /** A field rebuilt from its id, label, name and properties. */
  function CopyField(f: Field): (r: Field)
    ensures r == f
  {
    Field(f.id, f.name, f.labelText, if f.properties.Some? then Some(f.properties.value) else None)
  }

  /** `new DeviceSpec(d)`: copies id, label, name, the customized and usable flags,
      the properties (which must exist) and every field; an absent field map or
      field properties map stays absent. The spec settings are taken over only
      when `d` is itself a spec. */
  function Copy(src: Option<Source>): (r: Result<DeviceSpec>)
    ensures r.Ok? <==>
      src.Some? && DeviceOf(src.value).properties.Some? && FieldsCopyable(DeviceOf(src.value))
    ensures r.Ok? ==> r.value.base == DeviceOf(src.value)
    ensures r.Ok? && src.value.Spec? ==> r.value == src.value.spec
    ensures r.Ok? && src.value.Plain? ==>
      !r.value.enabled && r.value.specId.None? && r.value.period.None?
  {
    if src.None? then Err(NullArgument("device"))
    else
      var d := DeviceOf(src.value);
      if d.properties.None? then Err(NullArgument("properties"))
      else if !FieldsCopyable(d) then Err(NullArgument("field"))
      else
        var fields :=
          if d.fields.None? then None
          else
            var copied := map f | f in d.fields.value :: Some(CopyField(d.fields.value[f].value));
            assert copied == d.fields.value;
            Some(copied);
        var base := NewDevice.(id := d.id, labelText := d.labelText, name := d.name,
                               customized := d.customized, usable := d.usable,
                               properties := Some(d.properties.value), fields := fields);
        match src.value
        case Plain(_) => Ok(DeviceSpec(base, false, None, None))
        case Spec(ds) => Ok(DeviceSpec(base, ds.enabled, ds.specId, ds.period))
  }

  /** Copying a copy yields the same spec again. */
  lemma CopyIdempotent(src: Source)
    requires Copy(Some(src)).Ok?
    ensures Copy(Some(Spec(Copy(Some(src)).value))) == Copy(Some(src))
  {
  }
}

=== FILE: poll_service.dfy ===
/** The poll registry (`PollService`): a list of poll states keyed by (device, field),
    the delay the worker sleeps before the next due field, one read of a due field,
    and the start/stop guard. Threads, waiting and notification are not modelled:
    each operation is one sequential step, and the clock is the parameter `now`. */
module PollService {
  import opened Common
  import opened PollState

  /** Where the worker reads values from: the adapter given to `start`, or the
      handler given to the other `start`. Both are opaque references. */
  datatype Source = FromAdapter(adapter: nat) | FromHandler(handler: nat)

  datatype Service = Service(
    fields: seq<State>,
    time: int,                 // creation time of the service: the phase anchor
    eventOnlyOnChange: bool,   // default for `setField` without the flag
    enableFailure: bool,       // whether failures back off
    running: bool,
    adapter: Option<nat>,
    handler: Option<nat>,
    listener: Option<nat>)

  /** The outcome of reading a field from the adapter or handler. */
  datatype ReadOutcome = Read(v: Obj) | ReadFailed

  /** What one read makes the worker do besides updating the state. */
  datatype PollEvent =
    | OnSuccess(device: string, field: string, value: Obj)   // listener.onSuccess
    | OnFailure(device: string, field: string)               // listener.onFailure
    | LoggedWarning(device: string, field: string)           // the edge-triggered log line

  // ---------------------------------------------------------------------------
  // The registry

  /** No two entries share a (device, field) key. */
  ghost predicate UniqueKeys(fields: seq<State>) {
    forall i, j :: 0 <= i < j < |fields| ==> !SameKey(fields[i], fields[j])
  }

  predicate HasKey(st: State, device: string, field: string) {
    st.device == device && st.field == field
  }

  /** The entry registered for (device, field), if any. */
  function Lookup(fields: seq<State>, device: string, field: string): (r: Option<State>)
    ensures r.Some? ==> r.value in fields && HasKey(r.value, device, field)
    ensures r.None? <==> forall i :: 0 <= i < |fields| ==> !HasKey(fields[i], device, field)
  {
    if |fields| == 0 then None
    else if HasKey(fields[0], device, field) then Some(fields[0])
    else Lookup(fields[1..], device, field)
  }

  /** `indexOf`: position of the first entry with the key, or -1. */
  function IndexOf(fields: seq<State>, device: string, field: string): (r: int)
    ensures -1 <= r < |fields|
    ensures r >= 0 ==> HasKey(fields[r], device, field)
    ensures r >= 0 ==> forall i :: 0 <= i < r ==> !HasKey(fields[i], device, field)
    ensures r < 0 <==> forall i :: 0 <= i < |fields| ==> !HasKey(fields[i], device, field)
  {
    if |fields| == 0 then -1
    else if HasKey(fields[0], device, field) then 0
    else
      var k := IndexOf(fields[1..], device, field);
      if k < 0 then -1 else k + 1
  }

  /** With unique keys, the entry at an index is what a lookup of its key finds. */
  lemma {:induction false} LookupAt(fields: seq<State>, i: int)
    requires UniqueKeys(fields) && 0 <= i < |fields|
    ensures Lookup(fields, fields[i].device, fields[i].field) == Some(fields[i])
  {
    if i > 0 {
      assert !SameKey(fields[0], fields[i]);
      LookupAt(fields[1..], i - 1);
    }
  }

  /** A lookup only depends on the entries carrying the key. */
  lemma {:induction false} LookupSplit(a: seq<State>, b: seq<State>, device: string, field: string)
    requires forall i :: 0 <= i < |a| ==> !HasKey(a[i], device, field)
    ensures Lookup(a + b, device, field) == Lookup(b, device, field)
  {
    if |a| > 0 {
      assert (a + b)[0] == a[0] && !HasKey(a[0], device, field);
      assert (a + b)[1..] == a[1..] + b;
      assert forall i :: 0 <= i < |a[1..]| ==> a[1..][i] == a[i + 1];
      LookupSplit(a[1..], b, device, field);
    } else {
      assert a + b == b;
    }
  }

  lemma {:induction false} LookupAppend(a: seq<State>, x: State, device: string, field: string)
    ensures Lookup(a + [x], device, field) ==
      if Lookup(a, device, field).Some? then Lookup(a, device, field)
      else if HasKey(x, device, field) then Some(x) else None
  {
    if |a| > 0 {
      assert (a + [x])[1..] == a[1..] + [x];
      LookupAppend(a[1..], x, device, field);
    }
  }

  /** Replacing or removing the entry at `i` changes no lookup of another key. */
  lemma LookupOthers(fields: seq<State>, i: int, x: State, device: string, field: string)
    requires 0 <= i < |fields|
    requires !HasKey(fields[i], device, field) && !HasKey(x, device, field)
    ensures Lookup(fields[i := x], device, field) == Lookup(fields, device, field)
    ensures Lookup(fields[..i] + fields[i + 1..], device, field) == Lookup(fields, device, field)
  {
    LookupSkip(fields, i, device, field);
    LookupSkip(fields[i := x], i, device, field);
    assert fields[i := x][..i] == fields[..i];
    assert fields[i := x][i + 1..] == fields[i + 1..];
  }

  lemma {:induction false} LookupSkip(fields: seq<State>, i: int, device: string, field: string)
    requires 0 <= i < |fields| && !HasKey(fields[i], device, field)
    ensures Lookup(fields, device, field) == Lookup(fields[..i] + fields[i + 1..], device, field)
  {
    var r := fields[..i] + fields[i + 1..];
    if i > 0 {
      assert r[0] == fields[0];
      assert r[1..] == fields[1..][..i - 1] + fields[1..][i..];
      LookupSkip(fields[1..], i - 1, device, field);
    } else {
      assert r == fields[1..];
    }
  }

  /** `r` is `fields` with the entry at `k` changed at most: no entry moves. */
  predicate KeptExcept(r: seq<State>, fields: seq<State>, k: int) {
    |r| >= |fields| && forall i :: 0 <= i < |fields| && i != k ==> r[i] == fields[i]
  }

  /** `r` is `fields` without the entry at `k`: the entries before it stay, the
      later ones move down by one. */
  predicate RemovedAt(r: seq<State>, fields: seq<State>, k: int)
    requires 0 <= k < |fields|
  {
    && |r| == |fields| - 1
    && (forall i :: 0 <= i < k ==> r[i] == fields[i])
    && (forall i :: k <= i < |r| ==> r[i] == fields[i + 1])
  }

  /** Registers `st` under its key: appended when the key is new, otherwise put
      in place of the old entry and given the old entry's value. */
  function Put(fields: seq<State>, st: State, now: int): (r: seq<State>)
    requires UniqueKeys(fields) && st.period > 0
    ensures UniqueKeys(r)
    ensures forall d', f' :: (d', f') != (st.device, st.field) ==> Lookup(r, d', f') == Lookup(fields, d', f')
    ensures
      var prior := Lookup(fields, st.device, st.field);
      var entry := Lookup(r, st.device, st.field);
      && entry.Some?
      && entry.value == (if prior.Some? then SetValue(st, prior.value.value, now).0 else st)
    ensures Lookup(fields, st.device, st.field).Some? ==>
      |r| == |fields| && IndexOf(r, st.device, st.field) == IndexOf(fields, st.device, st.field)
    ensures Lookup(fields, st.device, st.field).None? ==>
      |r| == |fields| + 1 && r[..|fields|] == fields
    ensures KeptExcept(r, fields, IndexOf(fields, st.device, st.field))
  {
    var index := IndexOf(fields, st.device, st.field);
    if index < 0 then
      var r := fields + [st];
      AppendKeepsUnique(fields, st);
      forall d', f' ensures Lookup(r, d', f') == (if Lookup(fields, d', f').Some? then Lookup(fields, d', f') else if HasKey(st, d', f') then Some(st) else None) {
        LookupAppend(fields, st, d', f');
      }
      assert r[..|fields|] == fields;
      r
    else
      var st' := SetValue(st, fields[index].value, now).0;
      var r := fields[index := st'];
      ReplaceKeepsUnique(fields, index, st');
      LookupAt(fields, index);
      LookupAt(r, index);
      forall d', f' | (d', f') != (st.device, st.field) ensures Lookup(r, d', f') == Lookup(fields, d', f') {
        LookupOthers(fields, index, st', d', f');
      }
      IndexOfUnique(r, index);
      r
  }

  /** Drops the first entry with the key (`List.remove` with key equality): with
      unique keys the key is then absent and no other key changes. */
  function Unregister(fields: seq<State>, device: string, field: string): (r: seq<State>)
    requires UniqueKeys(fields)
    ensures UniqueKeys(r)
    ensures Lookup(r, device, field).None?
    ensures forall d', f' :: (d', f') != (device, field) ==> Lookup(r, d', f') == Lookup(fields, d', f')
    ensures Lookup(fields, device, field).None? ==> r == fields
    ensures Lookup(fields, device, field).Some? ==> |r| == |fields| - 1
    ensures Lookup(fields, device, field).Some? ==> RemovedAt(r, fields, IndexOf(fields, device, field))
  {
    var index := IndexOf(fields, device, field);
    if index < 0 then fields
    else
      var r := fields[..index] + fields[index + 1..];
      RemoveAtShifts(fields, index);
      RemoveKeepsUnique(fields, index);
      RemovedKeyAbsent(fields, index);
      forall d', f' | (d', f') != (device, field) ensures Lookup(r, d', f') == Lookup(fields, d', f') {
        LookupOthers(fields, index, fields[index], d', f');
      }
      r
  }

  /** `setField`: rejects a null device or field; with a positive period it appends
      a fresh entry, or replaces the entry with the same key in place, carrying the
      old value over; with a period <= 0 it unregisters the key. Every other key
      keeps its entry, and keys stay unique. */
  function SetField(svc: Service, device: Option<string>, field: Option<string>, period: int,
                    eventOnlyOnChange: bool, now: int): (r: Result<Service>)
    requires UniqueKeys(svc.fields)
    ensures r.Err? <==> device.None? || field.None?
    ensures r.Err? ==> r.error.NullArgument?
    ensures r.Ok? ==> r.value == svc.(fields := r.value.fields) && UniqueKeys(r.value.fields)
    ensures r.Ok? ==> forall d', f' :: (d', f') != (device.value, field.value) ==>
      Lookup(r.value.fields, d', f') == Lookup(svc.fields, d', f')
    // a positive period keeps every other entry in its position
    ensures r.Ok? && period > 0 ==>
      KeptExcept(r.value.fields, svc.fields, IndexOf(svc.fields, device.value, field.value))
    // a period <= 0 closes the gap the key leaves
    ensures r.Ok? && period <= 0 && IndexOf(svc.fields, device.value, field.value) >= 0 ==>
      RemovedAt(r.value.fields, svc.fields, IndexOf(svc.fields, device.value, field.value))
    ensures r.Ok? && period <= 0 && IndexOf(svc.fields, device.value, field.value) < 0 ==>
      r.value.fields == svc.fields
  {
    if device.None? then Err(NullArgument("Device must not be null."))
    else if field.None? then Err(NullArgument("Field must not be null."))
    else
      var st := Create(svc.time, device.value, field.value, period, svc.enableFailure, eventOnlyOnChange, now);
      var k := IndexOf(svc.fields, device.value, field.value);
      if period > 0 then
        var fs := Put(svc.fields, st, now);
        assert KeptExcept(fs, svc.fields, k);
        Ok(svc.(fields := fs))
      else
        var fs := Unregister(svc.fields, device.value, field.value);
        assert k >= 0 ==> RemovedAt(fs, svc.fields, k);
        assert k < 0 ==> fs == svc.fields;
        Ok(svc.(fields := fs))
  }

  /** What `setField` does to the entry of its own key: a positive period leaves
      an entry with that period, no failures, the requested change filter and the
      old value (none for a new key), in the old position or appended at the end;
      a period <= 0 leaves no entry, and an absent key leaves the registry alone. */
  lemma SetFieldEntry(svc: Service, d: string, f: string, period: int, eventOnlyOnChange: bool, now: int)
    requires UniqueKeys(svc.fields)
    ensures var fs := SetField(svc, Some(d), Some(f), period, eventOnlyOnChange, now).value.fields;
      var prior := Lookup(svc.fields, d, f);
      && (period > 0 ==>
            var e := Lookup(fs, d, f);
            && e.Some? && e.value.period == period && e.value.failureCount == 0
            && e.value.eventOnlyOnChange == eventOnlyOnChange
            && e.value.value == (if prior.Some? then prior.value.value else Null))
      && (period > 0 && prior.Some? ==> |fs| == |svc.fields| && IndexOf(fs, d, f) == IndexOf(svc.fields, d, f))
      && (period > 0 && prior.None? ==> |fs| == |svc.fields| + 1 && fs[..|svc.fields|] == svc.fields)
      && (period <= 0 ==> Lookup(fs, d, f).None?)
      && (period <= 0 && prior.None? ==> fs == svc.fields)
  {
    var st := Create(svc.time, d, f, period, svc.enableFailure, eventOnlyOnChange, now);
    if period > 0 {
      var prior := Lookup(svc.fields, d, f);
      if prior.Some? {
        assert SetValue(st, prior.value.value, now).0.period == period;
      }
    }
  }

  /** `setField` without the flag uses the service's default. */
  function SetFieldDefault(svc: Service, device: Option<string>, field: Option<string>, period: int,
                           now: int): (r: Result<Service>)
    requires UniqueKeys(svc.fields)
    ensures r == SetField(svc, device, field, period, svc.eventOnlyOnChange, now)
    ensures r.Ok? && period > 0 ==>
      Lookup(r.value.fields, device.value, field.value).value.eventOnlyOnChange == svc.eventOnlyOnChange
  {
    var r := SetField(svc, device, field, period, svc.eventOnlyOnChange, now);
    if device.Some? && field.Some? then
      SetFieldEntry(svc, device.value, field.value, period, svc.eventOnlyOnChange, now);
      r
    else r
  }

  lemma AppendKeepsUnique(fields: seq<State>, st: State)
    requires UniqueKeys(fields)
    requires forall i :: 0 <= i < |fields| ==> !HasKey(fields[i], st.device, st.field)
    ensures UniqueKeys(fields + [st])
  {
  }

  lemma ReplaceKeepsUnique(fields: seq<State>, i: int, st: State)
    requires UniqueKeys(fields) && 0 <= i < |fields| && SameKey(fields[i], st)
    ensures UniqueKeys(fields[i := st])
  {
  }

  /** Removing the entry at `k` keeps the entries before it and moves the later
      ones down by one. */
  lemma RemoveAtShifts(fields: seq<State>, k: int)
    requires 0 <= k < |fields|
    ensures RemovedAt(fields[..k] + fields[k + 1..], fields, k)
  {
  }

  lemma RemoveKeepsUnique(fields: seq<State>, i: int)
    requires UniqueKeys(fields) && 0 <= i < |fields|
    ensures UniqueKeys(fields[..i] + fields[i + 1..])
  {
    var r := fields[..i] + fields[i + 1..];
    forall a, b | 0 <= a < b < |r| ensures !SameKey(r[a], r[b]) {
      var a' := if a < i then a else a + 1;
      var b' := if b < i then b else b + 1;
      assert r[a] == fields[a'] && r[b] == fields[b'];
    }
  }

  lemma RemovedKeyAbsent(fields: seq<State>, i: int)
    requires UniqueKeys(fields) && 0 <= i < |fields|
    ensures Lookup(fields[..i] + fields[i + 1..], fields[i].device, fields[i].field).None?
  {
    var r := fields[..i] + fields[i + 1..];
    forall k | 0 <= k < |r| ensures !HasKey(r[k], fields[i].device, fields[i].field) {
      if k < i { assert r[k] == fields[k]; } else { assert r[k] == fields[k + 1]; }
    }
  }

  lemma IndexOfUnique(fields: seq<State>, i: int)
    requires UniqueKeys(fields) && 0 <= i < |fields|
    ensures IndexOf(fields, fields[i].device, fields[i].field) == i
  {
  }

  /** `removeField`: a null device or field is ignored; otherwise the first entry
      with that key is dropped, so with unique keys the key is gone and nothing
      else changes. */
  function RemoveField(svc: Service, device: Option<string>, field: Option<string>): (r: Service)
    requires UniqueKeys(svc.fields)
    ensures r == svc.(fields := r.fields)
    ensures UniqueKeys(r.fields)
    ensures device.None? || field.None? ==> r == svc
    ensures device.Some? && field.Some? ==>
      && Lookup(r.fields, device.value, field.value).None?
      && (forall d', f' :: (d', f') != (device.value, field.value) ==>
           Lookup(r.fields, d', f') == Lookup(svc.fields, d', f'))
      && (IndexOf(svc.fields, device.value, field.value) >= 0 ==>
            RemovedAt(r.fields, svc.fields, IndexOf(svc.fields, device.value, field.value)))
      && (IndexOf(svc.fields, device.value, field.value) < 0 ==> r.fields == svc.fields)
  {
    if device.None? || field.None? then svc
    else svc.(fields := Unregister(svc.fields, device.value, field.value))
  }

  /** Number of entries of `device`. */
  function DeviceCount(fields: seq<State>, device: string): nat {
    if |fields| == 0 then 0
    else (if fields[0].device == device then 1 else 0) + DeviceCount(fields[1..], device)
  }

  /** The entries whose device is not `device`, in their order: a subsequence
      that leaves out exactly the device's entries. */
  function WithoutDevice(fields: seq<State>, device: string): (r: seq<State>)
    ensures forall i :: 0 <= i < |r| ==> r[i].device != device && r[i] in fields
    ensures forall st :: st in fields && st.device != device ==> st in r
    ensures IsSubsequence(r, fields)
    ensures |r| + DeviceCount(fields, device) == |fields|
  {
    if |fields| == 0 then []
    else
      var rest := WithoutDevice(fields[1..], device);
      if fields[0].device == device then rest
      else
        var r := [fields[0]] + rest;
        assert r[1..] == rest;
        r
  }

  /** `removeFields`: drops exactly the entries of `device`; null is ignored. */
  function RemoveFields(svc: Service, device: Option<string>): (r: Service)
    ensures r == svc.(fields := r.fields)
    ensures device.None? ==> r == svc
    ensures device.Some? ==>
      && (forall st :: st in r.fields <==> st in svc.fields && st.device != device.value)
      && IsSubsequence(r.fields, svc.fields)
      && |r.fields| + DeviceCount(svc.fields, device.value) == |svc.fields|
  {
    if device.None? then svc else svc.(fields := WithoutDevice(svc.fields, device.value))
  }

  /** Dropping entries keeps keys unique. */
  lemma {:induction false} WithoutDeviceUnique(fields: seq<State>, device: string)
    requires UniqueKeys(fields)
    ensures UniqueKeys(WithoutDevice(fields, device))
  {
    if |fields| > 0 {
      WithoutDeviceUnique(fields[1..], device);
      var rest := WithoutDevice(fields[1..], device);
      if fields[0].device != device {
        forall i | 0 <= i < |rest| ensures !SameKey(fields[0], rest[i]) {
          assert rest[i] in fields[1..];
        }
      }
    }
  }

  /** `clear`. */
  function Clear(svc: Service): (r: Service)
    ensures r.fields == [] && r == svc.(fields := [])
  {
    svc.(fields := [])
  }

  /** `resetFailure`: every entry with the key forgets its failures and is
      rescheduled from the service's anchor time. */
  function ResetFailure(svc: Service, device: Option<string>, field: Option<string>, now: int): (r: Service)
    ensures r == svc.(fields := r.fields) && |r.fields| == |svc.fields|
    ensures forall i :: 0 <= i < |r.fields| ==>
      if device == Some(svc.fields[i].device) && field == Some(svc.fields[i].field) then
        r.fields[i] == Reset(RecordSuccess(svc.fields[i]), svc.time, now) && r.fields[i].failureCount == 0
      else r.fields[i] == svc.fields[i]
  {
    svc.(fields := ResetMatching(svc.fields, device, field, svc.time, now))
  }

  function ResetMatching(fields: seq<State>, device: Option<string>, field: Option<string>,
                         time: int, now: int): (r: seq<State>)
    ensures |r| == |fields|
    ensures forall i :: 0 <= i < |r| ==>
      r[i] == if device == Some(fields[i].device) && field == Some(fields[i].field)
              then Reset(RecordSuccess(fields[i]), time, now) else fields[i]
  {
    if |fields| == 0 then []
    else
      var st := fields[0];
      var st' := if device == Some(st.device) && field == Some(st.field) then Reset(RecordSuccess(st), time, now) else st;
      [st'] + ResetMatching(fields[1..], device, field, time, now)
  }

  // ---------------------------------------------------------------------------
  // start / stop

  /** `start`: refuses to start twice; otherwise records the source and listener. */
  function Start(svc: Service, source: Source, listener: Option<nat>): (r: Result<Service>)
    ensures svc.running <==> r.Err?
    ensures r.Err? ==> r.error.IllegalState?
    ensures r.Ok? ==> r.value.running && r.value.listener == listener && r.value.fields == svc.fields
    ensures r.Ok? && source.FromAdapter? ==>
      r.value.adapter == Some(source.adapter) && r.value.handler == svc.handler
    ensures r.Ok? && source.FromHandler? ==>
      r.value.handler == Some(source.handler) && r.value.adapter == svc.adapter
  {
    if svc.running then Err(IllegalState("Service is already running."))
    else match source
      case FromAdapter(a) => Ok(svc.(running := true, adapter := Some(a), listener := listener))
      case FromHandler(h) => Ok(svc.(running := true, handler := Some(h), listener := listener))
  }

  /** `stop`: the worker ends and the listener is dropped. */
  function Stop(svc: Service): (r: Service)
    ensures !r.running && r.listener.None?
    ensures r == svc.(running := false, listener := None)
  {
    svc.(running := false, listener := None)
  }

  lemma StartStopStart(svc: Service, s1: Source, s2: Source, l1: Option<nat>, l2: Option<nat>)
    requires !svc.running
    ensures Start(svc, s1, l1).Ok?
    ensures Start(Start(svc, s1, l1).value, s2, l2).Err?
    ensures Start(Stop(Start(svc, s1, l1).value), s2, l2).Ok?
  {
  }

  /** The worker reads through the adapter when one was ever given, else through
      the handler; with neither the read fails. */
  function ReadVia(svc: Service): (r: Option<Source>)
    ensures svc.adapter.Some? ==> r == Some(FromAdapter(svc.adapter.value))
    ensures svc.adapter.None? && svc.handler.Some? ==> r == Some(FromHandler(svc.handler.value))
    ensures r.None? <==> svc.adapter.None? && svc.handler.None?
  {
    if svc.adapter.Some? then Some(FromAdapter(svc.adapter.value))
    else if svc.handler.Some? then Some(FromHandler(svc.handler.value))
    else None
  }

  // ---------------------------------------------------------------------------
  // The worker

  /** The delay computed by `pause`: the least remaining time over the periodic
      entries, starting from `Long.MAX_VALUE`. Computing a remaining time may
      reschedule an entry whose clock went backwards, so the entries are returned. */
  function PauseDelay(fields: seq<State>, now: int): (r: (seq<State>, int))
    ensures |r.0| == |fields|
    ensures forall i :: 0 <= i < |fields| ==>
      r.0[i] == if HasPeriod(fields[i]) then Remaining(fields[i], now, now).0 else fields[i]
    ensures 0 <= r.1 <= LongMax
  {
    if |fields| == 0 then ([], LongMax)
    else
      var tail := fields[1..];
      var rest := PauseDelay(tail, now);
      var st := fields[0];
      assert forall i :: 1 <= i < |fields| ==> fields[i] == tail[i - 1];
      if HasPeriod(st) then
        var (st', rem) := Remaining(st, now, now);
        ([st'] + rest.0, Min(rem, rest.1))
      else ([st] + rest.0, rest.1)
  }

  /** The delay is the least remaining time over the periodic entries: no
      periodic entry is due sooner, the delay is some entry's remaining time (or
      `Long.MAX_VALUE`), and without periodic entries it is `Long.MAX_VALUE`. */
  lemma {:induction false} PauseDelayLeast(fields: seq<State>, now: int)
    ensures forall i :: 0 <= i < |fields| && HasPeriod(fields[i]) ==>
      PauseDelay(fields, now).1 <= Remaining(fields[i], now, now).1
    ensures PauseDelay(fields, now).1 == LongMax ||
      exists i :: 0 <= i < |fields| && HasPeriod(fields[i]) && PauseDelay(fields, now).1 == Remaining(fields[i], now, now).1
    ensures (forall i :: 0 <= i < |fields| ==> !HasPeriod(fields[i])) ==> PauseDelay(fields, now).1 == LongMax
  {
    if |fields| > 0 {
      var tail := fields[1..];
      PauseDelayLeast(tail, now);
      assert forall i :: 1 <= i < |fields| ==> fields[i] == tail[i - 1];
      var d := PauseDelay(fields, now).1;
      var rest := PauseDelay(tail, now).1;
      if HasPeriod(fields[0]) {
        var rem := Remaining(fields[0], now, now).1;
        assert d == Min(rem, rest);
        if d != LongMax && d != rem {
          var j :| 0 <= j < |tail| && HasPeriod(tail[j]) && rest == Remaining(tail[j], now, now).1;
          assert fields[j + 1] == tail[j];
        }
      } else {
        assert d == rest;
        if d != LongMax {
          var j :| 0 <= j < |tail| && HasPeriod(tail[j]) && rest == Remaining(tail[j], now, now).1;
          assert fields[j + 1] == tail[j];
        }
      }
    }
  }

  /** One read of a due field: on success the failure state is cleared, the value
      stored and the listener told when it is present and either every read is
      reported or the value changed; on failure the warning is logged only on the
      first failure since a success, the listener is told, the counter grows and
      the field is rescheduled with backoff. */
  function Step(st: State, outcome: ReadOutcome, hasListener: bool, now: int): (r: (State, seq<PollEvent>))
    requires Valid(st)
    ensures Valid(r.0) && SameKey(r.0, st) && r.0.period == st.period
    ensures outcome.Read? ==>
      && r.0.failureCount == 0 && !r.0.errorState && r.0.value == outcome.v
      && r.0 == Next(RecordSuccess(st).(value := outcome.v), now)
      && r.1 == (if hasListener && (!st.eventOnlyOnChange || outcome.v != st.value)
                 then [OnSuccess(st.device, st.field, outcome.v)] else [])
    ensures outcome.ReadFailed? ==>
      && r.0.errorState && r.0.value == st.value
      && r.0 == Next(RecordError(st.(errorState := true)), now)
      && (LoggedWarning(st.device, st.field) in r.1 <==> !st.errorState)
      && (OnFailure(st.device, st.field) in r.1 <==> hasListener)
      && (forall e :: e in r.1 ==> !e.OnSuccess?)
    ensures forall e :: e in r.1 ==> e.device == st.device && e.field == st.field
  {
    match outcome
    case Read(v) =>
      var s1 := RecordSuccess(st);
      var (s2, changed) := SetValue(s1, v, now);
      var events := if hasListener && (!s2.eventOnlyOnChange || changed) then [OnSuccess(st.device, st.field, v)] else [];
      (s2, events)
    case ReadFailed =>
      var logged := !st.errorState;
      var s1 := if logged then st.(errorState := true) else st;
      var events := (if logged then [LoggedWarning(st.device, st.field)] else [])
                    + (if hasListener then [OnFailure(st.device, st.field)] else []);
      (Next(RecordError(s1), now), events)
  }

  /** A field is due when it is polled and its remaining time is zero. */
  predicate Due(st: State, now: int)
    ensures Due(st, now) <==> HasPeriod(st) && Remaining(st, now, now).0.nextReadTime <= now
  {
    HasPeriod(st) && Remaining(st, now, now).1 == 0
  }

  /** The entry after the worker asked for its remaining time: `remaining`
      reschedules a polled entry whose clock went backwards; an unpolled entry is
      not asked. */
  function Rescheduled(st: State, now: int): (r: State)
    ensures r == st.(nextReadTime := r.nextReadTime)
    ensures !HasPeriod(st) ==> r == st
    ensures Valid(st) ==> Valid(r)
  {
    if HasPeriod(st) then Remaining(st, now, now).0 else st
  }

  /** No entry before position `i` is due: a stopped pass reaches position `i`. */
  predicate NoneDueBefore(fields: seq<State>, i: int, now: int)
    requires i <= |fields|
  {
    forall j :: 0 <= j < i ==> !Due(fields[j], now)
  }

  /** Position `i` is reached past the head exactly when the head is not due and
      position `i - 1` is reached in the tail. */
  lemma NoneDueBeforeTail(fields: seq<State>, i: int, now: int)
    requires 1 <= i <= |fields|
    ensures NoneDueBefore(fields, i, now) <==> !Due(fields[0], now) && NoneDueBefore(fields[1..], i - 1, now)
  {
    assert forall j :: 1 <= j < i ==> fields[j] == fields[1..][j - 1];
  }

  /** What a running pass does with one entry: a due entry is read and stepped,
      any other entry is only rescheduled and produces no event. */
  function Visit(st: State, hasListener: bool, read: (string, string) -> ReadOutcome, now: int): (r: (State, seq<PollEvent>))
    requires Valid(st)
    ensures Valid(r.0) && SameKey(r.0, st)
    ensures !Due(st, now) ==> r == (Rescheduled(st, now), [])
    ensures !hasListener ==> forall e :: e in r.1 ==> e.LoggedWarning?
  {
    if Due(st, now) then Step(Rescheduled(st, now), read(st.device, st.field), hasListener, now)
    else (Rescheduled(st, now), [])
  }

  /** One pass of `run` after the pause. Every polled entry is asked for its
      remaining time (which may reschedule it); a running pass visits every entry,
      reading exactly the due ones (`PassRunning`), while a stopped one returns at
      its first due entry, keeping the reschedules made up to there
      (`PassStopped`). */
  function Pass(fields: seq<State>, running: bool, hasListener: bool,
                read: (string, string) -> ReadOutcome, now: int): (r: (seq<State>, seq<PollEvent>))
    requires forall i :: 0 <= i < |fields| ==> Valid(fields[i])
    ensures |r.0| == |fields|
    ensures forall i :: 0 <= i < |fields| ==> Valid(r.0[i]) && SameKey(r.0[i], fields[i])
    ensures !running ==> r.1 == []
    ensures !hasListener ==> forall e :: e in r.1 ==> e.LoggedWarning?
    decreases |fields|
  {
    if |fields| == 0 then ([], [])
    else
      var st := fields[0];
      if Due(st, now) && !running then ([Rescheduled(st, now)] + fields[1..], [])
      else
        var v := Visit(st, hasListener, read, now);
        var rest := Pass(fields[1..], running, hasListener, read, now);
        assert forall i :: 1 <= i < |fields| ==> fields[i] == fields[1..][i - 1];
        ([v.0] + rest.0, v.1 + rest.1)
  }

  /** A running pass visits every entry in place: due entries are read and
      stepped, the others only rescheduled. */
  lemma {:induction false} PassRunning(fields: seq<State>, hasListener: bool,
                                       read: (string, string) -> ReadOutcome, now: int)
    requires forall i :: 0 <= i < |fields| ==> Valid(fields[i])
    ensures forall i :: 0 <= i < |fields| ==>
      Pass(fields, true, hasListener, read, now).0[i] == Visit(fields[i], hasListener, read, now).0
    decreases |fields|
  {
    if |fields| > 0 {
      var tail := fields[1..];
      PassRunning(tail, hasListener, read, now);
      assert forall i :: 1 <= i < |fields| ==> fields[i] == tail[i - 1];
    }
  }

  /** A stopped pass reschedules the entries up to and including the first due
      one, reads nothing, and leaves the entries after it as they were. */
  lemma {:induction false} PassStopped(fields: seq<State>, hasListener: bool,
                                       read: (string, string) -> ReadOutcome, now: int)
    requires forall i :: 0 <= i < |fields| ==> Valid(fields[i])
    ensures forall i :: 0 <= i < |fields| ==>
      Pass(fields, false, hasListener, read, now).0[i]
        == if NoneDueBefore(fields, i, now) then Rescheduled(fields[i], now) else fields[i]
    decreases |fields|
  {
    if |fields| > 0 {
      var tail := fields[1..];
      var r := Pass(fields, false, hasListener, read, now).0;
      assert NoneDueBefore(fields, 0, now);
      if Due(fields[0], now) {
        assert r == [Rescheduled(fields[0], now)] + tail;
        forall i | 1 <= i < |fields|
          ensures r[i] == if NoneDueBefore(fields, i, now) then Rescheduled(fields[i], now) else fields[i]
        {
          assert !NoneDueBefore(fields, i, now) by { assert Due(fields[0], now); }
          assert r[i] == tail[i - 1] == fields[i];
        }
      } else {
        var rest := Pass(tail, false, hasListener, read, now).0;
        assert r == [Rescheduled(fields[0], now)] + rest;
        assert forall i :: 1 <= i < |fields| ==> r[i] == rest[i - 1] && fields[i] == tail[i - 1];
        PassStopped(tail, hasListener, read, now);
        forall i | 1 <= i < |fields|
          ensures r[i] == if NoneDueBefore(fields, i, now) then Rescheduled(fields[i], now) else fields[i]
        {
          NoneDueBeforeTail(fields, i, now);
        }
      }
    }
  }

  /** The events of each entry's visit, in registry order. */
  function VisitEvents(fields: seq<State>, hasListener: bool, read: (string, string) -> ReadOutcome, now: int): (r: seq<seq<PollEvent>>)
    requires forall i :: 0 <= i < |fields| ==> Valid(fields[i])
    ensures |r| == |fields|
    ensures forall i :: 0 <= i < |fields| ==> r[i] == Visit(fields[i], hasListener, read, now).1
  {
    seq(|fields|, i requires 0 <= i < |fields| => Visit(fields[i], hasListener, read, now).1)
  }

  /** The events of a running pass are the visits' events one after another. */
  lemma {:induction false} PassEvents(fields: seq<State>, hasListener: bool,
                                      read: (string, string) -> ReadOutcome, now: int)
    requires forall i :: 0 <= i < |fields| ==> Valid(fields[i])
    ensures Pass(fields, true, hasListener, read, now).1 == Concat(VisitEvents(fields, hasListener, read, now))
    decreases |fields|
  {
    if |fields| > 0 {
      var tail := fields[1..];
      var vs := VisitEvents(fields, hasListener, read, now);
      assert vs[1..] == VisitEvents(tail, hasListener, read, now);
      PassEvents(tail, hasListener, read, now);
    }
  }

  /** The reader the worker uses: the chosen source's values, or a failed read
      when there is neither an adapter nor a handler (the source dereferences a
      null handler and lands in its failure branch). */
  function Reader(svc: Service, fetch: (Source, string, string) -> ReadOutcome): (string, string) -> ReadOutcome
  {
    var src := ReadVia(svc);
    (d: string, f: string) => if src.Some? then fetch(src.value, d, f) else ReadFailed
  }

  /** One pass of the worker over the service, reading through `ReadVia`. Only the
      registry changes, its keys stay unique, and without a listener nothing but
      the warning lines is produced. */
  function Run(svc: Service, fetch: (Source, string, string) -> ReadOutcome, now: int): (r: (Service, seq<PollEvent>))
    requires UniqueKeys(svc.fields) && forall i :: 0 <= i < |svc.fields| ==> Valid(svc.fields[i])
    ensures r.0 == svc.(fields := r.0.fields)
    ensures |r.0.fields| == |svc.fields| && UniqueKeys(r.0.fields)
    ensures forall i :: 0 <= i < |r.0.fields| ==> Valid(r.0.fields[i])
    ensures !svc.running ==> r.1 == []
    ensures svc.listener.None? ==> forall e :: e in r.1 ==> e.LoggedWarning?
  {
    var p := Pass(svc.fields, svc.running, svc.listener.Some?, Reader(svc, fetch), now);
    assert forall i, j :: 0 <= i < j < |p.0| ==> !SameKey(svc.fields[i], svc.fields[j]);
    (svc.(fields := p.0), p.1)
  }

  /** The values the listener sees when a field is read successfully once per
      value in `vs`, starting from the stored value `last`. */
  function Reported(eventOnlyOnChange: bool, last: Obj, vs: seq<Obj>): seq<Obj>
    decreases |vs|
  {
    if |vs| == 0 then []
    else (if !eventOnlyOnChange || vs[0] != last then [vs[0]] else [])
         + Reported(eventOnlyOnChange, vs[0], vs[1..])
  }

  /** Successive successful reads of one field, collecting the reported values. */
  function SuccessfulReads(st: State, vs: seq<Obj>, now: int): (r: (State, seq<Obj>))
    requires Valid(st)
    ensures Valid(r.0) && r.0.eventOnlyOnChange == st.eventOnlyOnChange
    ensures |vs| > 0 ==> r.0.value == vs[|vs| - 1]
    ensures |vs| == 0 ==> r.0 == st
    decreases |vs|
  {
    if |vs| == 0 then (st, [])
    else
      var (st1, events) := Step(st, Read(vs[0]), true, now);
      var rest := SuccessfulReads(st1, vs[1..], now);
      (rest.0, (if |events| > 0 then [events[0].value] else []) + rest.1)
  }

  /** Change filtering: with `eventOnlyOnChange` the listener sees each value that
      differs from the one before it; without it, every read value. */
  lemma {:induction false} SuccessfulReadsReport(st: State, vs: seq<Obj>, now: int)
    requires Valid(st)
    ensures SuccessfulReads(st, vs, now).1 == Reported(st.eventOnlyOnChange, st.value, vs)
    ensures !st.eventOnlyOnChange ==> SuccessfulReads(st, vs, now).1 == vs
    decreases |vs|
  {
    if |vs| > 0 {
      var st1 := Step(st, Read(vs[0]), true, now).0;
      SuccessfulReadsReport(st1, vs[1..], now);
      assert vs == [vs[0]] + vs[1..];
    }
  }

  /** Reading 1, 1, 2, 2, 2, 3 from a fresh field with change filtering reports
      1, 2, 3. */
  lemma ChangeFilterExample(st: State, now: int)
    requires Valid(st) && st.eventOnlyOnChange && st.value == Null
    ensures SuccessfulReads(st, [Obj(1), Obj(1), Obj(2), Obj(2), Obj(2), Obj(3)], now).1
            == [Obj(1), Obj(2), Obj(3)]
  {
    SuccessfulReadsReport(st, [Obj(1), Obj(1), Obj(2), Obj(2), Obj(2), Obj(3)], now);
    ReportedExample();
  }

  /** The reference filter on 1, 1, 2, 2, 2, 3 after an initial null. */
  lemma ReportedExample()
    ensures Reported(true, Null, [Obj(1), Obj(1), Obj(2), Obj(2), Obj(2), Obj(3)]) == [Obj(1), Obj(2), Obj(3)]
  {
    assert Reported(true, Obj(2), [Obj(3)]) == [Obj(3)];
    assert Reported(true, Obj(2), [Obj(2), Obj(3)]) == [Obj(3)];
    assert Reported(true, Obj(2), [Obj(2), Obj(2), Obj(3)]) == [Obj(3)];
    assert Reported(true, Obj(1), [Obj(2), Obj(2), Obj(2), Obj(3)]) == [Obj(2), Obj(3)];
    assert Reported(true, Obj(1), [Obj(1), Obj(2), Obj(2), Obj(2), Obj(3)]) == [Obj(2), Obj(3)];
  }
}

=== FILE: poll_state.dfy ===
/** The schedule of one polled field (`State` of the poll package): when it is read
    next, how failures push that time back, and whether a newly read value changed.
    The wall clock is the explicit parameter `now`; all clock readings inside one
    call see the same `now`. */
module PollState {
  import opened Common

  /** Upper bound of the failure counter. */
  const MaxFailures: nat := 100
  /** Upper bound, in seconds, of the failure backoff. */
  const MaxBackoffSeconds: int := 3600

  datatype State = State(
    device: string,
    field: string,
    period: int,            // poll interval in ms; <= 0 means "not polled"
    nextReadTime: int,      // ms since the epoch
    failure: bool,          // whether failures back off
    errorState: bool,       // a failure has been logged since the last success
    failureCount: nat,
    value: Obj,             // last value read
    eventOnlyOnChange: bool)

  /** The failure counter stays within its cap. */
  predicate Valid(s: State) {
    s.failureCount <= MaxFailures
  }

  /** A field is polled exactly when its period is positive. */
  predicate HasPeriod(s: State)
    ensures HasPeriod(s) <==> s.period >= 1
  {
    s.period > 0
  }

  /** Two states denote the same registry entry: equality on (device, field). */
  predicate SameKey(a: State, b: State)
    ensures SameKey(a, b) <==> (a.device, a.field) == (b.device, b.field)
  {
    a.device == b.device && a.field == b.field
  }

  /** `a` and `b` lie on the same grid of period `p`. */
  predicate InPhase(a: int, b: int, p: int)
    requires p > 0
  {
    (a - b) % p == 0
  }

  /** Whether `Next` adds a failure backoff for this state. */
  predicate BackingOff(s: State) {
    s.failure && s.failureCount > 0
  }

  /** The raw failure delay in ms: min(count², 3600) seconds. */
  function FailureDelay(count: nat): (r: int)
    ensures 0 <= r <= MaxBackoffSeconds * 1000 && r % 1000 == 0
    ensures count * count <= MaxBackoffSeconds ==> r == count * count * 1000
    ensures count * count >= MaxBackoffSeconds ==> r == MaxBackoffSeconds * 1000
  {
    Min(count * count, MaxBackoffSeconds) * 1000
  }

  /** The extra time `Next` adds after failures: the raw delay rounded up past
      the next multiple of the period. */
  function BackoffExtra(period: int, count: nat): (r: int)
    requires period > 0
    ensures FailureDelay(count) < r <= FailureDelay(count) + period
  {
    var delay := FailureDelay(count);
    delay + period - JavaRem(delay, period)
  }

  /** The next read time aligned to the phase of the current one, without backoff. */
  function Aligned(nextReadTime: int, period: int, now: int): (t: int)
    requires period > 0
    ensures now >= nextReadTime ==> now < t <= now + period
    ensures now < nextReadTime ==> now <= t < now + period
    ensures InPhase(t, nextReadTime, period)
  {
    var diff := now - nextReadTime;
    var mod := JavaRem(diff, period);
    var t := if diff < 0 then now - mod else now + period - mod;
    assert t - nextReadTime == (if diff < 0 then JavaDiv(diff, period) else JavaDiv(diff, period) + 1) * period;
    MultipleMod(if diff < 0 then JavaDiv(diff, period) else JavaDiv(diff, period) + 1, period);
    t
  }

  /** `next()`: moves the next read time to the first slot of the original phase
      after `now` (or, when the clock went backwards, to the slot at or after
      `now`), plus the failure backoff. */
  function Next(s: State, now: int): (r: State)
    ensures r == s.(nextReadTime := r.nextReadTime)
    ensures !HasPeriod(s) ==> r == s
    ensures HasPeriod(s) ==>
      var base := r.nextReadTime - (if BackingOff(s) then BackoffExtra(s.period, s.failureCount) else 0);
      && (now >= s.nextReadTime ==> now < base <= now + s.period)
      && (now < s.nextReadTime ==> now <= base < now + s.period)
      && InPhase(base, s.nextReadTime, s.period)
  {
    if !HasPeriod(s) then s
    else
      var t := Aligned(s.nextReadTime, s.period, now);
      if BackingOff(s) then s.(nextReadTime := t + BackoffExtra(s.period, s.failureCount))
      else s.(nextReadTime := t)
  }

  /** `reset(time)`: re-anchors the schedule at `time`, then computes the next slot. */
  function Reset(s: State, time: int, now: int): (r: State)
    ensures r == s.(nextReadTime := r.nextReadTime)
    ensures !HasPeriod(s) ==> r.nextReadTime == time
    ensures HasPeriod(s) && !BackingOff(s) ==>
      && (now >= time ==> now < r.nextReadTime <= now + s.period)
      && InPhase(r.nextReadTime, time, s.period)
  {
    Next(s.(nextReadTime := time), now)
  }

  /** The constructor: no failures, no value yet, scheduled from `time`. */
  function Create(time: int, device: string, field: string, period: int, failure: bool,
                  eventOnlyOnChange: bool, now: int): (r: State)
    ensures Valid(r) && r.failureCount == 0 && !r.errorState && r.value == Null
    ensures r.device == device && r.field == field && r.period == period
    ensures r.failure == failure && r.eventOnlyOnChange == eventOnlyOnChange
    ensures period <= 0 ==> r.nextReadTime == time
    ensures period > 0 && now >= time ==>
      now < r.nextReadTime <= now + period && InPhase(r.nextReadTime, time, period)
  {
    Reset(State(device, field, period, time, failure, false, 0, Null, eventOnlyOnChange), time, now)
  }

  /** `setValue(v)`: stores `v`, reschedules, and reports whether `v` differs from
      the previous value. */
  function SetValue(s: State, v: Obj, now: int): (r: (State, bool))
    ensures r.0.value == v
    ensures r.1 <==> s.value != v
    ensures r.0 == Next(s.(value := v), now)
  {
    (Next(s.(value := v), now), s.value != v)
  }

  /** `error()`: counts a failure when backoff is enabled, up to the cap. */
  function RecordError(s: State): (r: State)
    requires Valid(s)
    ensures Valid(r)
    ensures r == s.(failureCount := r.failureCount)
    ensures s.failure && s.failureCount < MaxFailures ==> r.failureCount == s.failureCount + 1
    ensures !(s.failure && s.failureCount < MaxFailures) ==> r.failureCount == s.failureCount
  {
    if s.failure && s.failureCount < MaxFailures then s.(failureCount := s.failureCount + 1) else s
  }

  /** `success()`: clears the failure counter and the error flag. */
  function RecordSuccess(s: State): (r: State)
    ensures Valid(r) && r.failureCount == 0 && !r.errorState
    ensures r == s.(failureCount := 0, errorState := false)
    ensures !BackingOff(r)
  {
    s.(failureCount := 0, errorState := false)
  }

  /** `remaining(current)`: time until the field is due, never negative. When the
      remaining time exceeds the period (the clock went backwards) the state is
      rescheduled from the clock reading `now` first. */
  function Remaining(s: State, current: int, now: int): (r: (State, nat))
    ensures Max(0, s.nextReadTime - current) <= s.period ==>
      r.0 == s && r.1 == Max(0, s.nextReadTime - current)
    ensures Max(0, s.nextReadTime - current) > s.period ==>
      r.0 == Next(s, now) && r.1 == Max(0, r.0.nextReadTime - current)
    ensures r.1 == 0 <==> r.0.nextReadTime <= current
  {
    var rem := Max(0, s.nextReadTime - current);
    if rem > s.period then
      var t := Next(s, now);
      (t, Max(0, t.nextReadTime - current))
    else (s, rem)
  }

  /** The backoff is the next multiple of the period strictly above the raw delay. */
  lemma BackoffAsMultiple(period: int, count: nat)
    requires period > 0
    ensures FailureDelay(count) >= 0
    ensures BackoffExtra(period, count) == (FailureDelay(count) / period + 1) * period
  {
    var delay := FailureDelay(count);
    assert delay == Min(count * count, MaxBackoffSeconds) * 1000;
    assert JavaRem(delay, period) == delay % period;
  }

  /** The backoff is a positive whole number of periods, strictly longer than the
      raw delay and at most one period longer. */
  lemma BackoffBounds(period: int, count: nat)
    requires period > 0
    ensures BackoffExtra(period, count) > 0
    ensures BackoffExtra(period, count) % period == 0
    ensures FailureDelay(count) < BackoffExtra(period, count) <= FailureDelay(count) + period
  {
    BackoffAsMultiple(period, count);
    MultipleMod(FailureDelay(count) / period + 1, period);
  }

  /** Squaring is monotone on naturals. */
  lemma SquareMono(a: nat, b: nat)
    requires a <= b
    ensures a * a <= b * b
  {
    assert a * a <= a * b;
    assert a * b <= b * b;
  }

  /** The raw delay never shrinks as failures accumulate. */
  lemma FailureDelayMonotone(c1: nat, c2: nat)
    requires c1 <= c2
    ensures FailureDelay(c1) <= FailureDelay(c2)
  {
    SquareMono(c1, c2);
  }

  /** Multiplying by a positive factor is monotone. */
  lemma ScaleMono(a: int, b: int, p: int)
    requires a <= b && p > 0
    ensures a * p <= b * p
  {
    assert b * p - a * p == (b - a) * p;
  }

  /** More failures never shorten the backoff. */
  lemma BackoffMonotone(period: int, c1: nat, c2: nat)
    requires period > 0 && c1 <= c2
    ensures BackoffExtra(period, c1) <= BackoffExtra(period, c2)
  {
    FailureDelayMonotone(c1, c2);
    DivMono(FailureDelay(c1), FailureDelay(c2), period);
    BackoffAsMultiple(period, c1);
    BackoffAsMultiple(period, c2);
    ScaleMono(FailureDelay(c1) / period + 1, FailureDelay(c2) / period + 1, period);
  }

  /** Read at the current clock, a polled field without backoff is never due
      more than one period ahead. */
  lemma RemainingWithinPeriod(s: State, now: int)
    requires HasPeriod(s) && !BackingOff(s)
    ensures Remaining(s, now, now).1 <= s.period
  {
  }
}

=== FILE: report_factory.dfy ===
/** `AdapterReportFactory`: turns the notifications collected during one cycle
    into a report with one section per device, in order of first appearance. The
    adapter handler is seen only through its lookups; a lookup that throws or
    returns null is `None`. */
module ReportFactory {
  import opened Common
  import opened DeviceModel
  import opened CycleSpecs

  /** One collected notification (`AdapterNotify`); `date` is ms since the epoch. */
  datatype Notify = Notify(device: Option<string>, field: Option<string>, value: Obj, date: int)

  /** The cycle's collected data; `items` is null when the list is missing. */
  datatype CycleData = CycleData(items: Option<seq<Notify>>)

  /** The lookups the handler offers the factory. */
  datatype Handler = Handler(
    deviceLabel: Option<string> -> Option<string>,
    fieldLabel: (Option<string>, Option<string>) -> Option<string>,
    devices: Option<map<string, Device>>)

  /** Report attributes taken over unchanged from the cycle. */
  datatype Meta = Meta(
    date: int,
    totalMilliseconds: int,
    initiation: Obj,
    initiator: Option<string>,
    termination: Obj,
    terminator: Option<string>)

  datatype FieldReport = FieldReport(name: Option<string>, value: Obj, date: int)

  datatype DeviceReport = DeviceReport(name: Option<string>, fields: seq<FieldReport>)

  /** A device section together with the device id it was grouped under. */
  datatype Slot = Slot(device: Option<string>, report: DeviceReport)

  datatype Report = Report(
    applicationId: Option<string>,
    reportName: Option<string>,
    meta: Meta,
    devices: seq<Slot>)

  /** A non-null, non-empty string. */
  predicate NonEmpty(s: Option<string>) {
    s.Some? && |s.value| > 0
  }

  /** The device registered under `device`, when the handler lists devices. */
  function DeviceIn(h: Handler, device: Option<string>): (r: Option<Device>)
    ensures r.Some? <==> h.devices.Some? && device.Some? && device.value in h.devices.value
  {
    if h.devices.Some? && device.Some? && device.value in h.devices.value
    then Some(h.devices.value[device.value]) else None
  }

  /** `getName(device)`: the device's label if non-empty, else its name if
      non-empty, else its id. */
  function DeviceName(h: Option<Handler>, device: Option<string>): (r: Option<string>)
    ensures h.None? ==> r == device
    ensures h.Some? && NonEmpty(h.value.deviceLabel(device)) ==> r == h.value.deviceLabel(device)
    ensures h.Some? && !NonEmpty(h.value.deviceLabel(device)) ==>
      var d := DeviceIn(h.value, device);
      (if d.Some? && NonEmpty(d.value.name) then r == d.value.name else r == device)
  {
    var name :=
      if h.None? then None
      else
        var lbl := h.value.deviceLabel(device);
        if NonEmpty(lbl) then lbl
        else
          match DeviceIn(h.value, device)
          case Some(d) => d.name
          case None => lbl;
    if NonEmpty(name) then name else device
  }

  /** `getName(device, field)`: the field's label if non-empty, else its name if
      non-empty, else the field id. */
  function FieldName(h: Option<Handler>, device: Option<string>, field: Option<string>): (r: Option<string>)
    ensures h.None? ==> r == field
    ensures h.Some? && NonEmpty(h.value.fieldLabel(device, field)) ==> r == h.value.fieldLabel(device, field)
    ensures h.Some? && !NonEmpty(h.value.fieldLabel(device, field)) ==>
      var d := DeviceIn(h.value, device);
      var f := if d.Some? then FieldOf(d.value, field) else None;
      (if f.Some? && NonEmpty(f.value.name) then r == f.value.name else r == field)
  {
    var name :=
      if h.None? then None
      else
        var lbl := h.value.fieldLabel(device, field);
        if NonEmpty(lbl) then lbl
        else
          match DeviceIn(h.value, device)
          case Some(d) => (match FieldOf(d, field) case Some(f) => f.name case None => lbl)
          case None => lbl;
    if NonEmpty(name) then name else field
  }

  /** The field report one notification yields. */
  function FieldReportOf(h: Option<Handler>, n: Notify): FieldReport {
    FieldReport(FieldName(h, n.device, n.field), n.value, n.date)
  }

  // ---------------------------------------------------------------------------
  // The reference grouping

  /** Some notification of `items` is for `d`. */
  predicate Occurs(items: seq<Notify>, d: Option<string>) {
    exists i :: 0 <= i < |items| && items[i].device == d
  }

  /** The position of the first notification for `d`. */
  function FirstIndex(items: seq<Notify>, d: Option<string>): (k: nat)
    requires Occurs(items, d)
    ensures k < |items| && items[k].device == d
    ensures forall i :: 0 <= i < k ==> items[i].device != d
  {
    if items[0].device == d then 0
    else
      var i :| 0 <= i < |items| && items[i].device == d;
      assert items[1..][i - 1] == items[i];
      1 + FirstIndex(items[1..], d)
  }

  /** Appending a notification does not move a device's first position. */
  lemma FirstIndexPrefix(items: seq<Notify>, d: Option<string>)
    requires |items| > 0 && Occurs(items[..|items| - 1], d)
    ensures Occurs(items, d)
    ensures FirstIndex(items, d) == FirstIndex(items[..|items| - 1], d)
  {
    var p := items[..|items| - 1];
    var k2 := FirstIndex(p, d);
    assert items[k2] == p[k2];
    var k1 := FirstIndex(items, d);
    assert k1 <= k2;
    assert p[k1] == items[k1];
  }

  /** The devices of `items`, each once, in order of first appearance
      (`FirstsOrder`). */
  function Firsts(items: seq<Notify>): (ds: seq<Option<string>>)
    ensures forall d :: d in ds <==> exists i :: 0 <= i < |items| && items[i].device == d
    ensures forall i, j :: 0 <= i < j < |ds| ==> ds[i] != ds[j]
  {
    if |items| == 0 then []
    else
      var p := items[..|items| - 1];
      var last := items[|items| - 1];
      assert forall i :: 0 <= i < |p| ==> p[i] == items[i];
      var ds := Firsts(p);
      if last.device in ds then ds else ds + [last.device]
  }

  /** The devices come out in the order of their first notifications. */
  lemma {:induction false} FirstsOrder(items: seq<Notify>)
    ensures forall d :: d in Firsts(items) ==> Occurs(items, d)
    ensures forall i, j :: 0 <= i < j < |Firsts(items)| ==>
      FirstIndex(items, Firsts(items)[i]) < FirstIndex(items, Firsts(items)[j])
  {
    if |items| > 0 {
      var p := items[..|items| - 1];
      var last := items[|items| - 1];
      var ds := Firsts(p);
      FirstsOrder(p);
      forall i | 0 <= i < |ds| ensures Occurs(items, ds[i]) && FirstIndex(items, ds[i]) == FirstIndex(p, ds[i]) {
        FirstIndexPrefix(items, ds[i]);
      }
      if last.device !in ds {
        var all := ds + [last.device];
        assert Firsts(items) == all;
        assert FirstIndex(items, last.device) == |items| - 1 by {
          assert forall i :: 0 <= i < |p| ==> p[i] == items[i];
          assert !Occurs(p, last.device);
        }
        forall i, j | 0 <= i < j < |all| ensures FirstIndex(items, all[i]) < FirstIndex(items, all[j]) {
          assert all[i] == ds[i];
          assert FirstIndex(items, ds[i]) == FirstIndex(p, ds[i]) < |p|;
          if j < |ds| {
            assert all[j] == ds[j];
            assert FirstIndex(items, ds[j]) == FirstIndex(p, ds[j]);
            assert FirstIndex(p, ds[i]) < FirstIndex(p, ds[j]);
          } else {
            assert all[j] == last.device;
          }
        }
      } else {
        assert Firsts(items) == ds;
      }
    }
  }

  /** The field reports of the notifications for `device`, in data order. */
  function Reports(h: Option<Handler>, items: seq<Notify>, device: Option<string>): (r: seq<FieldReport>)
    ensures |r| <= |items|
  {
    if |items| == 0 then []
    else
      var rest := Reports(h, items[..|items| - 1], device);
      if items[|items| - 1].device == device then rest + [FieldReportOf(h, items[|items| - 1])] else rest
  }

  /** The slots the grouping must produce: per first-appearing device, its name
      and its field reports. */
  predicate Grouped(h: Option<Handler>, items: seq<Notify>, slots: seq<Slot>) {
    var ds := Firsts(items);
    && |slots| == |ds|
    && forall i :: 0 <= i < |slots| ==>
         slots[i] == Slot(ds[i], DeviceReport(DeviceName(h, ds[i]), Reports(h, items, ds[i])))
  }

  // ---------------------------------------------------------------------------
  // The factory

  /** The position of `device` in `slots`, or `|slots|` when absent. */
  function SlotIndex(slots: seq<Slot>, device: Option<string>): (i: nat)
    ensures i <= |slots|
    ensures i < |slots| ==> slots[i].device == device
    ensures forall j :: 0 <= j < i ==> slots[j].device != device
  {
    if |slots| == 0 then 0
    else if slots[0].device == device then 0
    else 1 + SlotIndex(slots[1..], device)
  }

  /** The slot lookup depends only on the devices up to the first match. */
  lemma {:induction false} SlotIndexExtends(a: seq<Slot>, b: seq<Slot>, device: Option<string>)
    requires |a| <= |b|
    requires forall i :: 0 <= i < |a| ==> b[i].device == a[i].device
    requires SlotIndex(a, device) == |a| ==> |a| < |b| && b[|a|].device == device
    ensures SlotIndex(b, device) == SlotIndex(a, device)
  {
    if |a| > 0 && a[0].device != device {
      SlotIndexExtends(a[1..], b[1..], device);
    }
  }

  /** One iteration of the loop: append the notification's field report to its
      device's section, opening a named section for a device not yet seen. */
  function Add(h: Option<Handler>, slots: seq<Slot>, n: Notify): (r: seq<Slot>)
    ensures |r| == |slots| + (if SlotIndex(slots, n.device) < |slots| then 0 else 1)
    ensures SlotIndex(r, n.device) == SlotIndex(slots, n.device)
    ensures r[SlotIndex(slots, n.device)].device == n.device
    ensures r[SlotIndex(slots, n.device)].report.fields ==
      (if SlotIndex(slots, n.device) < |slots| then slots[SlotIndex(slots, n.device)].report.fields else [])
      + [FieldReportOf(h, n)]
    ensures SlotIndex(slots, n.device) == |slots| ==>
      r[|slots|].report.name == DeviceName(h, n.device)
    ensures forall i :: 0 <= i < |slots| && i != SlotIndex(slots, n.device) ==> r[i] == slots[i]
  {
    var i := SlotIndex(slots, n.device);
    var r :=
      if i < |slots| then
        slots[i := slots[i].(report := slots[i].report.(fields := slots[i].report.fields + [FieldReportOf(h, n)]))]
      else slots + [Slot(n.device, DeviceReport(DeviceName(h, n.device), [FieldReportOf(h, n)]))];
    SlotIndexExtends(slots, r, n.device);
    r
  }

  /** Reports of a device that does not occur are empty. */
  lemma {:induction false} ReportsAbsent(h: Option<Handler>, items: seq<Notify>, device: Option<string>)
    requires device !in Firsts(items)
    ensures Reports(h, items, device) == []
  {
    if |items| > 0 {
      var p := items[..|items| - 1];
      assert forall i :: 0 <= i < |p| ==> p[i] == items[i];
      assert items[|items| - 1].device != device;
      ReportsAbsent(h, p, device);
    }
  }

  /** The grouping loop over the whole list. */
  function Group(h: Option<Handler>, items: seq<Notify>): (r: seq<Slot>)
    ensures Grouped(h, items, r)
  {
    if |items| == 0 then []
    else
      var p := items[..|items| - 1];
      var n := items[|items| - 1];
      var prior := Group(h, p);
      var r := Add(h, prior, n);
      AddStep(h, p, n, prior);
      assert p + [n] == items;
      r
  }

  /** One loop iteration keeps the slots equal to the reference grouping. */
  lemma AddStep(h: Option<Handler>, p: seq<Notify>, n: Notify, prior: seq<Slot>)
    requires Grouped(h, p, prior)
    ensures Grouped(h, p + [n], Add(h, prior, n))
  {
    var items := p + [n];
    assert items[..|items| - 1] == p;
    var ds := Firsts(p);
    var i := SlotIndex(prior, n.device);
    forall d ensures Reports(h, items, d) == Reports(h, p, d) + (if d == n.device then [FieldReportOf(h, n)] else []) {
    }
    if i == |prior| {
      assert forall k :: 0 <= k < |ds| ==> ds[k] == prior[k].device;
      ReportsAbsent(h, p, n.device);
      assert Firsts(items) == ds + [n.device];
    } else {
      assert ds[i] == n.device;
      assert Firsts(items) == ds;
    }
  }

  /** `create(data, ...)`: no report (null) exactly when there is data, empty
      reports are not wanted, and the list is empty; otherwise a report named
      after the spec, with one section per device in order of first appearance.
      Reading the spec's flag without a spec, or the size of a missing list,
      throws. */
  function Create(h: Option<Handler>, spec: Option<CycleSpec>, data: Option<CycleData>, meta: Meta)
    : (r: Result<Option<Report>>)
    ensures r.Err? <==>
      data.Some? && (spec.None? || (!spec.value.reportIfEmpty && data.value.items.None?))
    ensures r == Ok(None) <==>
      data.Some? && spec.Some? && !spec.value.reportIfEmpty && data.value.items == Some([])
    ensures r.Ok? && r.value.Some? ==>
      var rep := r.value.value;
      && rep.meta == meta
      && (spec.Some? ==> rep.applicationId == spec.value.applicationId && rep.reportName == spec.value.name)
      && (spec.None? ==> rep.applicationId.None? && rep.reportName.None?)
      && (data.Some? && data.value.items.Some? ==> Grouped(h, data.value.items.value, rep.devices))
      && (data.None? || data.value.items.None? ==> rep.devices == [])
  {
    if data.Some? && spec.None? then Err(NullArgument("spec"))
    else if data.Some? && !spec.value.reportIfEmpty && data.value.items.None? then Err(NullArgument("data"))
    else if data.None? || spec.value.reportIfEmpty || |data.value.items.value| > 0 then
      var devices := if data.Some? && data.value.items.Some? then Group(h, data.value.items.value) else [];
      Ok(Some(Report(
        if spec.Some? then spec.value.applicationId else None,
        if spec.Some? then spec.value.name else None,
        meta, devices)))
    else Ok(None)
  }

  // ---------------------------------------------------------------------------
  // Properties of the grouping

  /** The number of field reports over all slots. */
  function FieldCount(slots: seq<Slot>): nat {
    if |slots| == 0 then 0 else |slots[0].report.fields| + FieldCount(slots[1..])
  }

  /** Each notification yields exactly one field report. */
  lemma {:induction false} GroupCount(h: Option<Handler>, items: seq<Notify>)
    ensures FieldCount(Group(h, items)) == |items|
  {
    if |items| > 0 {
      var p := items[..|items| - 1];
      GroupCount(h, p);
      AddCount(h, Group(h, p), items[|items| - 1]);
    }
  }

  lemma {:induction false} AddCount(h: Option<Handler>, slots: seq<Slot>, n: Notify)
    ensures FieldCount(Add(h, slots, n)) == FieldCount(slots) + 1
  {
    var i := SlotIndex(slots, n.device);
    if i < |slots| {
      UpdateCount(slots, i, slots[i].(report := slots[i].report.(fields := slots[i].report.fields + [FieldReportOf(h, n)])));
    } else {
      AppendCount(slots, Slot(n.device, DeviceReport(DeviceName(h, n.device), [FieldReportOf(h, n)])));
    }
  }

  lemma {:induction false} UpdateCount(slots: seq<Slot>, i: nat, s: Slot)
    requires i < |slots|
    ensures FieldCount(slots[i := s]) == FieldCount(slots) - |slots[i].report.fields| + |s.report.fields|
  {
    if i > 0 {
      UpdateCount(slots[1..], i - 1, s);
      assert slots[i := s][1..] == slots[1..][i - 1 := s];
    }
  }

  lemma {:induction false} AppendCount(slots: seq<Slot>, s: Slot)
    ensures FieldCount(slots + [s]) == FieldCount(slots) + |s.report.fields|
  {
    if |slots| > 0 {
      AppendCount(slots[1..], s);
      assert (slots + [s])[1..] == slots[1..] + [s];
    }
  }

  /** The devices of `a, b, a`: `a` then `b`. */
  lemma InterleavedFirsts(x: Notify, y: Notify, z: Notify)
    requires x.device == z.device && x.device != y.device
    ensures Firsts([x, y, z]) == [x.device, y.device]
  {
    assert [x, y, z][..2] == [x, y];
    assert [x, y][..1] == [x];
    assert [x][..0] == [];
    assert Firsts([x]) == [x.device];
    assert Firsts([x, y]) == [x.device, y.device];
  }

  /** The field reports of `a, b, a`, per device. */
  lemma InterleavedReports(x: Notify, y: Notify, z: Notify)
    requires x.device == z.device && x.device != y.device
    ensures Reports(None, [x, y, z], x.device) == [FieldReportOf(None, x), FieldReportOf(None, z)]
    ensures Reports(None, [x, y, z], y.device) == [FieldReportOf(None, y)]
  {
    assert [x, y, z][..2] == [x, y];
    assert [x, y][..1] == [x];
    assert [x][..0] == [];
    assert Reports(None, [x], x.device) == [FieldReportOf(None, x)];
    assert Reports(None, [x, y], x.device) == [FieldReportOf(None, x)];
    assert Reports(None, [x], y.device) == [];
    assert Reports(None, [x, y], y.device) == [FieldReportOf(None, y)];
  }

  /** The example of two interleaved devices: `a, b, a` gives the sections `a`
      (two reports, in data order) and `b`. */
  lemma InterleavedExample(x: Notify, y: Notify, z: Notify)
    requires x.device == z.device && x.device != y.device
    ensures var g := Group(None, [x, y, z]);
      && |g| == 2
      && g[0].device == x.device && g[1].device == y.device
      && g[0].report.fields == [FieldReportOf(None, x), FieldReportOf(None, z)]
      && g[1].report.fields == [FieldReportOf(None, y)]
  {
    InterleavedFirsts(x, y, z);
    InterleavedReports(x, y, z);
  }
}

=== FILE: stream_service.dfy ===
/** `SubscriberAdapterService`: per client id (uuid), an event queue, an adapter
    handler and the iterator that streams the queue to the client. Handlers are
    abstract: each call on one is logged and fails exactly when it is in the
    `failing` set. Events are opaque tokens. */
module StreamService {
  import opened Common

  /** The default queue bound. */
  const DefaultQueueSize: int := 200

  datatype HandlerCall =
    | CreateHandler(uuid: string)                  // the factory's create()
    | SetListener(handler: nat, on: bool)          // on: the queueing listener; off: null
    | CloseHandler(handler: nat)
    | SubscribeKey(handler: nat, device: string, field: string)
    | UnsubscribeKey(handler: nat, device: string, field: string)

  datatype Service = Service(
    queues: map<string, seq<Obj>>,
    subscriptions: map<string, nat>,   // uuid to handler
    iterators: set<string>,
    queueSize: int,
    nextHandler: nat,                  // the handler the factory creates next
    log: seq<HandlerCall>)

  /** A new service with no streams. */
  function Empty(): (r: Service)
    ensures Valid(r) && Bounded(r) && r.queueSize == DefaultQueueSize
  {
    Service(map[], map[], {}, DefaultQueueSize, 0, [])
  }

  /** A live stream has its handler and its queue. */
  predicate Valid(s: Service) {
    forall u :: u in s.iterators ==> u in s.subscriptions && u in s.queues
  }

  /** The queue of every live stream stays within the bound. */
  predicate Bounded(s: Service) {
    forall u :: u in s.iterators && u in s.queues ==> |s.queues[u]| <= s.queueSize
  }

  /** Calls one handler method: logged, and successful unless failing. */
  function Call(s: Service, c: HandlerCall, failing: set<HandlerCall>): (r: (Service, bool))
    ensures r.0 == s.(log := s.log + [c])
    ensures r.1 <==> c !in failing
  {
    (s.(log := s.log + [c]), c !in failing)
  }

  /** The calls that tear down handler `h`: its listener is switched off and,
      unless that throws, it is closed. */
  function Teardown(h: nat, failing: set<HandlerCall>): (r: seq<HandlerCall>)
    ensures 1 <= |r| <= 2 && r[0] == SetListener(h, false)
    ensures forall c :: c in r ==> TeardownCall(c)
    ensures CloseHandler(h) in r <==> SetListener(h, false) !in failing
  {
    [SetListener(h, false)] + (if SetListener(h, false) in failing then [] else [CloseHandler(h)])
  }

  /** A call made while tearing a handler down. */
  predicate TeardownCall(c: HandlerCall) {
    (c.SetListener? && !c.on) || c.CloseHandler?
  }

  /** The iterator's `remove()`: takes the uuid's handler out of the registry,
      switches its listener off and closes it, and only then drops the queue; an
      exception on the way (including a missing handler) is logged. The iterator
      entry is dropped in any case. */
  function RemoveStream(s: Service, uuid: string, failing: set<HandlerCall>): (r: Service)
    ensures uuid !in r.iterators && r.iterators == s.iterators - {uuid}
    ensures r.subscriptions == s.subscriptions - {uuid}
    ensures r.queueSize == s.queueSize && r.nextHandler == s.nextHandler
    ensures uuid in s.subscriptions
              && SetListener(s.subscriptions[uuid], false) !in failing
              && CloseHandler(s.subscriptions[uuid]) !in failing
            ==> r.queues == s.queues - {uuid}
    ensures !(uuid in s.subscriptions
              && SetListener(s.subscriptions[uuid], false) !in failing
              && CloseHandler(s.subscriptions[uuid]) !in failing)
            ==> r.queues == s.queues
    ensures uuid in s.subscriptions ==> r.log == s.log + Teardown(s.subscriptions[uuid], failing)
    ensures uuid !in s.subscriptions ==> r.log == s.log
    ensures Valid(s) ==> Valid(r)
    ensures Bounded(s) ==> Bounded(r)
  {
    var s1 := s.(subscriptions := s.subscriptions - {uuid});
    var s2 :=
      if uuid !in s.subscriptions then s1
      else
        var h := s.subscriptions[uuid];
        var (s3, off) := Call(s1, SetListener(h, false), failing);
        if !off then s3
        else
          var (s4, closed) := Call(s3, CloseHandler(h), failing);
          if closed then s4.(queues := s4.queues - {uuid}) else s4;
    s2.(iterators := s2.iterators - {uuid})
  }

  /** `checkQueue`: a queue longer than the bound tears its stream down, if the
      stream is still live. */
  function CheckQueue(s: Service, uuid: string, failing: set<HandlerCall>): (r: Service)
    requires uuid in s.queues
    ensures |s.queues[uuid]| > s.queueSize && uuid in s.iterators ==> r == RemoveStream(s, uuid, failing)
    ensures !(|s.queues[uuid]| > s.queueSize && uuid in s.iterators) ==> r == s
  {
    if |s.queues[uuid]| > s.queueSize && uuid in s.iterators then RemoveStream(s, uuid, failing) else s
  }

  /** The listener of stream `uuid` receiving an event: queued only if the queue
      still exists, then the bound is checked. */
  function Deliver(s: Service, uuid: string, e: Obj, failing: set<HandlerCall>): (r: Service)
    ensures uuid !in s.queues ==> r == s
    ensures uuid in s.queues ==>
      var grown := s.(queues := s.queues[uuid := s.queues[uuid] + [e]]);
      && (|s.queues[uuid]| + 1 > s.queueSize && uuid in s.iterators ==>
            r == RemoveStream(grown, uuid, failing) && uuid !in r.iterators)
      && (!(|s.queues[uuid]| + 1 > s.queueSize && uuid in s.iterators) ==> r == grown)
    ensures Valid(s) ==> Valid(r)
    ensures Bounded(s) ==> Bounded(r)
  {
    if uuid !in s.queues then s
    else CheckQueue(s.(queues := s.queues[uuid := s.queues[uuid] + [e]]), uuid, failing)
  }

  /** `createSubscribeHandler`: creates a handler and gives it the queueing
      listener. When setting the listener fails the handler is switched off and
      closed (errors swallowed) and the failure is reported; nothing is
      registered. */
  function CreateSubscribeHandler(s: Service, uuid: string, failing: set<HandlerCall>): (r: (Service, Status))
    ensures r.0.queues == s.queues && r.0.iterators == s.iterators && r.0.queueSize == s.queueSize
    ensures r.1.Done? <==> CreateHandler(uuid) !in failing && SetListener(s.nextHandler, true) !in failing
    ensures r.1.Done? ==> r.0.subscriptions == s.subscriptions[uuid := s.nextHandler]
    ensures r.1.Failed? ==> r.0.subscriptions == s.subscriptions
    ensures r.0.nextHandler >= s.nextHandler
  {
    var (s1, created) := Call(s, CreateHandler(uuid), failing);
    if !created then (s1, Failed(OperationFailed))
    else
      var h := s1.nextHandler;
      var s2 := s1.(nextHandler := h + 1);
      var (s3, on) := Call(s2, SetListener(h, true), failing);
      if on then (s3.(subscriptions := s3.subscriptions[uuid := h]), Done)
      else
        var (s4, off) := Call(s3, SetListener(h, false), failing);
        var s5 := if off then Call(s4, CloseHandler(h), failing).0 else s4;
        (s5, Failed(OperationFailed))
  }

  /** `getStream(uuid)`: tears down a live stream of the same id first, then
      registers a fresh empty queue, a new handler and a live iterator. When the
      handler cannot be set up the fresh queue stays registered without a
      stream. */
  function GetStream(s: Service, uuid: string, failing: set<HandlerCall>): (r: (Service, Status))
    ensures var torn := if uuid in s.iterators then RemoveStream(s, uuid, failing) else s;
      && (r.1.Done? <==> CreateHandler(uuid) !in failing && SetListener(torn.nextHandler, true) !in failing)
      && r.0.queues == torn.queues[uuid := []]
      && (r.1.Done? ==>
            && r.0.subscriptions == torn.subscriptions[uuid := torn.nextHandler]
            && r.0.iterators == torn.iterators + {uuid})
      && (r.1.Failed? ==> r.0.iterators == torn.iterators && uuid !in r.0.iterators)
    ensures Valid(s) ==> Valid(r.0)
    ensures Bounded(s) && r.0.queueSize >= 0 ==> Bounded(r.0)
    ensures r.0.queueSize == s.queueSize
  {
    var torn := if uuid in s.iterators then RemoveStream(s, uuid, failing) else s;
    var s1 := torn.(queues := torn.queues[uuid := []]);
    var (s2, st) := CreateSubscribeHandler(s1, uuid, failing);
    if st.Failed? then (s2, st) else (s2.(iterators := s2.iterators + {uuid}), Done)
  }

  /** `subscribe(uuid, device, field)`: forwards to the uuid's handler; an unknown
      uuid fails. */
  function Subscribe(s: Service, uuid: string, device: string, field: string, failing: set<HandlerCall>)
    : (r: (Service, Status))
    ensures uuid !in s.subscriptions ==> r == (s, Failed(NotExist("subscription")))
    ensures uuid in s.subscriptions ==>
      var c := SubscribeKey(s.subscriptions[uuid], device, field);
      r.0 == s.(log := s.log + [c]) && (r.1.Done? <==> c !in failing)
  {
    if uuid !in s.subscriptions then (s, Failed(NotExist("subscription")))
    else
      var (s1, ok) := Call(s, SubscribeKey(s.subscriptions[uuid], device, field), failing);
      (s1, if ok then Done else Failed(OperationFailed))
  }

  /** `unsubscribe(uuid, device, field)`: forwards to the uuid's handler; an
      unknown uuid is silently ignored. */
  function Unsubscribe(s: Service, uuid: string, device: string, field: string, failing: set<HandlerCall>)
    : (r: (Service, Status))
    ensures uuid !in s.subscriptions ==> r == (s, Done)
    ensures uuid in s.subscriptions ==>
      var c := UnsubscribeKey(s.subscriptions[uuid], device, field);
      r.0 == s.(log := s.log + [c]) && (r.1.Done? <==> c !in failing)
  {
    if uuid !in s.subscriptions then (s, Done)
    else
      var (s1, ok) := Call(s, UnsubscribeKey(s.subscriptions[uuid], device, field), failing);
      (s1, if ok then Done else Failed(OperationFailed))
  }

  /** Tears down the streams of `uuids` one after the other. */
  function RemoveEach(s: Service, uuids: seq<string>, failing: set<HandlerCall>): (r: Service)
    ensures r.iterators == s.iterators - set u | u in uuids
    ensures r.subscriptions == s.subscriptions - set u | u in uuids
    ensures forall u :: u !in uuids ==> (u in r.queues <==> u in s.queues)
    ensures Valid(s) ==> Valid(r)
    decreases |uuids|
  {
    if |uuids| == 0 then s
    else
      var r := RemoveEach(RemoveStream(s, uuids[0], failing), uuids[1..], failing);
      assert forall u :: u in uuids <==> u == uuids[0] || u in uuids[1..];
      r
  }

  /** Tearing down the streams of `uuids` only appends teardown calls to the log. */
  lemma {:induction false} RemoveEachAppends(s: Service, uuids: seq<string>, failing: set<HandlerCall>)
    ensures var r := RemoveEach(s, uuids, failing);
      && |s.log| <= |r.log| && r.log[..|s.log|] == s.log
      && (forall i :: |s.log| <= i < |r.log| ==> TeardownCall(r.log[i]))
    decreases |uuids|
  {
    if |uuids| > 0 {
      var s1 := RemoveStream(s, uuids[0], failing);
      var r := RemoveEach(s1, uuids[1..], failing);
      RemoveEachAppends(s1, uuids[1..], failing);
      assert s1.log[..|s.log|] == s.log;
      assert forall i :: |s.log| <= i < |s1.log| ==> r.log[i] == s1.log[i];
    }
  }

  /** Every handler registered for one of `uuids` is switched off and, unless that
      throws, closed while their streams are torn down. */
  lemma {:induction false} RemoveEachDetaches(s: Service, uuids: seq<string>, failing: set<HandlerCall>)
    ensures forall u :: u in uuids && u in s.subscriptions ==>
      Detached(RemoveEach(s, uuids, failing).log, s.log, s.subscriptions[u], failing)
    decreases |uuids|
  {
    if |uuids| > 0 {
      var s1 := RemoveStream(s, uuids[0], failing);
      var r := RemoveEach(s1, uuids[1..], failing);
      RemoveEachAppends(s1, uuids[1..], failing);
      RemoveEachDetaches(s1, uuids[1..], failing);
      forall u | u in uuids && u in s.subscriptions
        ensures Detached(r.log, s.log, s.subscriptions[u], failing)
      {
        var h := s.subscriptions[u];
        if u == uuids[0] {
          TeardownDetaches(s.log, h, failing);
          DetachedLater(r.log, s1.log, s.log, h, failing);
        } else {
          assert u in uuids[1..];
          DetachedEarlier(r.log, s1.log, s.log, h, failing);
        }
      }
    }
  }

  /** One teardown of `h` detaches it. */
  lemma TeardownDetaches(before: seq<HandlerCall>, h: nat, failing: set<HandlerCall>)
    ensures Detached(before + Teardown(h, failing), before, h, failing)
  {
    var after := before + Teardown(h, failing);
    assert after[|before|] == SetListener(h, false);
    if SetListener(h, false) !in failing {
      assert after[|before| + 1] == CloseHandler(h);
    }
  }

  /** Calls appended later do not undo a detachment. */
  lemma DetachedLater(after: seq<HandlerCall>, mid: seq<HandlerCall>, before: seq<HandlerCall>, h: nat, failing: set<HandlerCall>)
    requires |mid| <= |after| && after[..|mid|] == mid
    requires Detached(mid, before, h, failing)
    ensures Detached(after, before, h, failing)
  {
    var i :| |before| <= i < |mid| && mid[i] == SetListener(h, false);
    assert after[i] == mid[i];
    if SetListener(h, false) !in failing {
      var j :| |before| <= j < |mid| && mid[j] == CloseHandler(h);
      assert after[j] == mid[j];
    }
  }

  /** A detachment after `mid` is one after any earlier point `before`. */
  lemma DetachedEarlier(after: seq<HandlerCall>, mid: seq<HandlerCall>, before: seq<HandlerCall>, h: nat, failing: set<HandlerCall>)
    requires |before| <= |mid|
    requires Detached(after, mid, h, failing)
    ensures Detached(after, before, h, failing)
  {
  }

  /** Between the old log `before` and the new log `after`, handler `h` had its
      listener switched off and, unless that threw, was closed. */
  predicate Detached(after: seq<HandlerCall>, before: seq<HandlerCall>, h: nat, failing: set<HandlerCall>) {
    && (exists i :: |before| <= i < |after| && after[i] == SetListener(h, false))
    && (SetListener(h, false) !in failing ==> exists i :: |before| <= i < |after| && after[i] == CloseHandler(h))
  }

  /** `close()`: removes every live stream, visiting a snapshot of the iterators
      in iteration order `order`. */
  function Close(s: Service, order: seq<string>, failing: set<HandlerCall>): (r: Service)
    requires forall u :: u in order <==> u in s.iterators
    ensures r.iterators == {}
    ensures r.subscriptions == s.subscriptions - s.iterators
    ensures Valid(r)
    ensures |s.log| <= |r.log| && r.log[..|s.log|] == s.log
    ensures forall i :: |s.log| <= i < |r.log| ==> TeardownCall(r.log[i])
    ensures forall u :: u in s.iterators && u in s.subscriptions ==> Detached(r.log, s.log, s.subscriptions[u], failing)
  {
    RemoveEachAppends(s, order, failing);
    RemoveEachDetaches(s, order, failing);
    RemoveEach(s, order, failing)
  }

  // ---------------------------------------------------------------------------
  // Properties relating several calls

  /** A successful `getStream` leaves a live stream with an empty queue and a
      fresh handler, to which `subscribe` is forwarded. */
  lemma GetStreamThenSubscribe(s: Service, uuid: string, device: string, field: string, failing: set<HandlerCall>)
    requires GetStream(s, uuid, failing).1.Done?
    ensures var s1 := GetStream(s, uuid, failing).0;
      && uuid in s1.iterators && s1.queues[uuid] == []
      && Subscribe(s1, uuid, device, field, failing).0.log == s1.log + [SubscribeKey(s1.subscriptions[uuid], device, field)]
  {
  }

  /** Events to a live stream accumulate until the queue passes the bound; the
      event that makes it pass tears the stream down. */
  lemma OverflowTearsDown(s: Service, uuid: string, e: Obj, failing: set<HandlerCall>)
    requires uuid in s.iterators && uuid in s.queues && |s.queues[uuid]| == s.queueSize
    ensures uuid !in Deliver(s, uuid, e, failing).iterators
    ensures uuid !in Deliver(s, uuid, e, failing).subscriptions
  {
  }

  /** Without a live stream, nothing tears the queue down: events keep piling up
      while the queue exists (after a failed `getStream`, for instance). */
  lemma DeadQueueGrows(s: Service, uuid: string, e: Obj, failing: set<HandlerCall>)
    requires uuid !in s.iterators && uuid in s.queues
    ensures Deliver(s, uuid, e, failing).queues[uuid] == s.queues[uuid] + [e]
  {
  }

  /** A failed handler setup leaves the fresh queue behind without a stream. */
  lemma FailedGetStreamKeepsQueue(s: Service, uuid: string)
    requires uuid !in s.iterators
    ensures var r := GetStream(s, uuid, {CreateHandler(uuid)});
      r.1.Failed? && uuid in r.0.queues && uuid !in r.0.iterators
  {
  }
}
